=== FILE: README.md ===
# Finance import, export and query — a Dafny model

This project models the finance module of a Midway/TypeORM back office. Seven
services keep spreadsheet data about shop orders, ERP orders, talent
commissions, group-leader service fees, stock, product SKUs and main products.
Each service has three operations:

- `list` builds a filtered, paged query from the request object.
- `export` turns records into labelled sheet rows.
- `import` turns parsed sheet rows into entities to save.

Around the services sit the upload controllers. They check the uploaded
file, read the first worksheet into header-keyed rows, hand the rows to
`import`, and wrap the result in `ok` / `fail` replies. The controllers also
provide the `page2` and `orderList` listing envelopes and the product SKU
`updateById` action.

The model is table-driven, the way the services themselves are written. Each
service declares:

- its columns, as a datatype;
- its export headers and labels;
- an import rule for every column (the header the column is read from, plus
  one of eight expression shapes);
- its query filter, as a list of fuzzy and range steps.

Generic modules interpret those tables:

- `Sanitize` models `safeTrim`: `'-'` becomes null; text is trimmed and then
  stripped of `\0 \b \n \r \t \\ ' "` and `\x1a`.
- `Coerce` models the field expressions (`safeTrim(x) ?? null`,
  `parseFloat(x) || 0`, `x ? new Date(x) : null`, …) and the row-to-entity
  map.
- `Export` models the export row map.
- `Conditions` models the `where` object:
  - fuzzy `Like('%v%')` steps and `Between` range steps;
  - the exact-match loop over the rest of the query;
  - the last-write-wins assignment;
  - the `andWhere` list of the query builder;
  - paging.
- `Sheet` models the worksheet-to-rows parsing of the controllers.
- `Upload` models the file checks and reply messages of the import actions.
- `Controllers` models `page2`, `orderList` and `updateById`.

The service modules (`Orders`, `ErpOrders`, `TalentCommission`,
`GroupLeaderServiceFee`, `Stock`, `ProductSku`, `ProductMain`) give the
tables. They prove what the tables mean for that service:

- which exported columns come back on re-import, and which are lost because
  export and import use different labels;
- which query key decides which condition;
- how the upsert imports match rows to existing records.

The JavaScript runtime is not modelled; it enters as parameters:

- JavaScript values are the `JsValue` datatype, with `undefined`, `null`,
  booleans, numbers, NaN, text, dates, invalid dates and opaque objects.
- `parseFloat`, `parseInt(_, 10)` and `new Date(_)` are the `Coerce.Parsers`
  parameter. `Coerce.JsParsers` fixes the parts JavaScript defines: empty and
  missing cells parse to NaN, and numbers parse back to themselves, except
  that `parseInt` gives a non-zero single digit with the sign of the number
  for a whole number of 10^21 or more (`String` writes it in exponent
  notation, and `parseInt` stops at its dot or `e`).
- `String(x)` and `Number(x)` of non-text values, and `toISOString`, are
  `JsValues.Host` and `iso` parameters.
- The exact-match key test (`Entity.prototype.hasOwnProperty(key)`: is the
  key an own property of the entity's prototype) is the
  `Conditions.Env.isKey` parameter. For the entities here only
  `constructor` passes it; see "## Findings".
- The database lookups of the upsert imports (`find`, `fetch`) are
  parameters.
- The file system and ExcelJS are the `Upload.Io` parameter.

A request object is a sequence of (key, value) pairs, so `Object.keys` order
is kept.

## Model

| member | source | states |
|---|---|---|
| Sanitize.Trim | src/modules/finance/service/orders.ts:264 | `trim()` leaves no whitespace at either end and never lengthens the text |
| Sanitize.TrimSlice | src/modules/finance/service/orders.ts:264 | the trimmed text is a contiguous slice of the input, and everything cut off on either side is whitespace |
| Sanitize.TrimFixedPoint | src/modules/finance/service/orders.ts:264 | `trim()` leaves text unchanged exactly when it has no whitespace at either end |
| Sanitize.Strip | src/modules/finance/service/orders.ts:264 | after the global replace, none of the nine problem characters remains and the text is no longer |
| Sanitize.StripConcat | src/modules/finance/service/orders.ts:264 | the `/g` replace works character by character: stripping a concatenation strips each part |
| Sanitize.StripClean | src/modules/finance/service/orders.ts:264 | text without problem characters passes the replace unchanged |
| Sanitize.SafeTrim | src/modules/finance/service/orders.ts:257-267 | `'-'` becomes null; non-text values pass through; text comes out clean and no longer; the result is nullish exactly when the input was nullish or `'-'` |
| Sanitize.SafeTrimFixedPoint | src/modules/finance/service/orders.ts:257-267 | clean text with no whitespace at either end, other than `'-'`, is returned as is |
| Sanitize.SafeTrimTwice | src/modules/finance/service/orders.ts:257-267 | sanitising a second time changes nothing exactly when the first result is not text, or is text other than `'-'` with no whitespace at either end |
| Sanitize.SafeTrimDropsShield | src/modules/finance/service/orders.ts:264 | a leading quote or control character that is not whitespace is removed after trimming, so it shields the whitespace behind it |
| Sanitize.SafeTrimLeadingSpace | src/modules/finance/service/orders.ts:264 | a leading space in front of a plain character is trimmed away |
| Sanitize.SafeTrimNotIdempotent | src/modules/finance/service/orders.ts:257-267 | a quote, a space and a letter sanitise to the space and the letter; sanitising again gives the letter alone |
| Sanitize.SafeTrimQuotedDash | src/modules/finance/service/orders.ts:257-267 | `'-'` inside quotes sanitises to `'-'`, and a second pass turns that into null |
| Coerce.TextField | src/modules/finance/service/orders.ts:275 | `safeTrim(x) ?? null` is null exactly for a missing cell or `'-'`, is never undefined, sanitises text and keeps numbers, dates and booleans |
| Coerce.TextOrDefault | src/modules/finance/service/erpOrders.ts:226 | `safeTrim(x) ?? d` is never nullish; it is `d` only for a missing cell or `'-'`, so an empty cell stays `''` |
| Coerce.NonEmptyTextField | src/modules/finance/service/stock.ts:153 | `safeTrim(x) \|\| null` is null or truthy; text is null exactly when nothing survives sanitising |
| Coerce.EitherTextField | src/modules/finance/service/stock.ts:152 | the first label wins when its sanitised cell is truthy, otherwise the second label is tried; null only when both are falsy |
| Coerce.DecimalField | src/modules/finance/service/orders.ts:330 | `parseFloat(x) \|\| null` is the parsed number when that is neither NaN nor 0, and null otherwise |
| Coerce.DecimalOrZeroField | src/modules/finance/service/orders.ts:332 | `parseFloat(x) \|\| 0` is always a number; it is 0 exactly when parsing gives NaN or 0 |
| Coerce.IntegerField | src/modules/finance/service/orders.ts:329 | `parseInt(x, 10) \|\| null` is a non-zero whole number or null; it is a number exactly when the parse gives a non-zero integer |
| Coerce.TimestampField | src/modules/finance/service/orders.ts:317 | `x ? new Date(x) : null` is null exactly for a falsy cell; otherwise it is the date `new Date` gives, or an invalid date when the cell is no date |
| Coerce.Entity | src/modules/finance/service/orders.ts:269-345 | the entity built from a row sets exactly the service's columns, each to what its rule reads |
| Coerce.ImportAll | src/modules/finance/service/orders.ts:269-352 | one entity per row, in row order, and the summary `{ success: true, count }` counts them |
| Coerce.MissingCell | src/modules/finance/service/orders.ts:275-343 | a header the row lacks gives null for nullable fields, the default for `?? default`, and 0 for `\|\| 0` |
| Coerce.EmptyCell | src/modules/finance/service/stock.ts:147-157 | an empty cell stays `''` under `??` but becomes null under `\|\|`, null for numbers and dates, and 0 for `\|\| 0` |
| Coerce.NumberCell | src/modules/finance/service/orders.ts:329-343 | a numeric cell is kept by the number shapes except that 0 turns into null under `\|\| null`, and a whole number of 10^21 or more comes out of `parseInt` as another, one-digit number; text shapes keep it as a number |
| Coerce.FailedParse | src/modules/finance/service/orders.ts:329-343 | a cell that parses to NaN or 0 gives null under `\|\| null` and 0 under `\|\| 0` |
| Export.Cell | src/modules/finance/service/orders.ts:247 | an exported cell is never nullish: nullish values become `''`, dates become ISO text where the service converts them, and everything else is kept |
| Export.Row | src/modules/finance/service/orders.ts:244-250 | an export row has exactly the header keys, each holding the exported cell of that record field |
| Export.FieldRoundTrip | src/modules/finance/service/orders.ts:247 | a field exported into a cell and imported back with the same label is restored: clean text as is, missing values per their shape, numbers and dates as the parsers return them, except a whole number of 10^21 or more through `parseInt` |
| Export.RowRoundTrip | src/modules/finance/service/orders.ts:244-250 | every exported column whose import label equals its export label is restored by re-import |
| Export.LostColumn | src/modules/finance/service/orders.ts:275-343 | a column read under a label the export never writes imports as null, its default, or 0 |
| Conditions.Param | src/modules/finance/service/orders.ts:21-22 | a destructuring default applies exactly when the request value is undefined |
| Conditions.Rest | src/modules/finance/service/orders.ts:29 | `...otherParams` holds exactly the request pairs whose key is not destructured |
| Conditions.RestConcat | src/modules/finance/service/orders.ts:29 | `...otherParams` keeps the request order: the rest of two joined requests is the two rests joined |
| Conditions.RestOne | src/modules/finance/service/orders.ts:29 | a single request pair is kept exactly when its key is not destructured (with `RestConcat`, this fixes `otherParams` completely) |
| Conditions.RestGet | src/modules/finance/service/orders.ts:29 | a key that is not destructured reads the same in `otherParams` as in the request |
| Conditions.RestAbsent | src/modules/finance/service/orders.ts:20-30 | a destructured key never appears in `otherParams` |
| Conditions.Pattern | src/modules/finance/service/orders.ts:36 | the `Like` pattern is the value's text wrapped in one `%` on each side |
| Conditions.Fire | src/modules/finance/service/orders.ts:35-50 | a fuzzy step fires exactly on a truthy parameter, with `Like('%v%')`; a range step fires exactly when both bounds are truthy, with `Between` of the two dates |
| Conditions.ExactAssignment | src/modules/finance/service/orders.ts:53-57 | an extra query key becomes an equality condition exactly when it passes the key test (an own property of `Entity.prototype`) and its value is truthy |
| Conditions.AssignDomain | src/modules/finance/service/orders.ts:32-57 | a column is in `where` exactly when some assignment to it fired |
| Conditions.AssignLast | src/modules/finance/service/orders.ts:32-57 | the last assignment that fires for a column is the one `where` keeps |
| Conditions.AssignSkip | src/modules/finance/service/orders.ts:32-57 | assignments that do not fire for a column leave its `where` entry as it was |
| Conditions.CollectAt | src/modules/finance/service/orders.ts:88-124 | the query builder's condition list holds exactly the conditions that fired |
| Conditions.ExactWins | src/modules/finance/service/orders.ts:53-57 | an exact match (a truthy key passing the prototype test) overrides any fuzzy or range condition on it, because the loop runs last |
| Conditions.ExactSilent | src/modules/finance/service/orders.ts:53-57 | a key that is not an own property of `Entity.prototype`, or has a falsy value, adds no exact condition |
| Conditions.WhereAt | src/modules/finance/service/orders.ts:32-57 | a column's `where` entry is the exact match when one applies, and otherwise what the fuzzy and range steps decided |
| Conditions.LaterStepReplaces | src/modules/finance/service/orders.ts:38-46 | two steps on one column both fire: `where` keeps only the later one, while the query builder ANDs both |
| Conditions.LastStepFor | src/modules/finance/service/orders.ts:35-50 | a step that fires, with no later step on its column and no exact match, decides that column |
| Conditions.OnlyStepFor | src/modules/finance/service/orders.ts:35-57 | a column with a single step is in `where` exactly when that step fires or an exact match applies, with the matching condition |
| Conditions.StepsDecide | src/modules/finance/service/orders.ts:35-50 | without an exact match, a column is filtered exactly when one of its steps fires |
| Conditions.NoStepFor | src/modules/finance/service/orders.ts:35-57 | a column that no step is for and no exact match takes is not in `where` |
| Conditions.PrototypeNeverExact | src/modules/finance/service/orders.ts:53-57 | when only `constructor` passes the key test, no column is ever an exact match: each is filtered exactly when one of its steps fires |
| Conditions.StepClause | src/modules/finance/service/orders.ts:88-117 | every step that fires adds its condition to the query builder |
| Conditions.ExactClause | src/modules/finance/service/orders.ts:120-124 | every exact match adds its equality to the query builder |
| Conditions.Offset | src/modules/finance/service/orders.ts:61 | `(page - 1) * size` is NaN exactly when page or size is not numeric |
| Conditions.Paginate | src/modules/finance/service/orders.ts:59-63 | without page and size the query skips 0 and takes 10; a given size is passed through as sent; the skip is `(page - 1) * size` of the values after their defaults, so a numeric skip is (page - 1) times the take, and without a page it is 0 (or NaN for a non-numeric size) |
| Orders.RenamedColumns | src/modules/finance/service/orders.ts:176-343 | the columns whose import header differs from their export label are exactly the renamed ones |
| Orders.Reimport | src/modules/finance/service/orders.ts:244-352 | re-importing an exported order sheet restores every column that is not renamed, and counts every row |
| Orders.SelectedGoodsLost | src/modules/finance/service/orders.ts:179 | export writes selected goods as `所选商品` but import reads `选购商品`, so a re-imported order has none |
| Orders.ProductPriceLost | src/modules/finance/service/orders.ts:184 | export writes the unit price as `商品价格` but import reads `商品单价`, so it comes back null |
| Orders.TotalDiscountLost | src/modules/finance/service/orders.ts:187 | export writes the total discount as `总优惠金额` but import reads `优惠总金额`, so it comes back 0 |
| Orders.KeywordReplacesSubOrder | src/modules/finance/service/orders.ts:44-46 | in `orderPag`, a truthy `keyWord` replaces the sub-order-number condition with its own pattern |
| Orders.CustomQueryAndsKeyword | src/modules/finance/service/orders.ts:94-109 | in `customQuery`, the sub-order filter and the keyword both apply, and the keyword searches selected goods |
| Orders.ExactSubmissionTime | src/modules/finance/service/orders.ts:48-57 | an exact `order_submission_time` in the query (when it passes the prototype key test) overrides the start/end range in `orderPag`, but is ANDed with it in `customQuery` |
| Orders.ProductIdNeverMatched | src/modules/finance/service/orders.ts:53-57 | as written: with the prototype key test, `orderPag` never filters by the column `product_id`, whatever the query |
| Orders.ProductIdMatchedAsColumn | src/modules/finance/service/orders.ts:53-57 | corrected (see "## Findings"): with a key test that accepts the entity's columns, a truthy `product_id` is an exact match |
| Orders.ExportIgnoresKeyword | src/modules/finance/service/orders.ts:141-170 | the order export filters sub-order numbers only by `sub_order_number`; `keyWord` plays no part |
| Orders.FailedCountsNull | src/modules/finance/service/orders.ts:329-331 | a quantity, unit price or payable amount that parses to NaN or 0 is stored as null |
| Orders.FailedFeesZero | src/modules/finance/service/orders.ts:332-335 | shipping and the discount totals that parse to NaN or 0 are stored as 0 |
| Orders.FailedAdjustmentsZero | src/modules/finance/service/orders.ts:336-339 | price adjustment, payment discount, red envelope and transaction fee that parse to NaN or 0 are stored as 0 |
| Orders.FailedReductionZero | src/modules/finance/service/orders.ts:340-341 | the price-reduction and platform-borne discounts that parse to NaN or 0 are stored as 0 |
| Orders.FailedActualDiscountsZero | src/modules/finance/service/orders.ts:342-343 | the merchant- and influencer-borne discounts that parse to NaN or 0 are stored as 0 |
| ErpOrders.LabelsAgree | src/modules/finance/service/erpOrders.ts:108-298 | every ERP column is imported under the label it is exported with |
| ErpOrders.Reimport | src/modules/finance/service/erpOrders.ts:188-305 | re-importing an exported ERP sheet restores every column and counts every row |
| ErpOrders.FlagsNeverNull | src/modules/finance/service/erpOrders.ts:226 | cash-on-delivery and need-invoice are never nullish: a missing cell gives `'false'`, an empty one `''` |
| ErpOrders.KeywordSearchesOrderNumber | src/modules/finance/service/erpOrders.ts:44-46 | a truthy `keyWord` decides the order-number condition |
| ErpOrders.TransactionTimeRange | src/modules/finance/service/erpOrders.ts:49-58 | transaction time is filtered exactly when both range bounds are truthy or an exact match is given (a truthy field passing the prototype key test), and the exact match wins |
| ErpOrders.ExportIgnoresKeyword | src/modules/finance/service/erpOrders.ts:73-105 | the ERP export filters order numbers only by `order_number` |
| ErpOrders.FailedQuantities | src/modules/finance/service/erpOrders.ts:286-292 | ordered and delivered quantities that parse to NaN or 0 are stored as null |
| TalentCommission.Reimport | src/modules/finance/service/talentCommission.ts:159-248 | re-importing an exported commission sheet restores every exported column and counts every row |
| TalentCommission.EffectTimeLost | src/modules/finance/service/talentCommission.ts:212 | import reads an effect time that export never writes, so a re-imported commission has none |
| TalentCommission.KeywordSearchesOrderId | src/modules/finance/service/talentCommission.ts:38-40 | a truthy `keyWord` decides the order-id condition |
| TalentCommission.PaymentTimeRange | src/modules/finance/service/talentCommission.ts:49-58 | payment time is filtered exactly when both bounds are truthy or an exact match is given (a truthy field passing the prototype key test), and the exact match wins |
| TalentCommission.ExportIgnoresKeyword | src/modules/finance/service/talentCommission.ts:73-105 | the commission export filters order ids only by `order_id` |
| TalentCommission.FailedQuantities | src/modules/finance/service/talentCommission.ts:225-227 | product quantity and threshold sales that parse to NaN or 0 are stored as null |
| GroupLeaderServiceFee.LabelsAgree | src/modules/finance/service/groupLeaderServiceFee.ts:108-208 | every service-fee column is imported under the label it is exported with |
| GroupLeaderServiceFee.Reimport | src/modules/finance/service/groupLeaderServiceFee.ts:143-215 | re-importing an exported service-fee sheet restores every column and counts every row |
| GroupLeaderServiceFee.KeywordSearchesOrderId | src/modules/finance/service/groupLeaderServiceFee.ts:38-40 | a truthy `keyWord` decides the order-id condition |
| GroupLeaderServiceFee.PaymentTimeRange | src/modules/finance/service/groupLeaderServiceFee.ts:49-58 | payment time is filtered exactly when both bounds are truthy or an exact match is given (a truthy field passing the prototype key test), and the exact match wins |
| GroupLeaderServiceFee.ExportIgnoresKeyword | src/modules/finance/service/groupLeaderServiceFee.ts:73-105 | the service-fee export filters order ids only by `order_id` |
| GroupLeaderServiceFee.FailedQuantity | src/modules/finance/service/groupLeaderServiceFee.ts:202 | a product quantity that parses to NaN or 0 is stored as null |
| Stock.LabelsAgree | src/modules/finance/service/stock.ts:97-157 | every stock column but fee 1 is imported under its export label; fee 1 is exported as `费用1` and read first under a longer label, then under `费用1` |
| Stock.Reimport | src/modules/finance/service/stock.ts:116-171 | re-importing an exported stock sheet restores every column other than fee 1 and counts every row |
| Stock.Fee1RoundTrip | src/modules/finance/service/stock.ts:152 | an exported fee 1 of clean text comes back unchanged through the fallback label; a missing one comes back null |
| Stock.Fee1FromFallback | src/modules/finance/service/stock.ts:107 | an exported sheet never carries the primary fee-1 label, so fee 1 is always read from `费用1` |
| Stock.ListQuery | src/modules/finance/service/stock.ts:19-61 | the stock list sorts by id descending, and filters product codes exactly when `product_code` or `keyWord` is truthy, with the keyword's pattern winning |
| Stock.ExportIgnoresKeyword | src/modules/finance/service/stock.ts:67-95 | the stock export filters product codes only by `product_code` |
| Stock.FailedQuantity | src/modules/finance/service/stock.ts:163 | a product quantity that parses to NaN or 0 is stored as null |
| Stock.EmptyTextCells | src/modules/finance/service/stock.ts:147-157 | an empty cell gives null for the fees and the rebate (`\|\|`) but `''` for the `??` text columns |
| ProductSku.KeptRowsMembers | src/modules/finance/service/productSku.ts:124-127 | the import keeps exactly the rows whose sanitised product id and SKU name are both truthy |
| ProductSku.Import | src/modules/finance/service/productSku.ts:110-159 | one lookup and one entity per kept row, in order, each taking the id `findOne` found for its key and the columns its row reads; save happens only for a non-empty batch; the count is the number of kept rows |
| ProductSku.KeptKeys | src/modules/finance/service/productSku.ts:137-138 | a kept SKU stores the sanitised product id and SKU name it was matched by |
| ProductSku.KeylessRowSkipped | src/modules/finance/service/productSku.ts:127 | adding a row without product id or SKU name changes nothing the import does |
| ProductSku.SameKeySameTarget | src/modules/finance/service/productSku.ts:130-148 | two rows with the same key target the same record, so a key new to the database gives two inserts in one batch |
| ProductSku.ExportedKeyKept | src/modules/finance/service/productSku.ts:95-127 | an exported SKU with a clean product id and SKU name is kept on re-import and matched by exactly that key |
| ProductSku.Reimport | src/modules/finance/service/productSku.ts:95-144 | re-importing an exported SKU restores every column |
| ProductSku.KeywordSearchesProductId | src/modules/finance/service/productSku.ts:35-37 | a truthy `keyWord` decides the product-id condition |
| ProductSku.ExportIgnoresKeyword | src/modules/finance/service/productSku.ts:62-82 | the SKU export filters product ids only by `product_id` |
| ProductSku.FailedNumbers | src/modules/finance/service/productSku.ts:141-144 | prices and stock that parse to NaN or 0 are stored as null |
| ProductMain.ParamKeys | src/modules/finance/service/productMain.ts:37-64 | the parameter keys are the step keys in step order, then the extra query keys in request order |
| ProductMain.PushesOf | src/modules/finance/service/productMain.ts:37-64 | one SQL condition and one parameter per condition that fires, in order, each under its own key |
| ProductMain.SqlConditions | src/modules/finance/service/productMain.ts:37-64 | the SQL conditions are the rendered conditions that fired, in order |
| ProductMain.Put | src/modules/finance/service/productMain.ts:39 | assigning a new key to the parameter object appends it; assigning an existing key keeps the object's size; afterwards the key reads the new value and every other key reads as before |
| ProductMain.WhereClause | src/modules/finance/service/productMain.ts:67 | the WHERE clause is empty exactly when no condition fired |
| ProductMain.ListParams | src/modules/finance/service/productMain.ts:98-101 | the bound values are the parameter values, followed by size and offset unless pagination is skipped |
| ProductMain.ParametersInOrder | src/modules/finance/service/productMain.ts:34-70 | with distinct keys, `Object.values(parameters)` lists the values in push order |
| ProductMain.ParamKeysDistinct | src/modules/finance/service/productMain.ts:21-64 | no two conditions share a parameter key, because destructured names and extra keys are disjoint |
| ProductMain.ColumnsWithoutPlaceholder | src/modules/finance/service/productMain.ts:37-64 | no column name in a condition contains `?` |
| ProductMain.ParametersAligned | src/modules/finance/service/productMain.ts:59-70 | the parameter values line up one to one with the conditions that fired |
| ProductMain.OnePlaceholderPerValue | src/modules/finance/service/productMain.ts:67-70 | the WHERE clause holds exactly one `?` per bound value |
| ProductMain.ProductIdLikeSql | src/modules/finance/service/productMain.ts:38 | the product-id condition renders as `main.product_id LIKE ?` |
| ProductMain.KeywordAndsProductId | src/modules/finance/service/productMain.ts:37-44 | `product_id` and `keyWord` both add a LIKE on the product id, ANDed, each with its own pattern |
| ProductMain.ExportCell | src/modules/finance/service/productMain.ts:154-160 | export cells are never nullish: price columns are reparsed as decimals, count columns as integers, falsy numbers become `''`, and other columns get `?? ''` |
| ProductMain.ExportRow | src/modules/finance/service/productMain.ts:151-163 | an export row has exactly the export header keys, each the exported cell of its field |
| ProductMain.KeptRowsMembers | src/modules/finance/service/productMain.ts:205-207 | the import keeps exactly the rows whose sanitised product id is truthy |
| ProductMain.ProductIdsOfKept | src/modules/finance/service/productMain.ts:185-187 | the ids collected for the lookup are the kept rows' ids, in order |
| ProductMain.MapGet | src/modules/finance/service/productMain.ts:201-203 | a product id maps to an id exactly when some existing record has it |
| ProductMain.MapLastWins | src/modules/finance/service/productMain.ts:201-203 | when two existing records share a product id, the later one wins |
| ProductMain.Import | src/modules/finance/service/productMain.ts:172-235 | one entity per kept row, in order, with the existing id for its product id; one lookup and one save, only for a non-empty batch; the count is the kept rows |
| ProductMain.SavesWhenKeyed | src/modules/finance/service/productMain.ts:191-232 | the import queries and saves exactly when some row has a product id |
| ProductMain.MapGetFinds | src/modules/finance/service/productMain.ts:201-203 | the map built from the records has a product id exactly when some record carries it, and then maps it to one of that id's records |
| ProductMain.UpdatesExisting | src/modules/finance/service/productMain.ts:222-224 | a kept row updates a record exactly when an existing record has its product id, and then takes that record's id |
| ProductMain.KeylessRowSkipped | src/modules/finance/service/productMain.ts:207 | adding a row without a product id changes neither the kept rows nor the looked-up ids |
| ProductMain.ReimportText | src/modules/finance/service/productMain.ts:130-217 | re-importing an exported product restores its text columns |
| ProductMain.ReimportNumbers | src/modules/finance/service/productMain.ts:154-219 | re-import restores a non-zero price and a non-zero whole sales volume below 10^21; a sales volume from 10^21 on does not come back; a falsy one comes back null |
| Sheet.HeadersAsWritten | src/modules/finance/controller/products/productSku.ts:136-138 | as written: one header per filled cell, in column order; the filled cell of column `j` gives the header at position "number of filled cells before `j`", not at `j` |
| Sheet.HeadersByColumn | src/modules/finance/controller/products/productSku.ts:136-138 | corrected (see "## Findings"): the header list has one entry per column, the trimmed text of a filled cell and `''` for a blank one |
| Sheet.RowDataDomain | src/modules/finance/controller/products/productSku.ts:142-148 | a row object has a key exactly when some filled cell sits under that non-empty header |
| Sheet.RowDataLast | src/modules/finance/controller/products/productSku.ts:142-148 | when two columns share a header, the later column's value wins |
| Sheet.DataRows | src/modules/finance/controller/products/productSku.ts:140-151 | every kept object is the non-empty object of some input row, and every non-empty row object is kept |
| Sheet.DataRowsConcat | src/modules/finance/controller/products/productSku.ts:140-151 | rows are pushed in sheet order: the objects of two joined row lists are the two lists' objects joined |
| Sheet.DataRowsOne | src/modules/finance/controller/products/productSku.ts:149-151 | a single row is pushed exactly when its object has a key (with `DataRowsConcat`, this fixes the pushed list completely) |
| Sheet.ParseAsWritten | src/modules/finance/controller/products/productSku.ts:133-152 | as written: an object is parsed exactly when it is the non-empty object of a row after the header row, read under the collected headers |
| Sheet.Parse | src/modules/finance/controller/products/productSku.ts:133-152 | corrected (see "## Findings"): an object is parsed exactly when it is the non-empty object of a row after the header row, read under the column headers |
| Sheet.GaplessAgree | src/modules/finance/controller/products/productSku.ts:133-152 | with no blank header cell, the code's parsing and the column-aligned parsing agree |
| Sheet.HeaderShift | src/modules/finance/controller/products/productSku.ts:136-145 | a blank first header cell moves `名称` onto the first column, so the code stores `x` where `y` belongs |
| Sheet.LabelledRow | src/modules/finance/controller/products/productSku.ts:140-148 | a value row read under the export labels gives back the exported record |
| Sheet.ExportedSheetReadsBack | src/modules/finance/controller/products/productSku.ts:133-152 | an exported two-row sheet parses to one row carrying every exported cell, under both parsings |
| Upload.ZipSignature | src/modules/finance/controller/products/productSku.ts:104-107 | the hex header starts with `504b` exactly when the file starts with the bytes `0x50 0x4B` |
| Upload.ImportSheet | src/modules/finance/controller/products/productSku.ts:122-173 | a missing worksheet and a sheet without data rows (as the code parses it) each fail with their message; otherwise the service's result or error is wrapped |
| Upload.ImportSheetGapless | src/modules/finance/controller/products/productSku.ts:133-168 | on a header row without blank cells the import hands the service the column-aligned rows |
| Upload.ImportFile | src/modules/finance/controller/products/productSku.ts:74-120 | wrong MIME type, an empty buffer, a path that does not exist, a file at a path that cannot be read, a non-zip file at a path and a data value that is neither a buffer nor a string each fail with their own message; a non-empty buffer is loaded and imported, and so is a readable path whose file starts with the zip signature |
| Upload.SignatureOnlyForPaths | src/modules/finance/controller/products/productMain.ts:86-120 | the same non-zip bytes are imported when sent as a buffer but refused when sent as a path |
| Upload.ProductImportGates | src/modules/finance/controller/products/productSku.ts:74-116 | a successful product import had an xlsx MIME type and either a non-empty buffer or an existing zip file |
| Upload.ImportFiles | src/modules/finance/controller/order/orders.ts:64-149 | the order import fails without files, without a path, or with a missing file; otherwise it reads the first file and imports it |
| Upload.OrdersIgnoreMime | src/modules/finance/controller/order/orders.ts:64-93 | the order import looks only at the first file's data: its MIME type and any further files make no difference |
| Controllers.Page2 | src/modules/finance/controller/products/productSku.ts:179-195 | `page2` succeeds exactly when `list` does, with its rows and total, and echoes page and size as sent; a failure reads `查询失败: ` plus the error |
| Controllers.Page2EchoesRequest | src/modules/finance/controller/products/productSku.ts:179-195 | a request without page and size gets 10 rows from offset 0, but its reply reports page and size as undefined |
| Controllers.Page2SizeIsTake | src/modules/finance/controller/products/productSku.ts:179-195 | the reported size is the number of rows the service was asked for exactly when the request sent a size |
| Controllers.OrderList | src/modules/finance/controller/order/erpOrders.ts:33-42 | `orderList` wraps the listing in `{ code: 200, message: 'Success' }` and lets an error of `list` escape |
| Controllers.OrderListMatchesPage2 | src/modules/finance/controller/order/erpOrders.ts:33-42 | `orderList` and `page2` of one listing carry the same rows and total |
| Controllers.FieldsToUpdate | src/modules/finance/controller/products/productSku.ts:218-235 | the fields to update are exactly the request fields on an allowed column with a non-nullish value |
| Controllers.FieldsToUpdateGet | src/modules/finance/controller/products/productSku.ts:229-235 | each column of the update carries the request's value when allowed and non-nullish, and is absent otherwise |
| Controllers.UpdateById | src/modules/finance/controller/products/productSku.ts:200-254 | a falsy id and an unknown record each fail without writing; nothing to update succeeds without writing; otherwise the allowed fields are written under that id; a lookup error fails with `更新失败: ` and its message without writing, and so does a failed write |
| Controllers.UpdateWritesAllowList | src/modules/finance/controller/products/productSku.ts:218-249 | the write touches only allowed columns, never with null or undefined, and never `id`, and it carries every allowed non-nullish field of the request |

## Left out

- SQL and ORM execution are not modelled. This covers `findAndCount`, `getManyAndCount`, `query`, `save` and `findOne`. Queries are modelled as the `where` object, the condition list, or the SQL text and bound values; results come back as parameters. This also leaves out the count query's `parseInt` and the `INNER` versus `left` join difference.
- ExcelJS reading and writing, and `fs` (`existsSync`, `readFileSync`), are the `Upload.Io` parameter. The export actions' workbook writing (`addWorksheet`, `writeBuffer`, response headers) is not modelled.
- `parseFloat`, `parseInt`, `new Date`, `toISOString`, and `String` and `Number` of non-text values are parameters, because they are floating-point and locale behaviour.
- `Object.values` lists integer-like keys first. The product-main parameter order is modelled for distinct, non-integer keys only.
- The `chunk: 1000` batching of `save` is not modelled. A failure partway through a batch is not modelled either; the model treats the save as one step.
- Logging, DTO validation decorators, the `open` controllers, `configuration.ts` and the entity column metadata are not modelled. The prototype key test is the `isKey` parameter; `Conditions.PrototypeOnly` states what it is for these entities.
- `updateById`'s `error.message` is modelled as the message text of the repository error.
- ProductMain.ParametersInOrder: requires distinct parameter keys, which `ProductMain.ParamKeysDistinct` proves for requests with distinct keys. The integer-key reordering of `Object.values` is not stated.
- Sanitize.SafeTrim: idempotence is not stated, because the code is not idempotent: it trims before it strips. `Sanitize.SafeTrimNotIdempotent`, `Sanitize.SafeTrimQuotedDash` and `Sanitize.SafeTrimTwice` state the code's behaviour instead.
- Upload.ImportFile: the buffer branch's `load` error message, the path branch's `readFile` error message and the message of what `readFileSync` throws are modelled as text returned by `Upload.Io`.
- `new Date` of a range bound in a list filter is a total `Conditions.Env.date` parameter: an unparseable bound is not told apart from a valid one, because the model passes the bounds to SQL without reading them.
- Conditions.Offset: `(page - 1) * size` is computed on exact reals; the double rounding of a product beyond 2^53 is not modelled.
- Export.Cell: an invalid date in a stored record is written as the value itself; `toISOString` would throw on it. Stored records are taken to hold valid dates only.

## Findings

| source | as written | input that shows it | evidently intended | confidence | as-written member | corrected member |
|---|---|---|---|---|---|---|
| src/modules/finance/service/orders.ts:53-57 | the exact-match loop keeps a query key only when `FinanceOrdersEntity.prototype.hasOwnProperty(key)`; the columns are decorated class fields, which are never properties of the prototype, so only `constructor` passes | `orderPag({ product_id: 'x' })`: `product_id` is a column, yet the query is not filtered by it | every key naming a column of the entity becomes an exact match | not executed; read from the entity declarations (entity/orders.ts), which declare fields and no methods | Orders.ProductIdNeverMatched | Orders.ProductIdMatchedAsColumn |
| src/modules/finance/controller/products/productSku.ts:136-145 | header labels are pushed only for the cells `eachCell` visits, which skips blank cells, but data cells are looked up by column number | header row [blank, `名称`] with data row [`x`, `y`] | a blank header cell yields `''` (the `cell.value ? … : ''` branch), so each header stays over its own column | not executed | Sheet.HeaderShift | Sheet.Parse |

The same parsing appears in the other upload controllers at
`src/modules/finance/controller/products/productMain.ts:143-163`,
`src/modules/finance/controller/order/orders.ts:108-128` and
`src/modules/finance/controller/order/erpOrders.ts:120-140`. The model's
import actions (`Upload.ImportSheet` and the actions built on it) run the
code's `Sheet.ParseAsWritten`. The corrected `Sheet.Parse` is what the
export round trips (`Sheet.ExportedSheetReadsBack`) are stated against, and
`Sheet.GaplessAgree` and `Upload.ImportSheetGapless` prove that the two
parsings, and so the import actions, agree whenever the header row has no
blank cell, as on every exported sheet.

The same key test guards every exact-match loop: `src/modules/finance/service/orders.ts:121` and `:168`,
`src/modules/finance/service/erpOrders.ts:55` and `:100`, `src/modules/finance/service/talentCommission.ts:55` and `:100`,
`src/modules/finance/service/groupLeaderServiceFee.ts:55` and `:100`, `src/modules/finance/service/stock.ts:48` and `:89`,
`src/modules/finance/service/productSku.ts:44` and `:76`, and `src/modules/finance/service/productMain.ts:60`. The
model keeps the test as the free `isKey` parameter, so every exact-match lemma
holds for the code's test and for the intended one alike;
`Conditions.PrototypeNeverExact` states what the code's test leaves of them.

=== FILE: coerce.dfy ===
/**
 * How the import services turn one parsed worksheet row (header label to
 * cell value) into an entity field. Every service uses the same eight
 * expression shapes; each is one function here, and a service's import is a
 * table from entity column to (label, shape).
 */
module Coerce {
  import opened Wrappers
  import opened JsValues
  import opened Sanitize

  /** One parsed worksheet row: header label to cell value. */
  type Row = map<string, JsValue>

  /** `item[label]`: a header the row does not carry reads as undefined. */
  function Cell(row: Row, header: string): JsValue {
    if header in row then row[header] else Undefined
  }

  /**
   * The JavaScript parsers the services call on raw cells: `parseFloat`,
   * `parseInt(_, 10)` and the time value of `new Date(_)` (all three `None`
   * for NaN).
   */
  datatype Parsers = Parsers(
    float: JsValue -> Option<real>,
    integer: JsValue -> Option<int>,
    date: JsValue -> Option<int>)

  /** The expression shapes that read a field from a row. */
  datatype Coercion =
    | Text                      // safeTrim(item[label]) ?? null
    | TextOr(fallback: string)  // safeTrim(item[label]) ?? fallback
    | NonEmptyText              // safeTrim(item[label]) || null
    | TextEither(alt: string)   // safeTrim(item[label]) || safeTrim(item[alt]) || null
    | Decimal                   // parseFloat(item[label]) || null
    | DecimalOrZero             // parseFloat(item[label]) || 0
    | Integer                   // parseInt(item[label], 10) || null
    | Timestamp                 // item[label] ? new Date(item[label]) : null

  /** Where a field comes from: the header label and the expression shape. */
  datatype Rule = Rule(header: string, how: Coercion)

  /** `safeTrim(v) ?? null`: null exactly for a missing cell or `-`; text is sanitised. */
  function TextField(v: JsValue): (r: JsValue)
    ensures r == Null <==> Nullish(v) || v == Str("-")
    ensures r != Undefined
    ensures v.Str? && v.s != "-" ==> r.Str? && Clean(r.s) && |r.s| <= |v.s|
    ensures !v.Str? && !Nullish(v) ==> r == v
  {
    Coalesce(SafeTrim(v), Null)
  }

  /** `safeTrim(v) ?? d`: never null; `d` only for a missing cell or `-`, so `''` stays `''`. */
  function TextOrDefault(v: JsValue, d: string): (r: JsValue)
    ensures !Nullish(r)
    ensures Nullish(v) || v == Str("-") ==> r == Str(d)
    ensures v == Str("") ==> r == Str("")
    ensures !Nullish(v) && v != Str("-") ==> r == SafeTrim(v)
  {
    Coalesce(SafeTrim(v), Str(d))
  }

  /** `safeTrim(v) || null`: null for anything falsy after sanitising, blank text included. */
  function NonEmptyTextField(v: JsValue): (r: JsValue)
    ensures r == Null || Truthy(r)
    ensures v.Str? && v.s != "-" ==> (r == Null <==> Strip(Trim(v.s)) == [])
    ensures Truthy(r) ==> r == SafeTrim(v)
    ensures !v.Str? ==> (r == Null <==> !Truthy(v))
  {
    Or(SafeTrim(v), Null)
  }

  /** `safeTrim(a) || safeTrim(b) || null`: the first non-empty of two cells. */
  function EitherTextField(a: JsValue, b: JsValue): (r: JsValue)
    ensures r == Null || Truthy(r)
    ensures Truthy(SafeTrim(a)) ==> r == SafeTrim(a)
    ensures !Truthy(SafeTrim(a)) ==> r == NonEmptyTextField(b)
    ensures r == Null <==> !Truthy(SafeTrim(a)) && !Truthy(SafeTrim(b))
  {
    Or(Or(SafeTrim(a), SafeTrim(b)), Null)
  }

  /** `parseFloat(v) || null`: zero and NaN are both stored as null. */
  function DecimalField(v: JsValue, p: Parsers): (r: JsValue)
    ensures r == Null || (r.Num? && r.n != 0.0)
    ensures r.Num? <==> p.float(v).Some? && p.float(v).value != 0.0
    ensures r.Num? ==> p.float(v) == Some(r.n)
  {
    Or(FromNumber(p.float(v)), Null)
  }

  /** `parseFloat(v) || 0`: always a number; NaN becomes 0. */
  function DecimalOrZeroField(v: JsValue, p: Parsers): (r: JsValue)
    ensures r.Num?
    ensures r == Num(0.0) <==> p.float(v) == None || p.float(v) == Some(0.0)
    ensures p.float(v).Some? ==> r == Num(p.float(v).value)
  {
    Or(FromNumber(p.float(v)), Num(0.0))
  }

  /** `parseInt(v, 10) || null`: a non-zero integer, or null. */
  function IntegerField(v: JsValue, p: Parsers): (r: JsValue)
    ensures r == Null || (r.Num? && r.n != 0.0 && r.n.Floor as real == r.n)
    ensures r.Num? <==> p.integer(v).Some? && p.integer(v).value != 0
    ensures r.Num? ==> p.integer(v) == Some(r.n.Floor)
  {
    Or(FromNumber(if p.integer(v).Some? then Some(p.integer(v).value as real) else None), Null)
  }

  /**
   * `v ? new Date(v) : null`: the raw cell's truthiness decides, not a
   * sanitised one, and a truthy cell that is no date still gives a Date
   * object, an invalid one.
   */
  function TimestampField(v: JsValue, p: Parsers): (r: JsValue)
    ensures r == Null <==> !Truthy(v)
    ensures Truthy(v) && p.date(v).Some? ==> r == Date(p.date(v).value)
    ensures Truthy(v) && p.date(v).None? ==> r == InvalidDate
  {
    if !Truthy(v) then Null
    else
      match p.date(v)
      case Some(ms) => Date(ms)
      case None => InvalidDate
  }

  /** The field value a rule reads from a row. */
  function Read(rule: Rule, row: Row, p: Parsers): JsValue {
    var v := Cell(row, rule.header);
    match rule.how
    case Text => TextField(v)
    case TextOr(d) => TextOrDefault(v, d)
    case NonEmptyText => NonEmptyTextField(v)
    case TextEither(alt) => EitherTextField(v, Cell(row, alt))
    case Decimal => DecimalField(v, p)
    case DecimalOrZero => DecimalOrZeroField(v, p)
    case Integer => IntegerField(v, p)
    case Timestamp => TimestampField(v, p)
  }

  /** One entity: each imported column holds what its rule reads from the row. */
  function Entity<C(!new)>(columns: set<C>, rule: C -> Rule, row: Row, p: Parsers): (e: map<C, JsValue>)
    ensures e.Keys == columns
    ensures forall c :: c in columns ==> e[c] == Read(rule(c), row, p)
  {
    map c | c in columns :: Read(rule(c), row, p)
  }

  /** What an import method returns. */
  datatype Summary = Summary(success: bool, count: nat)

  /** The entities an import builds (one per row, in row order) and its summary. */
  datatype Imported<C> = Imported(entities: seq<map<C, JsValue>>, summary: Summary)

  /** `data.map(row => entity)`, one `save` of them all, `{ success: true, count: entities.length }`. */
  function ImportAll<C(!new)>(columns: set<C>, rule: C -> Rule, rows: seq<Row>, p: Parsers): (r: Imported<C>)
    ensures |r.entities| == |rows|
    ensures r.summary == Summary(true, |rows|)
    ensures forall i :: 0 <= i < |rows| ==> r.entities[i] == Entity(columns, rule, rows[i], p)
  {
    Imported(seq(|rows|, i requires 0 <= i < |rows| => Entity(columns, rule, rows[i], p)), Summary(true, |rows|))
  }

  /** 10^21: from this magnitude on, `String(n)` writes a number in exponent notation. */
  const ExponentFrom: int := 1000000000000000000000

  /** Whether `String(n)` writes the number in plain digits. */
  predicate PlainDigits(n: real) {
    -ExponentFrom as real < n < ExponentFrom as real
  }

  /**
   * `parseInt(String(k))` for a whole number `k`: `k` itself while `String`
   * writes plain digits; from 10^21 on `String` writes `1.5e+21`, and
   * `parseInt` stops at the dot or the `e`, keeping the first digit of that
   * shortest decimal, which is non-zero and carries the sign of `k`.
   */
  ghost predicate IntParsed(p: Parsers, k: int) {
    && p.integer(Num(k as real)).Some?
    && (PlainDigits(k as real) ==> p.integer(Num(k as real)).value == k)
    && (!PlainDigits(k as real) ==>
          var r := p.integer(Num(k as real)).value;
          r != 0 && -10 < r < 10 && (r < 0 <==> k < 0))
  }

  /**
   * What JavaScript fixes about the parsers: `parseFloat` and `parseInt` of
   * undefined, null, a boolean or empty text are NaN, a finite number parses
   * back to itself under `parseFloat`, and a whole number parses under
   * `parseInt` as `IntParsed` says.
   */
  ghost predicate JsParsers(p: Parsers) {
    && p.float(Undefined) == None && p.float(Null) == None && p.float(Str("")) == None
    && p.integer(Undefined) == None && p.integer(Null) == None && p.integer(Str("")) == None
    && (forall b :: p.float(Bool(b)) == None && p.integer(Bool(b)) == None)
    && (forall n :: p.float(Num(n)) == Some(n))
    && (forall k: int :: IntParsed(p, k))
  }

  /** Whether a shape can store null. */
  predicate Nullable(how: Coercion) {
    !how.TextOr? && !how.DecimalOrZero?
  }

  /**
   * A cell the row does not have is stored as null by every shape that can
   * store null, as the default by `?? d`, and as 0 by `|| 0`.
   */
  lemma {:induction false} MissingCell(rule: Rule, row: Row, p: Parsers)
    requires JsParsers(p)
    requires rule.header !in row
    requires rule.how.TextEither? ==> rule.how.alt !in row
    ensures Nullable(rule.how) ==> Read(rule, row, p) == Null
    ensures rule.how.TextOr? ==> Read(rule, row, p) == Str(rule.how.fallback)
    ensures rule.how.DecimalOrZero? ==> Read(rule, row, p) == Num(0.0)
  {
    assert Cell(row, rule.header) == Undefined;
  }

  /**
   * An empty cell (the parsed sheet stores `''` for a present but empty
   * value) is kept as `''` by the `??` text shapes but stored as null by
   * `|| null` and by the numeric shapes.
   */
  lemma {:induction false} EmptyCell(rule: Rule, row: Row, p: Parsers)
    requires JsParsers(p)
    requires Cell(row, rule.header) == Str("")
    requires rule.how.TextEither? ==> !Truthy(SafeTrim(Cell(row, rule.how.alt)))
    ensures rule.how.Text? || rule.how.TextOr? ==> Read(rule, row, p) == Str("")
    ensures rule.how.NonEmptyText? || rule.how.TextEither? || rule.how.Decimal? || rule.how.Integer?
      ==> Read(rule, row, p) == Null
    ensures rule.how.DecimalOrZero? ==> Read(rule, row, p) == Num(0.0)
    ensures rule.how.Timestamp? ==> Read(rule, row, p) == Null
  {
    assert Trim("") == "";
    assert Strip("") == "";
    assert SafeTrim(Str("")) == Str("");
    match rule.how
    case TextEither(alt) =>
      assert EitherTextField(Str(""), Cell(row, alt)) == Null;
    case _ =>
  }

  /**
   * A number cell reaches a numeric field unchanged unless it is 0, and a
   * number cell in a text field is stored as the number (`safeTrim` only
   * touches strings). A whole number from 10^21 on reaches an integer field
   * as a single non-zero digit with its sign.
   */
  lemma {:induction false} NumberCell(rule: Rule, row: Row, p: Parsers, n: real)
    requires JsParsers(p)
    requires Cell(row, rule.header) == Num(n)
    ensures rule.how.Decimal? ==> Read(rule, row, p) == (if n == 0.0 then Null else Num(n))
    ensures rule.how.DecimalOrZero? ==> Read(rule, row, p) == Num(n)
    ensures rule.how.Text? || rule.how.TextOr? ==> Read(rule, row, p) == Num(n)
    ensures rule.how.Integer? && n.Floor as real == n && PlainDigits(n)
      ==> Read(rule, row, p) == (if n == 0.0 then Null else Num(n))
    ensures rule.how.Integer? && n.Floor as real == n && !PlainDigits(n)
      ==> Read(rule, row, p).Num? && Read(rule, row, p) != Num(n) && -10.0 < Read(rule, row, p).n < 10.0
  {
    if rule.how.Integer? && n.Floor as real == n {
      assert IntParsed(p, n.Floor);
    }
  }

  /** A cell that `parseFloat` and `parseInt` both read as 0 or NaN. */
  predicate ParsesToNothing(v: JsValue, p: Parsers) {
    && (p.float(v) == None || p.float(v) == Some(0.0))
    && (p.integer(v) == None || p.integer(v) == Some(0))
  }

  /**
   * A cell that parses to 0 or NaN is stored as null by `|| null` and as 0
   * by `|| 0`: the numeric shapes cannot tell a zero from garbage.
   */
  lemma {:induction false} FailedParse(rule: Rule, row: Row, p: Parsers)
    ensures ParsesToNothing(Cell(row, rule.header), p) && (rule.how.Decimal? || rule.how.Integer?) ==> Read(rule, row, p) == Null
    ensures ParsesToNothing(Cell(row, rule.header), p) && rule.how.DecimalOrZero? ==> Read(rule, row, p) == Num(0.0)
  {
  }
}

=== FILE: conditions.dfy ===
/**
 * The filter every list and export method builds from a request query.
 * The query is destructured into named parameters (`page = 1`, `size = 10`
 * and the filter's own fields) and the rest; each named field switches on a
 * fuzzy `LIKE '%v%'` condition or, with its partner, a date range; every
 * remaining field that is truthy and passes the key test (an own property
 * of the entity's prototype) becomes an exact match.
 *
 * Two ways of collecting the conditions occur: a TypeORM where-object, where
 * a later assignment to the same column replaces an earlier one, and a query
 * builder (or raw SQL) list, where every condition is ANDed.
 */
module Conditions {
  import opened Wrappers
  import opened JsValues

  /** A request query: its fields in `Object.keys` order. */
  type Query = seq<(string, JsValue)>

  /** A JavaScript object has each key once. */
  predicate DistinctKeys(q: Query) {
    forall i, j :: 0 <= i < j < |q| ==> q[i].0 != q[j].0
  }

  predicate HasKey(q: Query, key: string) {
    exists i :: 0 <= i < |q| && q[i].0 == key
  }

  /** `query[key]`: undefined when the query has no such field. */
  function Get(q: Query, key: string): (v: JsValue)
    ensures !HasKey(q, key) ==> v == Undefined
  {
    if q == [] then Undefined
    else if q[0].0 == key then q[0].1
    else
      Get(q[1..], key)
  }

  /** `const { name = d } = query`: the default applies only to an undefined field. */
  function Param(q: Query, name: string, d: JsValue): (v: JsValue)
    ensures Get(q, name) != Undefined ==> v == Get(q, name)
    ensures Get(q, name) == Undefined ==> v == d
  {
    var v := Get(q, name);
    if v == Undefined then d else v
  }

  /** `...otherParams`: the fields not destructured by name, in their order. */
  function Rest(q: Query, names: set<string>): (r: Query)
    ensures |r| <= |q|
    ensures forall i :: 0 <= i < |r| ==> r[i] in q && r[i].0 !in names
    ensures forall i :: 0 <= i < |q| && q[i].0 !in names ==> q[i] in r
  {
    if q == [] then []
    else (if q[0].0 in names then [] else [q[0]]) + Rest(q[1..], names)
  }

  /** The rest keeps each key once. */
  lemma {:induction false} RestDistinct(q: Query, names: set<string>)
    requires DistinctKeys(q)
    ensures DistinctKeys(Rest(q, names))
  {
    if q != [] {
      RestDistinct(q[1..], names);
      var r := Rest(q[1..], names);
      forall i | 0 <= i < |r| ensures r[i].0 != q[0].0 {
        var k :| 1 <= k < |q| && q[k] == r[i] by {
          assert r[i] in q[1..];
        }
      }
    }
  }

  /** Reading a field that is not destructured from the rest reads it from the query. */
  lemma {:induction false} RestGet(q: Query, names: set<string>, key: string)
    requires key !in names
    ensures Get(Rest(q, names), key) == Get(q, key)
  {
    if q != [] {
      RestGet(q[1..], names, key);
      var r := Rest(q[1..], names);
      if q[0].0 in names {
        assert Rest(q, names) == r;
      } else {
        assert Rest(q, names) == [q[0]] + r;
        assert ([q[0]] + r)[1..] == r;
      }
    }
  }

  /** The rest of a joined query is the joined rests: `...otherParams` keeps the request order. */
  lemma {:induction false} RestConcat(q1: Query, q2: Query, names: set<string>)
    ensures Rest(q1 + q2, names) == Rest(q1, names) + Rest(q2, names)
  {
    if q1 != [] {
      assert (q1 + q2)[0] == q1[0];
      assert (q1 + q2)[1..] == q1[1..] + q2;
      RestConcat(q1[1..], q2, names);
    } else {
      assert q1 + q2 == q2;
    }
  }

  /** A single pair is kept exactly when its key is not destructured. */
  lemma RestOne(e: (string, JsValue), names: set<string>)
    ensures Rest([e], names) == if e.0 in names then [] else [e]
  {
    assert [e][1..] == [];
  }

  /** What the services do with the query besides the entity itself. */
  datatype Env = Env(
    host: Host,                 // String() and Number() of non-strings
    date: JsValue -> int,       // new Date(v), by its time value
    isKey: string -> bool)      // Entity.prototype.hasOwnProperty(key): an own property of the prototype

  /** One named filter step. */
  datatype Step =
    | Fuzzy(param: string, column: string)            // if (q[param]) column LIKE `%${q[param]}%`
    | Range(column: string, from: string, to: string) // if (q[from] && q[to]) column BETWEEN dates

  datatype Cond =
    | Like(pattern: string)
    | Between(lo: int, hi: int)
    | Equals(value: JsValue)

  /** The query fields a step destructures. */
  function StepParams(s: Step): set<string> {
    match s
    case Fuzzy(p, _) => {p}
    case Range(_, a, b) => {a, b}
  }

  /** The template literal `%${v}%`. */
  function Pattern(v: JsValue, host: Host): (p: string)
    ensures |p| >= 2 && p[0] == '%' && p[|p| - 1] == '%'
    ensures p[1..|p| - 1] == Text(v, host)
  {
    "%" + Text(v, host) + "%"
  }

  /** The condition a step contributes, `None` when its guard is false. */
  function Fire(s: Step, q: Query, env: Env): (c: Option<Cond>)
    ensures s.Fuzzy? ==> (c.Some? <==> Truthy(Get(q, s.param)))
    ensures s.Fuzzy? && c.Some? ==> c.value == Like(Pattern(Get(q, s.param), env.host))
    ensures s.Range? ==> (c.Some? <==> Truthy(Get(q, s.from)) && Truthy(Get(q, s.to)))
    ensures s.Range? && c.Some? ==> c.value == Between(env.date(Get(q, s.from)), env.date(Get(q, s.to)))
  {
    match s
    case Fuzzy(p, _) =>
      var v := Get(q, p);
      if Truthy(v) then Some(Like(Pattern(v, env.host))) else None
    case Range(_, a, b) =>
      var lo := Get(q, a);
      var hi := Get(q, b);
      if Truthy(lo) && Truthy(hi) then Some(Between(env.date(lo), env.date(hi))) else None
  }

  /** One assignment `where[column] = cond` a filter makes, `None` when its guard is false. */
  datatype Assignment = Assignment(column: string, cond: Option<Cond>)

  /** The assignments of the steps, in order. */
  function StepAssignments(steps: seq<Step>, q: Query, env: Env): (a: seq<Assignment>)
    ensures |a| == |steps|
    ensures forall i :: 0 <= i < |steps| ==> a[i] == Assignment(steps[i].column, Fire(steps[i], q, env))
  {
    seq(|steps|, i requires 0 <= i < |steps| => Assignment(steps[i].column, Fire(steps[i], q, env)))
  }

  /** The exact-match assignment of a rest field: only a truthy field passing the key test. */
  function ExactAssignment(e: (string, JsValue), env: Env): (a: Assignment)
    ensures a.column == e.0
    ensures a.cond.Some? <==> env.isKey(e.0) && Truthy(e.1)
    ensures a.cond.Some? ==> a.cond.value == Equals(e.1)
  {
    Assignment(e.0, if env.isKey(e.0) && Truthy(e.1) then Some(Equals(e.1)) else None)
  }

  /** The exact-match assignments of the rest fields, in query order. */
  function ExactAssignments(rest: Query, env: Env): (a: seq<Assignment>)
    ensures |a| == |rest|
    ensures forall i :: 0 <= i < |rest| ==> a[i] == ExactAssignment(rest[i], env)
  {
    seq(|rest|, i requires 0 <= i < |rest| => ExactAssignment(rest[i], env))
  }

  /** Assignment `i` takes effect and no later one to the same column does. */
  predicate LastFor(a: seq<Assignment>, i: int)
    requires 0 <= i < |a|
  {
    a[i].cond.Some? && forall j :: i < j < |a| && a[j].column == a[i].column ==> a[j].cond.None?
  }

  /** A where-object built by the assignments in order: later ones replace earlier ones. */
  function Assign(a: seq<Assignment>): map<string, Cond> {
    if a == [] then map[]
    else
      var w := Assign(a[..|a| - 1]);
      var last := a[|a| - 1];
      if last.cond.Some? then w[last.column := last.cond.value] else w
  }

  /** Assignment `i` constrains column `c`. */
  predicate Sets(a: seq<Assignment>, c: string, i: int) {
    0 <= i < |a| && a[i].column == c && a[i].cond.Some?
  }

  /** A column is in the where-object exactly when some assignment to it takes effect. */
  lemma {:induction false} AssignDomain(a: seq<Assignment>, c: string)
    ensures c in Assign(a) <==> exists i :: Sets(a, c, i)
  {
    if a != [] {
      var n := |a| - 1;
      var init := a[..n];
      AssignDomain(init, c);
      if Sets(a, c, n) {
        assert c in Assign(a);
      } else {
        assert c in Assign(a) <==> c in Assign(init);
        forall i | Sets(a, c, i) ensures Sets(init, c, i) {
          assert init[i] == a[i];
        }
        forall i | Sets(init, c, i) ensures Sets(a, c, i) {
          assert init[i] == a[i];
        }
      }
    }
  }

  /** The last assignment to a column that takes effect gives its condition. */
  lemma {:induction false} AssignLast(a: seq<Assignment>, i: int)
    requires 0 <= i < |a| && LastFor(a, i)
    ensures a[i].column in Assign(a) && Assign(a)[a[i].column] == a[i].cond.value
  {
    var n := |a| - 1;
    if i < n {
      var init := a[..n];
      assert init[i] == a[i];
      assert LastFor(init, i) by {
        forall j | i < j < |init| && init[j].column == init[i].column ensures init[j].cond.None? {
          assert init[j] == a[j];
        }
      }
      AssignLast(init, i);
    }
  }

  /** A list of ANDed conditions: one per assignment that takes effect, in order. */
  function Collect(a: seq<Assignment>): (cs: seq<Clause>)
    ensures |cs| <= |a|
  {
    if a == [] then []
    else
      (if a[0].cond.Some? then [Clause(a[0].column, a[0].cond.value)] else []) + Collect(a[1..])
  }

  /** A clause is in the list exactly when an assignment that takes effect produced it. */
  lemma {:induction false} CollectAt(a: seq<Assignment>, cl: Clause)
    ensures cl in Collect(a) <==> exists i :: 0 <= i < |a| && a[i] == Assignment(cl.column, Some(cl.cond))
  {
    if a != [] {
      CollectAt(a[1..], cl);
      if cl in Collect(a) && cl !in Collect(a[1..]) {
        assert a[0] == Assignment(cl.column, Some(cl.cond));
      }
      forall i | 1 <= i < |a| ensures a[i] == a[1..][i - 1] {}
    }
  }

  /** One ANDed condition of a query builder or raw SQL statement. */
  datatype Clause = Clause(column: string, cond: Cond)

  /** A list, export or page filter: its steps, and whether `page` and `size` are destructured. */
  datatype Filter = Filter(steps: seq<Step>, paged: bool)

  function ParamsOf(steps: seq<Step>): (names: set<string>)
    ensures forall i :: 0 <= i < |steps| ==> StepParams(steps[i]) <= names
  {
    if steps == [] then {} else StepParams(steps[0]) + ParamsOf(steps[1..])
  }

  /** A field no step destructures is not among the steps' names. */
  lemma {:induction false} NotDestructured(steps: seq<Step>, x: string)
    requires forall s :: s in steps ==> x !in StepParams(s)
    ensures x !in ParamsOf(steps)
  {
    if steps != [] {
      assert steps[0] in steps;
      assert forall s :: s in steps[1..] ==> s in steps;
      NotDestructured(steps[1..], x);
    }
  }

  /** The destructured field names. */
  function Names(f: Filter): set<string> {
    ParamsOf(f.steps) + (if f.paged then {"page", "size"} else {})
  }

  /** All assignments a filter makes: its steps, then the exact matches of the rest. */
  function Assignments(f: Filter, q: Query, env: Env): seq<Assignment> {
    StepAssignments(f.steps, q, env) + ExactAssignments(Rest(q, Names(f)), env)
  }

  /** The TypeORM where-object. */
  function Where(f: Filter, q: Query, env: Env): map<string, Cond> {
    Assign(Assignments(f, q, env))
  }

  /** The ANDed conditions of a query builder. */
  function Clauses(f: Filter, q: Query, env: Env): seq<Clause> {
    Collect(Assignments(f, q, env))
  }

  /** Which field is an exact match. */
  predicate Exact(f: Filter, q: Query, env: Env, key: string) {
    key !in Names(f) && env.isKey(key) && Truthy(Get(q, key))
  }

  /** The where-object of the steps alone. */
  function StepsWhere(steps: seq<Step>, q: Query, env: Env): map<string, Cond> {
    Assign(StepAssignments(steps, q, env))
  }

  /** In a query with distinct keys, a field's value is what `query[key]` reads. */
  lemma {:induction false} GetAt(q: Query, i: int)
    requires DistinctKeys(q) && 0 <= i < |q|
    ensures Get(q, q[i].0) == q[i].1
  {
    if i > 0 {
      assert q[1..][i - 1] == q[i];
      assert DistinctKeys(q[1..]) by {
        forall a, b | 0 <= a < b < |q[1..]| ensures q[1..][a].0 != q[1..][b].0 {
          assert q[1..][a] == q[a + 1] && q[1..][b] == q[b + 1];
        }
      }
      GetAt(q[1..], i - 1);
    }
  }

  /** A destructured field is not in the rest. */
  lemma {:induction false} RestAbsent(q: Query, names: set<string>, key: string)
    requires key in names
    ensures !HasKey(Rest(q, names), key)
  {
    var r := Rest(q, names);
    forall i | 0 <= i < |r| ensures r[i].0 != key {
      assert r[i].0 !in names;
    }
  }

  /** Appending assignments that never set `c` leaves `c` as it was. */
  lemma {:induction false} AssignSkip(a: seq<Assignment>, b: seq<Assignment>, c: string)
    requires forall i :: 0 <= i < |b| && b[i].column == c ==> b[i].cond.None?
    ensures c in Assign(a + b) <==> c in Assign(a)
    ensures c in Assign(a) ==> Assign(a + b)[c] == Assign(a)[c]
  {
    if b == [] {
      assert a + b == a;
    } else {
      var n := |b| - 1;
      var ab := a + b;
      assert ab[..|ab| - 1] == a + b[..n];
      assert ab[|ab| - 1] == b[n];
      AssignSkip(a, b[..n], c);
      assert Assign(ab) == if b[n].cond.Some? then Assign(a + b[..n])[b[n].column := b[n].cond.value] else Assign(a + b[..n]);
    }
  }

  /** The exact match of a truthy field passing the key test is the last word on its column. */
  lemma {:induction false} ExactWins(sa: seq<Assignment>, rest: Query, env: Env, k: int)
    requires DistinctKeys(rest) && 0 <= k < |rest|
    requires env.isKey(rest[k].0) && Truthy(rest[k].1)
    ensures rest[k].0 in Assign(sa + ExactAssignments(rest, env))
    ensures Assign(sa + ExactAssignments(rest, env))[rest[k].0] == Equals(rest[k].1)
  {
    var ea := ExactAssignments(rest, env);
    var all := sa + ea;
    assert all[|sa| + k] == ea[k];
    assert LastFor(all, |sa| + k);
    AssignLast(all, |sa| + k);
  }

  /** A field that is not truthy or fails the key test makes no exact match. */
  lemma {:induction false} ExactSilent(rest: Query, env: Env, c: string)
    requires DistinctKeys(rest)
    requires !(env.isKey(c) && Truthy(Get(rest, c)))
    ensures forall j :: 0 <= j < |rest| && ExactAssignments(rest, env)[j].column == c ==> ExactAssignments(rest, env)[j].cond.None?
  {
    forall j | 0 <= j < |rest| && rest[j].0 == c ensures ExactAssignment(rest[j], env).cond.None? {
      GetAt(rest, j);
    }
  }

  /**
   * The where-object, column by column: a truthy field passing the key test that is
   * not destructured replaces any step's condition on the same column with
   * an exact match; otherwise the steps alone decide.
   */
  lemma {:induction false} WhereAt(f: Filter, q: Query, env: Env, c: string)
    requires DistinctKeys(q)
    ensures Exact(f, q, env, c) ==> c in Where(f, q, env) && Where(f, q, env)[c] == Equals(Get(q, c))
    ensures !Exact(f, q, env, c) ==>
      (c in Where(f, q, env) <==> c in StepsWhere(f.steps, q, env))
      && (c in Where(f, q, env) ==> Where(f, q, env)[c] == StepsWhere(f.steps, q, env)[c])
  {
    var names := Names(f);
    var rest := Rest(q, names);
    var sa := StepAssignments(f.steps, q, env);
    RestDistinct(q, names);
    if c in names {
      RestAbsent(q, names, c);
    } else {
      RestGet(q, names, c);
    }
    if Exact(f, q, env, c) {
      var k :| 0 <= k < |rest| && rest[k].0 == c;
      GetAt(rest, k);
      ExactWins(sa, rest, env, k);
    } else {
      ExactSilent(rest, env, c);
      AssignSkip(sa, ExactAssignments(rest, env), c);
    }
  }

  /**
   * Two firing steps on one column: the where-object keeps only the later
   * condition, while a clause list ANDs both.
   */
  lemma {:induction false} LaterStepReplaces(f: Filter, q: Query, env: Env, i: int, j: int)
    requires DistinctKeys(q)
    requires 0 <= i < j < |f.steps| && f.steps[i].column == f.steps[j].column
    requires Fire(f.steps[i], q, env).Some?
    requires LastFor(StepAssignments(f.steps, q, env), j) && !Exact(f, q, env, f.steps[j].column)
    ensures f.steps[j].column in Where(f, q, env)
    ensures Where(f, q, env)[f.steps[j].column] == Fire(f.steps[j], q, env).value
    ensures Clause(f.steps[i].column, Fire(f.steps[i], q, env).value) in Clauses(f, q, env)
    ensures Clause(f.steps[j].column, Fire(f.steps[j], q, env).value) in Clauses(f, q, env)
  {
    var sa := StepAssignments(f.steps, q, env);
    var all := Assignments(f, q, env);
    AssignLast(sa, j);
    WhereAt(f, q, env, f.steps[j].column);
    assert all[i] == sa[i] && all[j] == sa[j];
    CollectAt(all, Clause(f.steps[i].column, Fire(f.steps[i], q, env).value));
    CollectAt(all, Clause(f.steps[j].column, Fire(f.steps[j], q, env).value));
  }

  /**
   * When no later step is for the same column and no exact match takes
   * it, a firing step's condition is the column's condition.
   */
  lemma {:induction false} LastStepFor(f: Filter, q: Query, env: Env, j: int)
    requires DistinctKeys(q) && 0 <= j < |f.steps|
    requires Fire(f.steps[j], q, env).Some?
    requires forall i :: j < i < |f.steps| ==> f.steps[i].column != f.steps[j].column
    requires !Exact(f, q, env, f.steps[j].column)
    ensures f.steps[j].column in Where(f, q, env)
    ensures Where(f, q, env)[f.steps[j].column] == Fire(f.steps[j], q, env).value
  {
    var sa := StepAssignments(f.steps, q, env);
    assert LastFor(sa, j);
    AssignLast(sa, j);
    WhereAt(f, q, env, f.steps[j].column);
  }

  /**
   * A column only one step is for: it is constrained exactly when that step
   * fires or an exact match takes it, and the exact match wins.
   */
  lemma {:induction false} OnlyStepFor(f: Filter, q: Query, env: Env, j: int)
    requires DistinctKeys(q) && 0 <= j < |f.steps|
    requires forall i :: 0 <= i < |f.steps| && i != j ==> f.steps[i].column != f.steps[j].column
    ensures f.steps[j].column in Where(f, q, env) <==> Fire(f.steps[j], q, env).Some? || Exact(f, q, env, f.steps[j].column)
    ensures Exact(f, q, env, f.steps[j].column) ==> Where(f, q, env)[f.steps[j].column] == Equals(Get(q, f.steps[j].column))
    ensures !Exact(f, q, env, f.steps[j].column) && Fire(f.steps[j], q, env).Some? ==>
      Where(f, q, env)[f.steps[j].column] == Fire(f.steps[j], q, env).value
  {
    var c := f.steps[j].column;
    var sa := StepAssignments(f.steps, q, env);
    WhereAt(f, q, env, c);
    AssignDomain(sa, c);
    if Fire(f.steps[j], q, env).Some? {
      assert LastFor(sa, j);
      AssignLast(sa, j);
    }
  }

  /**
   * A column no exact match takes is constrained exactly when one of the
   * steps for it fires.
   */
  lemma {:induction false} StepsDecide(f: Filter, q: Query, env: Env, c: string)
    requires DistinctKeys(q) && !Exact(f, q, env, c)
    ensures c in Where(f, q, env) <==> exists i :: 0 <= i < |f.steps| && f.steps[i].column == c && Fire(f.steps[i], q, env).Some?
  {
    var sa := StepAssignments(f.steps, q, env);
    WhereAt(f, q, env, c);
    AssignDomain(sa, c);
    if c in Where(f, q, env) {
      var i :| Sets(sa, c, i);
      assert f.steps[i].column == c && Fire(f.steps[i], q, env).Some?;
    } else {
      forall i | 0 <= i < |f.steps| && f.steps[i].column == c ensures Fire(f.steps[i], q, env).None? {
        assert !Sets(sa, c, i);
      }
    }
  }

  /** A column no step is for and no exact match takes is not in `where`. */
  lemma {:induction false} NoStepFor(f: Filter, q: Query, env: Env, c: string)
    requires DistinctKeys(q) && !Exact(f, q, env, c)
    requires forall s :: s in f.steps ==> s.column != c
    ensures c !in Where(f, q, env)
  {
    StepsDecide(f, q, env, c);
    forall i | 0 <= i < |f.steps| ensures f.steps[i].column != c {
      assert f.steps[i] in f.steps;
    }
  }

  /**
   * `Entity.prototype.hasOwnProperty` for an entity class whose columns are
   * decorated fields and which declares no methods: class fields never
   * become properties of the prototype, so only `constructor` is one.
   */
  ghost predicate PrototypeOnly(env: Env) {
    forall k :: env.isKey(k) <==> k == "constructor"
  }

  /**
   * With such a key test no query field is ever an exact match on a
   * column: every column is constrained exactly when one of its steps fires.
   */
  lemma {:induction false} PrototypeNeverExact(f: Filter, q: Query, env: Env, c: string)
    requires DistinctKeys(q) && PrototypeOnly(env) && c != "constructor"
    ensures c in Where(f, q, env) <==> exists i :: 0 <= i < |f.steps| && f.steps[i].column == c && Fire(f.steps[i], q, env).Some?
  {
    StepsDecide(f, q, env, c);
  }

  /** A query builder ANDs every step that fires. */
  lemma {:induction false} StepClause(f: Filter, q: Query, env: Env, j: int)
    requires 0 <= j < |f.steps| && Fire(f.steps[j], q, env).Some?
    ensures Clause(f.steps[j].column, Fire(f.steps[j], q, env).value) in Clauses(f, q, env)
  {
    var all := Assignments(f, q, env);
    assert all[j] == StepAssignments(f.steps, q, env)[j];
    CollectAt(all, Clause(f.steps[j].column, Fire(f.steps[j], q, env).value));
  }

  /** An exact match is one of the exact assignments, at index `k`. */
  lemma {:induction false} ExactAssigned(f: Filter, q: Query, env: Env, c: string) returns (k: int)
    requires DistinctKeys(q) && Exact(f, q, env, c)
    ensures 0 <= k < |ExactAssignments(Rest(q, Names(f)), env)|
    ensures ExactAssignments(Rest(q, Names(f)), env)[k] == Assignment(c, Some(Equals(Get(q, c))))
  {
    var rest := Rest(q, Names(f));
    var v := Get(q, c);
    assert Truthy(v) && env.isKey(c);
    RestDistinct(q, Names(f));
    RestGet(q, Names(f), c);
    assert Get(rest, c) == v && v != Undefined;
    assert HasKey(rest, c);
    k :| 0 <= k < |rest| && rest[k].0 == c;
    GetAt(rest, k);
    assert rest[k] == (c, v);
    assert ExactAssignments(rest, env)[k] == ExactAssignment((c, v), env);
  }

  /** A query builder ANDs every exact match, whatever the steps say about the same column. */
  lemma {:induction false} ExactClause(f: Filter, q: Query, env: Env, c: string)
    requires DistinctKeys(q) && Exact(f, q, env, c)
    ensures Clause(c, Equals(Get(q, c))) in Clauses(f, q, env)
  {
    var k := ExactAssigned(f, q, env, c);
    var sa := StepAssignments(f.steps, q, env);
    var ea := ExactAssignments(Rest(q, Names(f)), env);
    var all := Assignments(f, q, env);
    assert all == sa + ea;
    assert all[|sa| + k] == ea[k];
    CollectAt(all, Clause(c, Equals(Get(q, c))));
  }

  /** How a list orders its rows. */
  datatype Direction = Asc | Desc

  /** What a list method hands to `findAndCount`. */
  datatype FindOptions = FindOptions(where: map<string, Cond>, order: seq<(string, Direction)>, paging: Paging)

  /** The paging a list method hands to TypeORM: `skip: (page - 1) * size, take: size`. */
  datatype Paging = Paging(skip: JsValue, take: JsValue)

  /** JavaScript `(page - 1) * size`: ToNumber on both, NaN if either is. */
  function Offset(page: JsValue, size: JsValue, host: Host): (r: JsValue)
    ensures r.NaN? <==> ToNumber(page, host).None? || ToNumber(size, host).None?
    ensures r.Num? ==> r.n == (ToNumber(page, host).value - 1.0) * ToNumber(size, host).value
  {
    match (ToNumber(page, host), ToNumber(size, host))
    case (Some(p), Some(s)) => Num((p - 1.0) * s)
    case _ => NaN
  }

  /** `const { page = 1, size = 10 } = query` and the paging built from them. */
  function Paginate(q: Query, host: Host): (pg: Paging)
    ensures Get(q, "page") == Undefined && Get(q, "size") == Undefined ==> pg == Paging(Num(0.0), Num(10.0))
    ensures Get(q, "size") == Undefined ==> pg.take == Num(10.0)
    ensures Get(q, "size") != Undefined ==> pg.take == Get(q, "size")
    ensures pg.skip == Offset(Param(q, "page", Num(1.0)), Param(q, "size", Num(10.0)), host)
    ensures pg.skip.Num? ==> pg.skip.n == (ToNumber(Param(q, "page", Num(1.0)), host).value - 1.0) * ToNumber(pg.take, host).value
    ensures Get(q, "page") == Undefined ==> pg.skip == if ToNumber(pg.take, host).Some? then Num(0.0) else NaN
  {
    var page := Param(q, "page", Num(1.0));
    var size := Param(q, "size", Num(10.0));
    Paging(Offset(page, size, host), size)
  }
}

=== FILE: controllers.dfy ===
/**
 * The query and update actions of the finance controllers: `page2`, which
 * wraps a service's `list` in a pagination envelope, the ERP order
 * controller's `orderList`, and the product SKU controller's `updateById`.
 * The service and the repository are parameters; an exception they throw
 * is an `Err` carrying its message.
 */
module Controllers {
  import Wrappers
  import opened JsValues
  import opened Conditions

  /** What a service's `list` resolves to: one page of rows and the total count. */
  datatype Listing<T> = Listing(list: seq<T>, total: JsValue)

  /** `pagination` of a `page2` reply. */
  datatype Pagination = Pagination(page: JsValue, size: JsValue, total: JsValue)

  /** The data of a successful `page2`. */
  datatype Page<T> = Page(list: seq<T>, pagination: Pagination, message: string)

  /** `this.ok(data)` or `this.fail(message)`. */
  datatype Reply<T> = Ok(data: T) | Fail(message: string)

  /**
   * `page2`: the page of rows and the total from `list`, with `page` and
   * `size` echoed from the request as sent, not as `list` defaulted them.
   */
  function Page2<T>(q: Query, listed: Wrappers.Result<Listing<T>, string>): (r: Reply<Page<T>>)
    ensures r.Ok? <==> listed.Ok?
    ensures r.Ok? ==> r.data.list == listed.value.list && r.data.pagination.total == listed.value.total
    ensures r.Ok? ==> r.data.pagination.page == Get(q, "page") && r.data.pagination.size == Get(q, "size")
    ensures r.Ok? ==> r.data.message == "成功"
    ensures listed.Err? ==> r == Fail("查询失败: " + listed.error)
  {
    match listed
    case Ok(l) => Ok(Page(l.list, Pagination(Get(q, "page"), Get(q, "size"), l.total), "成功"))
    case Err(e) => Fail("查询失败: " + e)
  }

  /**
   * A request without `page` and `size` is served as page 1 of 10 rows
   * (skip 0, take 10), but its reply reports both as undefined.
   */
  lemma {:induction false} Page2EchoesRequest<T>(q: Query, host: Host, l: Listing<T>)
    requires Get(q, "page") == Undefined && Get(q, "size") == Undefined
    ensures Paginate(q, host) == Paging(Num(0.0), Num(10.0))
    ensures Page2(q, Wrappers.Ok(l)).data.pagination == Pagination(Undefined, Undefined, l.total)
  {
  }

  /**
   * The reported size is the number of rows the service was asked for
   * exactly when the request sent one: a sent size is both the `take` and
   * the echo, a missing one is taken as 10 but echoed as undefined.
   */
  lemma {:induction false} Page2SizeIsTake<T>(q: Query, host: Host, l: Listing<T>)
    ensures Page2(q, Wrappers.Ok(l)).data.pagination.size == Paginate(q, host).take <==> Get(q, "size") != Undefined
  {
    if Get(q, "size") == Undefined {
      assert Paginate(q, host).take == Num(10.0);
    }
  }

  /** The envelope `orderList` returns without `this.ok`. */
  datatype Envelope<T> = Envelope(code: int, message: string, data: T)

  /**
   * `orderList` of the ERP order controller: the listing inside a fixed
   * `{ code: 200, message: 'Success' }` envelope; an exception of `list`
   * is not caught and leaves the action.
   */
  function OrderList<T>(listed: Wrappers.Result<Listing<T>, string>): (r: Wrappers.Result<Envelope<Listing<T>>, string>)
    ensures r.Ok? <==> listed.Ok?
    ensures r.Ok? ==> r.value.code == 200 && r.value.message == "Success" && r.value.data == listed.value
    ensures r.Err? ==> r.error == listed.error
  {
    match listed
    case Ok(l) => Wrappers.Ok(Envelope(200, "Success", l))
    case Err(e) => Wrappers.Err(e)
  }

  /** `orderList` and `page2` of one listing carry the same rows and total. */
  lemma {:induction false} OrderListMatchesPage2<T>(q: Query, listed: Wrappers.Result<Listing<T>, string>)
    requires listed.Ok?
    ensures OrderList(listed).value.data.list == Page2(q, listed).data.list
    ensures OrderList(listed).value.data.total == Page2(q, listed).data.pagination.total
  {
  }

  // ------------------------------------------------------------ updateById

  /** The columns `updateById` lets a request change. */
  const ValidColumns: seq<string> := ["product_id", "sku_name", "image", "original_price", "calculated_price", "stock", "manual_unit_price"]

  /** A field `updateById` copies: an allowed column with a value that is neither null nor undefined. */
  predicate Updatable(field: (string, JsValue)) {
    field.0 in ValidColumns && !Nullish(field.1)
  }

  /** `fieldsToUpdate`: the updatable fields of `updateFields`, in their order. */
  function FieldsToUpdate(fields: Query): (r: Query)
    ensures |r| <= |fields|
    ensures forall e :: e in r <==> e in fields && Updatable(e)
  {
    if fields == [] then []
    else (if Updatable(fields[0]) then [fields[0]] else []) + FieldsToUpdate(fields[1..])
  }

  /**
   * On a request object, each column of the update is the request's value
   * for an allowed, non-null column and absent otherwise; `id` is never
   * among them.
   */
  lemma {:induction false} FieldsToUpdateGet(fields: Query, key: string)
    requires DistinctKeys(fields)
    ensures Get(FieldsToUpdate(fields), key) ==
      if key in ValidColumns && !Nullish(Get(fields, key)) then Get(fields, key) else Undefined
  {
    if fields != [] {
      var tail := fields[1..];
      assert DistinctKeys(tail) by {
        forall i, j | 0 <= i < j < |tail| ensures tail[i].0 != tail[j].0 {
          assert tail[i] == fields[i + 1] && tail[j] == fields[j + 1];
        }
      }
      FieldsToUpdateGet(tail, key);
      if fields[0].0 == key {
        assert !HasKey(tail, key) by {
          forall i | 0 <= i < |tail| ensures tail[i].0 != key {
            assert tail[i] == fields[i + 1];
          }
        }
        assert !HasKey(FieldsToUpdate(tail), key) by {
          forall i | 0 <= i < |FieldsToUpdate(tail)| ensures FieldsToUpdate(tail)[i].0 != key {
            var e := FieldsToUpdate(tail)[i];
            assert e in tail;
            var k :| 0 <= k < |tail| && tail[k] == e;
          }
        }
        if Updatable(fields[0]) {
          assert FieldsToUpdate(fields)[0] == fields[0];
        } else {
          assert FieldsToUpdate(fields) == FieldsToUpdate(tail);
        }
      } else if Updatable(fields[0]) {
        assert FieldsToUpdate(fields)[0] == fields[0];
        assert FieldsToUpdate(fields)[1..] == FieldsToUpdate(tail);
      } else {
        assert FieldsToUpdate(fields) == FieldsToUpdate(tail);
      }
    }
  }

  /** What `updateById` does: its reply, and the `update(id, fields)` call it makes, if any. */
  datatype UpdateOutcome = UpdateOutcome(reply: Reply<string>, update: Wrappers.Option<(JsValue, Query)>)

  /**
   * `updateById`: a falsy `id` fails, a record `findOne` does not find
   * fails, a request with nothing to update succeeds without writing, and
   * otherwise the updatable fields are written. `find` and `update` are the
   * repository; an error either throws is reported as `更新失败`.
   */
  function UpdateById(body: Query, find: JsValue -> Wrappers.Result<bool, string>, update: (JsValue, Query) -> Wrappers.Option<string>): (r: UpdateOutcome)
    ensures !Truthy(Get(body, "id")) ==> r == UpdateOutcome(Fail("ID 不能为空"), Wrappers.None)
    ensures Truthy(Get(body, "id")) && find(Get(body, "id")) == Wrappers.Ok(false) ==> r == UpdateOutcome(Fail("记录不存在"), Wrappers.None)
    ensures r.update.Some? ==> r.update.value.0 == Get(body, "id") && find(Get(body, "id")) == Wrappers.Ok(true)
    ensures r.update.Some? ==> r.update.value.1 == FieldsToUpdate(Rest(body, {"id"})) && r.update.value.1 != []
    ensures Truthy(Get(body, "id")) && find(Get(body, "id")).Err? ==>
      r == UpdateOutcome(Fail("更新失败: " + find(Get(body, "id")).error), Wrappers.None)
    ensures Truthy(Get(body, "id")) && find(Get(body, "id")) == Wrappers.Ok(true) && FieldsToUpdate(Rest(body, {"id"})) != [] ==>
      r.update == Wrappers.Some((Get(body, "id"), FieldsToUpdate(Rest(body, {"id"}))))
    ensures r.update.Some? && update(r.update.value.0, r.update.value.1).Some? ==>
      r.reply == Fail("更新失败: " + update(r.update.value.0, r.update.value.1).value)
    ensures r.reply == Ok("更新成功") <==> r.update.Some? && update(r.update.value.0, r.update.value.1).None?
    ensures r.reply == Ok("没有提供需要更新的字段") <==>
      Truthy(Get(body, "id")) && find(Get(body, "id")) == Wrappers.Ok(true) && FieldsToUpdate(Rest(body, {"id"})) == []
  {
    var id := Get(body, "id");
    if !Truthy(id) then UpdateOutcome(Fail("ID 不能为空"), Wrappers.None)
    else
      match find(id)
      case Err(e) => UpdateOutcome(Fail("更新失败: " + e), Wrappers.None)
      case Ok(found) =>
        if !found then UpdateOutcome(Fail("记录不存在"), Wrappers.None)
        else
          var fields := FieldsToUpdate(Rest(body, {"id"}));
          if fields == [] then UpdateOutcome(Ok("没有提供需要更新的字段"), Wrappers.None)
          else
            match update(id, fields)
            case None => UpdateOutcome(Ok("更新成功"), Wrappers.Some((id, fields)))
            case Some(e) => UpdateOutcome(Fail("更新失败: " + e), Wrappers.Some((id, fields)))
  }

  /**
   * The write `updateById` makes touches only allowed columns, never with
   * null or undefined, and carries every allowed non-null field of the
   * request other than `id`, with the request's value.
   */
  lemma {:induction false} UpdateWritesAllowList(body: Query, find: JsValue -> Wrappers.Result<bool, string>, update: (JsValue, Query) -> Wrappers.Option<string>, key: string)
    requires DistinctKeys(body)
    requires UpdateById(body, find, update).update.Some?
    ensures var written := UpdateById(body, find, update).update.value.1;
      Get(written, key) == if key in ValidColumns && !Nullish(Get(body, key)) then Get(body, key) else Undefined
  {
    RestDistinct(body, {"id"});
    FieldsToUpdateGet(Rest(body, {"id"}), key);
    if key != "id" {
      RestGet(body, {"id"}, key);
    } else {
      assert key !in ValidColumns;
    }
  }
}

=== FILE: erp_orders.dfy ===
/**
 * The ERP order service: its list and export filters, the export sheet and
 * the import of a parsed sheet, with every column's label and shape as the
 * service's tables give them.
 */
module ErpOrders {
  import opened JsValues
  import opened Conditions
  import Coerce
  import Export

  /** The entity's columns that the service reads or writes. */
  datatype Column =
    | order_number
    | shop
    | order_source
    | warehouse
    | sub_order_original_number
    | order_status
    | order_type
    | cash_on_delivery
    | order_refund_status
    | transaction_time
    | payment_time
    | delivery_time
    | customer_nickname
    | recipient_name
    | recipient_region
    | recipient_address
    | recipient_phone
    | distributor
    | sub_order_original_sub_number
    | source_bundle_number
    | customer_number
    | recipient_telephone
    | postcode
    | area
    | logistics_company
    | logistics_number
    | buyer_message
    | customer_service_remark
    | print_remark
    | remark
    | customer_service_flag
    | order_payment_amount
    | postage
    | other_fees
    | order_total_discount
    | receivable_amount
    | payment_on_delivery_amount
    | cash_on_delivery_amount
    | order_estimated_cost
    | postage_cost
    | estimated_weight
    | need_invoice
    | invoice_title
    | invoice_content
    | salesman
    | auditor
    | financial_auditor
    | merchant_code
    | product_number
    | product_name
    | specification_name
    | product_short_name
    | base_unit
    | platform_product_name
    | platform_specification_name
    | platform_product_id
    | platform_specification_id
    | order_quantity
    | list_price
    | product_total_discount
    | transaction_price
    | apportioned_price
    | discount
    | actual_delivery_quantity
    | apportioned_total_price
    | pre_refund_payment_amount
    | apportioned_postage
    | single_item_payment_amount
    | commission
    | split_from_bundle
    | estimated_weight_per_item
    | gift_method
    | id_number
    | mark_name
    | activation_time
    | dispatch_time

  /** The export `headers`, in sheet order. */
  const Headers: seq<Column> :=
    [order_number, shop, order_source, warehouse, sub_order_original_number, order_status, order_type, cash_on_delivery] +
    [order_refund_status, transaction_time, payment_time, delivery_time, customer_nickname, recipient_name, recipient_region, recipient_address] +
    [recipient_phone, distributor, sub_order_original_sub_number, source_bundle_number, customer_number, recipient_telephone, postcode, area] +
    [logistics_company, logistics_number, buyer_message, customer_service_remark, print_remark, remark, customer_service_flag, order_payment_amount] +
    [postage, other_fees, order_total_discount, receivable_amount, payment_on_delivery_amount, cash_on_delivery_amount, order_estimated_cost, postage_cost] +
    [estimated_weight, need_invoice, invoice_title, invoice_content, salesman, auditor, financial_auditor, merchant_code] +
    [product_number, product_name, specification_name, product_short_name, base_unit, platform_product_name, platform_specification_name, platform_product_id] +
    [platform_specification_id, order_quantity, list_price, product_total_discount, transaction_price, apportioned_price, discount, actual_delivery_quantity] +
    [apportioned_total_price, pre_refund_payment_amount, apportioned_postage, single_item_payment_amount, commission, split_from_bundle, estimated_weight_per_item, gift_method] +
    [id_number, mark_name, activation_time, dispatch_time]

  /** A column's header label in the export. */
  function Label(c: Column): string {
    match c
    case order_number => "订单编号"
    case shop => "店铺"
    case order_source => "订单来源"
    case warehouse => "仓库"
    case sub_order_original_number => "子单原始单号"
    case order_status => "订单状态"
    case order_type => "订单类型"
    case cash_on_delivery => "货到付款"
    case order_refund_status => "订单退款状态"
    case transaction_time => "交易时间"
    case payment_time => "付款时间"
    case delivery_time => "发货时间"
    case customer_nickname => "客户网名"
    case recipient_name => "收件人"
    case recipient_region => "收货地区"
    case recipient_address => "收货地址"
    case recipient_phone => "收件人手机"
    case distributor => "分销商"
    case sub_order_original_sub_number => "子单原始子单号"
    case source_bundle_number => "来源组合装编号"
    case customer_number => "客户编号"
    case recipient_telephone => "收件人电话"
    case postcode => "邮编"
    case area => "区域"
    case logistics_company => "物流公司"
    case logistics_number => "物流单号"
    case buyer_message => "买家留言"
    case customer_service_remark => "客服备注"
    case print_remark => "打印备注"
    case remark => "备注"
    case customer_service_flag => "客服标旗"
    case order_payment_amount => "订单支付金额"
    case postage => "邮费"
    case other_fees => "其它费用"
    case order_total_discount => "订单总优惠"
    case receivable_amount => "应收金额"
    case payment_on_delivery_amount => "款到发货金额"
    case cash_on_delivery_amount => "货到付款金额"
    case order_estimated_cost => "订单预估成本"
    case postage_cost => "邮资成本"
    case estimated_weight => "预估重量"
    case need_invoice => "需要发票"
    case invoice_title => "发票抬头"
    case invoice_content => "发票内容"
    case salesman => "业务员"
    case auditor => "审核人"
    case financial_auditor => "财审人"
    case merchant_code => "商家编码"
    case product_number => "货品编号"
    case product_name => "货品名称"
    case specification_name => "规格名称"
    case product_short_name => "货品简称"
    case base_unit => "基本单位"
    case platform_product_name => "平台货品名称"
    case platform_specification_name => "平台规格名称"
    case platform_product_id => "平台货品ID"
    case platform_specification_id => "平台规格ID"
    case order_quantity => "下单数量"
    case list_price => "标价"
    case product_total_discount => "货品总优惠"
    case transaction_price => "成交价"
    case apportioned_price => "分摊后价格"
    case discount => "折扣"
    case actual_delivery_quantity => "实发数量"
    case apportioned_total_price => "分摊后总价"
    case pre_refund_payment_amount => "退款前支付金额"
    case apportioned_postage => "分摊邮费"
    case single_item_payment_amount => "单品支付金额"
    case commission => "佣金"
    case split_from_bundle => "拆自组合装"
    case estimated_weight_per_item => "估重"
    case gift_method => "赠品方式"
    case id_number => "证件号码"
    case mark_name => "标记名称"
    case activation_time => "激活时间"
    case dispatch_time => "派送时间"
  }

  /** Where `import` reads a column from, and the expression shape it uses. */
  function Rule(c: Column): Coerce.Rule {
    match c
    case order_number => Coerce.Rule("订单编号", Coerce.Text)
    case shop => Coerce.Rule("店铺", Coerce.Text)
    case order_source => Coerce.Rule("订单来源", Coerce.Text)
    case warehouse => Coerce.Rule("仓库", Coerce.Text)
    case sub_order_original_number => Coerce.Rule("子单原始单号", Coerce.Text)
    case order_status => Coerce.Rule("订单状态", Coerce.Text)
    case order_type => Coerce.Rule("订单类型", Coerce.Text)
    case cash_on_delivery => Coerce.Rule("货到付款", Coerce.TextOr("false"))
    case order_refund_status => Coerce.Rule("订单退款状态", Coerce.Text)
    case transaction_time => Coerce.Rule("交易时间", Coerce.Timestamp)
    case payment_time => Coerce.Rule("付款时间", Coerce.Timestamp)
    case delivery_time => Coerce.Rule("发货时间", Coerce.Timestamp)
    case customer_nickname => Coerce.Rule("客户网名", Coerce.Text)
    case recipient_name => Coerce.Rule("收件人", Coerce.Text)
    case recipient_region => Coerce.Rule("收货地区", Coerce.Text)
    case recipient_address => Coerce.Rule("收货地址", Coerce.Text)
    case recipient_phone => Coerce.Rule("收件人手机", Coerce.Text)
    case distributor => Coerce.Rule("分销商", Coerce.Text)
    case sub_order_original_sub_number => Coerce.Rule("子单原始子单号", Coerce.Text)
    case source_bundle_number => Coerce.Rule("来源组合装编号", Coerce.Text)
    case customer_number => Coerce.Rule("客户编号", Coerce.Text)
    case recipient_telephone => Coerce.Rule("收件人电话", Coerce.Text)
    case postcode => Coerce.Rule("邮编", Coerce.Text)
    case area => Coerce.Rule("区域", Coerce.Text)
    case logistics_company => Coerce.Rule("物流公司", Coerce.Text)
    case logistics_number => Coerce.Rule("物流单号", Coerce.Text)
    case buyer_message => Coerce.Rule("买家留言", Coerce.Text)
    case customer_service_remark => Coerce.Rule("客服备注", Coerce.Text)
    case print_remark => Coerce.Rule("打印备注", Coerce.Text)
    case remark => Coerce.Rule("备注", Coerce.Text)
    case customer_service_flag => Coerce.Rule("客服标旗", Coerce.Text)
    case order_payment_amount => Coerce.Rule("订单支付金额", Coerce.Decimal)
    case postage => Coerce.Rule("邮费", Coerce.Decimal)
    case other_fees => Coerce.Rule("其它费用", Coerce.Decimal)
    case order_total_discount => Coerce.Rule("订单总优惠", Coerce.Decimal)
    case receivable_amount => Coerce.Rule("应收金额", Coerce.Decimal)
    case payment_on_delivery_amount => Coerce.Rule("款到发货金额", Coerce.Decimal)
    case cash_on_delivery_amount => Coerce.Rule("货到付款金额", Coerce.Decimal)
    case order_estimated_cost => Coerce.Rule("订单预估成本", Coerce.Decimal)
    case postage_cost => Coerce.Rule("邮资成本", Coerce.Decimal)
    case estimated_weight => Coerce.Rule("预估重量", Coerce.Decimal)
    case need_invoice => Coerce.Rule("需要发票", Coerce.TextOr("false"))
    case invoice_title => Coerce.Rule("发票抬头", Coerce.Text)
    case invoice_content => Coerce.Rule("发票内容", Coerce.Text)
    case salesman => Coerce.Rule("业务员", Coerce.Text)
    case auditor => Coerce.Rule("审核人", Coerce.Text)
    case financial_auditor => Coerce.Rule("财审人", Coerce.Text)
    case merchant_code => Coerce.Rule("商家编码", Coerce.Text)
    case product_number => Coerce.Rule("货品编号", Coerce.Text)
    case product_name => Coerce.Rule("货品名称", Coerce.Text)
    case specification_name => Coerce.Rule("规格名称", Coerce.Text)
    case product_short_name => Coerce.Rule("货品简称", Coerce.Text)
    case base_unit => Coerce.Rule("基本单位", Coerce.Text)
    case platform_product_name => Coerce.Rule("平台货品名称", Coerce.Text)
    case platform_specification_name => Coerce.Rule("平台规格名称", Coerce.Text)
    case platform_product_id => Coerce.Rule("平台货品ID", Coerce.Text)
    case platform_specification_id => Coerce.Rule("平台规格ID", Coerce.Text)
    case order_quantity => Coerce.Rule("下单数量", Coerce.Integer)
    case list_price => Coerce.Rule("标价", Coerce.Decimal)
    case product_total_discount => Coerce.Rule("货品总优惠", Coerce.Decimal)
    case transaction_price => Coerce.Rule("成交价", Coerce.Decimal)
    case apportioned_price => Coerce.Rule("分摊后价格", Coerce.Decimal)
    case discount => Coerce.Rule("折扣", Coerce.Decimal)
    case actual_delivery_quantity => Coerce.Rule("实发数量", Coerce.Integer)
    case apportioned_total_price => Coerce.Rule("分摊后总价", Coerce.Decimal)
    case pre_refund_payment_amount => Coerce.Rule("退款前支付金额", Coerce.Decimal)
    case apportioned_postage => Coerce.Rule("分摊邮费", Coerce.Decimal)
    case single_item_payment_amount => Coerce.Rule("单品支付金额", Coerce.Decimal)
    case commission => Coerce.Rule("佣金", Coerce.Decimal)
    case split_from_bundle => Coerce.Rule("拆自组合装", Coerce.Text)
    case estimated_weight_per_item => Coerce.Rule("估重", Coerce.Decimal)
    case gift_method => Coerce.Rule("赠品方式", Coerce.Text)
    case id_number => Coerce.Rule("证件号码", Coerce.Text)
    case mark_name => Coerce.Rule("标记名称", Coerce.Text)
    case activation_time => Coerce.Rule("激活时间", Coerce.Timestamp)
    case dispatch_time => Coerce.Rule("派送时间", Coerce.Timestamp)
  }

  /** The columns `import` sets. */
  const Imported: set<Column> := set c | c in Headers

  /**
   * `list`: fuzzy order number, status and source, `keyWord` on the order
   * number, and the transaction-time range; paged.
   */
  const ListFilter := Filter([
    Fuzzy("order_number", "order_number"),
    Fuzzy("order_status", "order_status"),
    Fuzzy("order_source", "order_source"),
    Fuzzy("keyWord", "order_number"),
    Range("transaction_time", "transaction_time_start", "transaction_time_end")], true)

  /** `export`: the list filter without `keyWord`, `page` and `size`. */
  const ExportFilter := Filter([
    Fuzzy("order_number", "order_number"),
    Fuzzy("order_status", "order_status"),
    Fuzzy("order_source", "order_source"),
    Range("transaction_time", "transaction_time_start", "transaction_time_end")], false)

  /** `export` writes dates as ISO-8601 text. */
  const IsoDates := true

  /** `import`: one entity per parsed row, all saved at once. */
  function Import(rows: seq<Coerce.Row>, p: Coerce.Parsers): Coerce.Imported<Column> {
    Coerce.ImportAll(Imported, Rule, rows, p)
  }

  /** Import reads every column under the label export writes it with. */
  lemma {:induction false} LabelsAgree()
    ensures forall c :: Rule(c).header == Label(c)
  {
  }

  /** No column is read by trying two labels. */
  lemma {:induction false} SingleLabelRules()
    ensures forall c :: !Rule(c).how.TextEither?
  {
  }

  /**
   * Export, then import of the sheet read back: every column (all are
   * exported, and import sets exactly the exported ones) of every row
   * comes back as `Export.Restores` says, and the summary counts the rows.
   */
  lemma {:induction false} Reimport(records: seq<map<Column, JsValue>>, rows: seq<Coerce.Row>, p: Coerce.Parsers, iso: int -> string)
    requires Coerce.JsParsers(p) && |rows| == |records|
    requires forall i :: 0 <= i < |rows| ==> Export.ReadsBack(rows[i], Headers, Label, records[i], IsoDates, iso)
    ensures Import(rows, p).summary == Coerce.Summary(true, |records|)
    ensures forall i, c :: 0 <= i < |rows| && c in Headers ==>
      Export.Restores(Rule(c).how, Export.Lookup(records[i], c), IsoDates, iso, p, Import(rows, p).entities[i][c])
  {
    LabelsAgree();
    SingleLabelRules();
    forall i | 0 <= i < |rows| {
      Export.RowRoundTrip(Headers, Label, Rule, records[i], rows[i], p, IsoDates, iso);
    }
  }

  /**
   * The two yes/no flags are never stored as null: a sheet without the
   * column gives `'false'`, but an empty cell (what the export writes for a
   * missing flag) is kept as `''`.
   */
  lemma {:induction false} FlagsNeverNull(row: Coerce.Row, p: Coerce.Parsers)
    requires Coerce.JsParsers(p)
    ensures !Nullish(Coerce.Read(Rule(cash_on_delivery), row, p)) && !Nullish(Coerce.Read(Rule(need_invoice), row, p))
    ensures Rule(cash_on_delivery).header !in row ==> Coerce.Read(Rule(cash_on_delivery), row, p) == Str("false")
    ensures Rule(need_invoice).header !in row ==> Coerce.Read(Rule(need_invoice), row, p) == Str("false")
    ensures Coerce.Cell(row, Rule(cash_on_delivery).header) == Str("") ==> Coerce.Read(Rule(cash_on_delivery), row, p) == Str("")
    ensures Coerce.Cell(row, Rule(need_invoice).header) == Str("") ==> Coerce.Read(Rule(need_invoice), row, p) == Str("")
  {
    if Rule(cash_on_delivery).header !in row {
      Coerce.MissingCell(Rule(cash_on_delivery), row, p);
    }
    if Rule(need_invoice).header !in row {
      Coerce.MissingCell(Rule(need_invoice), row, p);
    }
  }

  /** In `list`, a truthy `keyWord` replaces the `order_number` filter. */
  lemma {:induction false} KeywordSearchesOrderNumber(q: Query, env: Env)
    requires DistinctKeys(q) && Truthy(Get(q, "keyWord"))
    ensures "order_number" in Where(ListFilter, q, env)
    ensures Where(ListFilter, q, env)["order_number"] == Like(Pattern(Get(q, "keyWord"), env.host))
  {
    LastStepFor(ListFilter, q, env, 3);
  }

  /**
   * In `list`, the transaction time is constrained exactly when both ends
   * of the range are truthy or the query names `transaction_time` itself,
   * and then the exact value wins.
   */
  lemma {:induction false} TransactionTimeRange(q: Query, env: Env)
    requires DistinctKeys(q)
    ensures "transaction_time" in Where(ListFilter, q, env) <==>
      (Truthy(Get(q, "transaction_time_start")) && Truthy(Get(q, "transaction_time_end")))
      || (env.isKey("transaction_time") && Truthy(Get(q, "transaction_time")))
    ensures env.isKey("transaction_time") && Truthy(Get(q, "transaction_time")) ==>
      Where(ListFilter, q, env)["transaction_time"] == Equals(Get(q, "transaction_time"))
  {
    NotDestructured(ListFilter.steps, "transaction_time");
    assert "transaction_time" !in Names(ListFilter);
    OnlyStepFor(ListFilter, q, env, 4);
  }

  /** `export` ignores `keyWord`: only `order_number` decides the order-number filter. */
  lemma {:induction false} ExportIgnoresKeyword(q: Query, env: Env)
    requires DistinctKeys(q)
    ensures "order_number" in Where(ExportFilter, q, env) <==> Truthy(Get(q, "order_number"))
  {
    OnlyStepFor(ExportFilter, q, env, 0);
  }

  /** An order or delivered quantity whose cell parses to 0 or NaN is stored as null. */
  lemma {:induction false} FailedQuantities(row: Coerce.Row, p: Coerce.Parsers)
    ensures Coerce.ParsesToNothing(Coerce.Cell(row, "下单数量"), p) ==> Coerce.Read(Rule(order_quantity), row, p) == Null
    ensures Coerce.ParsesToNothing(Coerce.Cell(row, "实发数量"), p) ==> Coerce.Read(Rule(actual_delivery_quantity), row, p) == Null
  {
    assert Rule(order_quantity) == Coerce.Rule("下单数量", Coerce.Integer);
    assert Rule(actual_delivery_quantity) == Coerce.Rule("实发数量", Coerce.Integer);
    Coerce.FailedParse(Rule(order_quantity), row, p);
    Coerce.FailedParse(Rule(actual_delivery_quantity), row, p);
  }
}

=== FILE: export.dfy ===
/**
 * The export methods: each stored record becomes a row keyed by the header
 * keys, with missing values written as `''` and, in the services that ask
 * for it, dates written as ISO-8601 text. The export controller writes the
 * labels as the first worksheet row and these rows beneath it.
 */
module Export {
  import opened JsValues
  import opened Sanitize
  import Coerce

  /** `record[key]`: a column the record lacks reads as undefined. */
  function Lookup<C(==)>(record: map<C, JsValue>, key: C): JsValue {
    if key in record then record[key] else Undefined
  }

  /**
   * One exported cell: `v instanceof Date ? v.toISOString() : v ?? ''` when
   * `isoDates`, else `v ?? ''`. `iso` is `toISOString` of a time value.
   */
  function Cell(v: JsValue, isoDates: bool, iso: int -> string): (r: JsValue)
    ensures !Nullish(r)
    ensures Nullish(v) ==> r == Str("")
    ensures isoDates && v.Date? ==> r == Str(iso(v.ms))
    ensures !Nullish(v) && !(isoDates && v.Date?) ==> r == v
  {
    if isoDates && v.Date? then Str(iso(v.ms)) else Coalesce(v, Str(""))
  }

  /** One exported row: every header key, and nothing else, holds its cell. */
  function Row<C(==,!new)>(keys: seq<C>, record: map<C, JsValue>, isoDates: bool, iso: int -> string): (r: map<C, JsValue>)
    ensures forall k :: k in r <==> k in keys
    ensures forall k :: k in r ==> r[k] == Cell(Lookup(record, k), isoDates, iso)
  {
    map k | k in keys :: Cell(Lookup(record, k), isoDates, iso)
  }

  /**
   * A worksheet row read back from an exported sheet: under each header's
   * label it holds the exported cell of that header's key.
   */
  ghost predicate ReadsBack<C>(row: Coerce.Row, keys: seq<C>, labelOf: C -> string, record: map<C, JsValue>, isoDates: bool, iso: int -> string) {
    forall k :: k in keys ==> labelOf(k) in row && row[labelOf(k)] == Cell(Lookup(record, k), isoDates, iso)
  }

  /** The row has no header other than the labels of `keys`. */
  ghost predicate OnlyLabels<C>(row: Coerce.Row, keys: seq<C>, labelOf: C -> string) {
    forall h :: h in row ==> exists k :: k in keys && labelOf(k) == h
  }

  /**
   * A worksheet row read back from an exported sheet, header for header:
   * the exported cells and nothing else.
   */
  ghost predicate Written<C>(row: Coerce.Row, keys: seq<C>, labelOf: C -> string, record: map<C, JsValue>, isoDates: bool, iso: int -> string) {
    ReadsBack(row, keys, labelOf, record, isoDates, iso) && OnlyLabels(row, keys, labelOf)
  }

  /** Text the sanitiser keeps as it is. */
  predicate Plain(s: string) {
    s != "-" && s != "" && Clean(s) && Tight(s)
  }

  /**
   * What importing an exported value `v` through shape `how` gives back
   * (`r`), wherever that is determined: sanitised text and non-zero numbers
   * come back as themselves (a whole number through `parseInt` only below
   * 10^21, above which it comes back as another number), a date comes back when the date parser reads
   * `toISOString` output back, and a missing value comes back as `''`
   * through the `??` text shapes (even `?? 'false'`), as 0 through `|| 0`
   * and as null through every other shape.
   */
  ghost predicate Restores(how: Coerce.Coercion, v: JsValue, isoDates: bool, iso: int -> string, p: Coerce.Parsers, r: JsValue) {
    && (v.Str? && Plain(v.s) && (how.Text? || how.TextOr? || how.NonEmptyText?) ==> r == v)
    && (v.Num? && v.n != 0.0 && (how.Decimal? || how.DecimalOrZero?) ==> r == v)
    && (v.Num? && v.n != 0.0 && v.n.Floor as real == v.n && Coerce.PlainDigits(v.n) && how.Integer? ==> r == v)
    && (v.Num? && v.n.Floor as real == v.n && !Coerce.PlainDigits(v.n) && how.Integer? ==> r.Num? && r != v)
    && (v.Date? && isoDates && how.Timestamp? && iso(v.ms) != "" && p.date(Str(iso(v.ms))) == Wrappers.Some(v.ms) ==> r == v)
    && (Nullish(v) && (how.Text? || how.TextOr?) ==> r == Str(""))
    && (Nullish(v) && (how.NonEmptyText? || how.Decimal? || how.Integer? || how.Timestamp?) ==> r == Null)
    && (Nullish(v) && how.DecimalOrZero? ==> r == Num(0.0))
  }

  /** Export then import, one field. */
  lemma {:induction false} FieldRoundTrip(rule: Coerce.Rule, row: Coerce.Row, p: Coerce.Parsers, v: JsValue, isoDates: bool, iso: int -> string)
    requires Coerce.JsParsers(p)
    requires rule.header in row && row[rule.header] == Cell(v, isoDates, iso)
    requires !rule.how.TextEither?
    ensures Restores(rule.how, v, isoDates, iso, p, Coerce.Read(rule, row, p))
  {
    if v.Str? && Plain(v.s) {
      SafeTrimFixedPoint(v.s);
    }
    if v.Num? {
      Coerce.NumberCell(rule, row, p, v.n);
    }
    if Nullish(v) {
      Coerce.EmptyCell(rule, row, p);
    }
  }

  /**
   * Export then import, one row: every exported column whose import label
   * is its export label comes back as `Restores` says.
   */
  lemma {:induction false} RowRoundTrip<C>(keys: seq<C>, labelOf: C -> string, rule: C -> Coerce.Rule, record: map<C, JsValue>,
                                           row: Coerce.Row, p: Coerce.Parsers, isoDates: bool, iso: int -> string)
    requires Coerce.JsParsers(p)
    requires ReadsBack(row, keys, labelOf, record, isoDates, iso)
    ensures forall c :: c in keys && rule(c).header == labelOf(c) && !rule(c).how.TextEither? ==>
      Restores(rule(c).how, Lookup(record, c), isoDates, iso, p, Coerce.Read(rule(c), row, p))
  {
    forall c | c in keys && rule(c).header == labelOf(c) && !rule(c).how.TextEither?
      ensures Restores(rule(c).how, Lookup(record, c), isoDates, iso, p, Coerce.Read(rule(c), row, p))
    {
      FieldRoundTrip(rule(c), row, p, Lookup(record, c), isoDates, iso);
    }
  }

  /**
   * A column whose import label is none of the export labels finds no cell
   * in a re-imported sheet, whatever was exported: null, the `??` default,
   * or 0.
   */
  lemma {:induction false} LostColumn<C>(keys: seq<C>, labelOf: C -> string, rule: Coerce.Rule, row: Coerce.Row, p: Coerce.Parsers)
    requires Coerce.JsParsers(p)
    requires OnlyLabels(row, keys, labelOf)
    requires forall k :: k in keys ==> labelOf(k) != rule.header
    requires rule.how.TextEither? ==> forall k :: k in keys ==> labelOf(k) != rule.how.alt
    ensures Coerce.Nullable(rule.how) ==> Coerce.Read(rule, row, p) == Null
    ensures rule.how.TextOr? ==> Coerce.Read(rule, row, p) == Str(rule.how.fallback)
    ensures rule.how.DecimalOrZero? ==> Coerce.Read(rule, row, p) == Num(0.0)
  {
    Coerce.MissingCell(rule, row, p);
  }
}

=== FILE: group_leader_service_fee.dfy ===
/**
 * The group-leader service-fee service: its list and export filters, the
 * export sheet and the import of a parsed sheet.
 */
module GroupLeaderServiceFee {
  import opened JsValues
  import opened Conditions
  import Coerce
  import Export

  /** The entity's columns that the service reads or writes. */
  datatype Column =
    | order_id
    | product_name
    | product_id
    | order_status
    | unsettled_reason
    | issuing_agency
    | payment_amount
    | service_fee_rate
    | estimated_service_fee_income
    | settled_amount
    | actual_service_fee_income
    | payment_time
    | receipt_time
    | settlement_time
    | final_payment_time
    | deposit_amount
    | shop_id
    | shop_name
    | product_quantity
    | group_leader_activity_id
    | order_source
    | payment_subsidy
    | platform_subsidy
    | talent_subsidy
    | shipping_fee
    | tax_fee
    | shipping_subsidy
    | plan_type
    | product_source
    | order_source_platform
    | order_type

  /** The export `headers`, in sheet order. */
  const Headers: seq<Column> :=
    [order_id, product_name, product_id, order_status, unsettled_reason, issuing_agency, payment_amount, service_fee_rate] +
    [estimated_service_fee_income, settled_amount, actual_service_fee_income, payment_time, receipt_time, settlement_time, final_payment_time, deposit_amount] +
    [shop_id, shop_name, product_quantity, group_leader_activity_id, order_source, payment_subsidy, platform_subsidy, talent_subsidy] +
    [shipping_fee, tax_fee, shipping_subsidy, plan_type, product_source, order_source_platform, order_type]

  /** A column's header label in the export. */
  function Label(c: Column): string {
    match c
    case order_id => "订单id"
    case product_name => "商品名称"
    case product_id => "商品id"
    case order_status => "订单状态"
    case unsettled_reason => "超时未结算原因"
    case issuing_agency => "出单机构"
    case payment_amount => "支付金额"
    case service_fee_rate => "服务费率"
    case estimated_service_fee_income => "预估服务费收入"
    case settled_amount => "结算金额"
    case actual_service_fee_income => "实际服务费收入"
    case payment_time => "付款时间"
    case receipt_time => "收货时间"
    case settlement_time => "结算时间"
    case final_payment_time => "尾款支付时间"
    case deposit_amount => "定金金额"
    case shop_id => "店铺id"
    case shop_name => "店铺名称"
    case product_quantity => "商品数量"
    case group_leader_activity_id => "团长活动id"
    case order_source => "订单来源:直播"
    case payment_subsidy => "支付补贴"
    case platform_subsidy => "平台补贴"
    case talent_subsidy => "达人补贴"
    case shipping_fee => "运费"
    case tax_fee => "税费"
    case shipping_subsidy => "运费补贴"
    case plan_type => "计划类型"
    case product_source => "商品来源"
    case order_source_platform => "订单来源:抖音"
    case order_type => "订单类型"
  }

  /** Where `import` reads a column from, and the expression shape it uses. */
  function Rule(c: Column): Coerce.Rule {
    match c
    case order_id => Coerce.Rule("订单id", Coerce.Text)
    case product_name => Coerce.Rule("商品名称", Coerce.Text)
    case product_id => Coerce.Rule("商品id", Coerce.Text)
    case order_status => Coerce.Rule("订单状态", Coerce.Text)
    case unsettled_reason => Coerce.Rule("超时未结算原因", Coerce.Text)
    case issuing_agency => Coerce.Rule("出单机构", Coerce.Text)
    case payment_amount => Coerce.Rule("支付金额", Coerce.Decimal)
    case service_fee_rate => Coerce.Rule("服务费率", Coerce.Decimal)
    case estimated_service_fee_income => Coerce.Rule("预估服务费收入", Coerce.Decimal)
    case settled_amount => Coerce.Rule("结算金额", Coerce.Decimal)
    case actual_service_fee_income => Coerce.Rule("实际服务费收入", Coerce.Decimal)
    case payment_time => Coerce.Rule("付款时间", Coerce.Timestamp)
    case receipt_time => Coerce.Rule("收货时间", Coerce.Timestamp)
    case settlement_time => Coerce.Rule("结算时间", Coerce.Timestamp)
    case final_payment_time => Coerce.Rule("尾款支付时间", Coerce.Timestamp)
    case deposit_amount => Coerce.Rule("定金金额", Coerce.Decimal)
    case shop_id => Coerce.Rule("店铺id", Coerce.Text)
    case shop_name => Coerce.Rule("店铺名称", Coerce.Text)
    case product_quantity => Coerce.Rule("商品数量", Coerce.Integer)
    case group_leader_activity_id => Coerce.Rule("团长活动id", Coerce.Text)
    case order_source => Coerce.Rule("订单来源:直播", Coerce.Text)
    case payment_subsidy => Coerce.Rule("支付补贴", Coerce.Decimal)
    case platform_subsidy => Coerce.Rule("平台补贴", Coerce.Decimal)
    case talent_subsidy => Coerce.Rule("达人补贴", Coerce.Decimal)
    case shipping_fee => Coerce.Rule("运费", Coerce.Decimal)
    case tax_fee => Coerce.Rule("税费", Coerce.Decimal)
    case shipping_subsidy => Coerce.Rule("运费补贴", Coerce.Decimal)
    case plan_type => Coerce.Rule("计划类型", Coerce.Text)
    case product_source => Coerce.Rule("商品来源", Coerce.Text)
    case order_source_platform => Coerce.Rule("订单来源:抖音", Coerce.Text)
    case order_type => Coerce.Rule("订单类型", Coerce.Text)
  }

  /** The columns `import` sets. */
  const Imported: set<Column> := set c | c in Headers

  /**
   * `list`: fuzzy order id, `keyWord` on the order id, fuzzy order status
   * and shop name, and the payment-time range; paged.
   */
  const ListFilter := Filter([
    Fuzzy("order_id", "order_id"),
    Fuzzy("keyWord", "order_id"),
    Fuzzy("order_status", "order_status"),
    Fuzzy("shop_name", "shop_name"),
    Range("payment_time", "payment_time_start", "payment_time_end")], true)

  /** `export`: the list filter without `keyWord`, `page` and `size`. */
  const ExportFilter := Filter([
    Fuzzy("order_id", "order_id"),
    Fuzzy("order_status", "order_status"),
    Fuzzy("shop_name", "shop_name"),
    Range("payment_time", "payment_time_start", "payment_time_end")], false)

  /** `export` writes dates as ISO-8601 text. */
  const IsoDates := true

  /** `import`: one entity per parsed row, all saved at once. */
  function Import(rows: seq<Coerce.Row>, p: Coerce.Parsers): Coerce.Imported<Column> {
    Coerce.ImportAll(Imported, Rule, rows, p)
  }

  /** Import reads every exported column under the label export writes it with. */
  lemma {:induction false} LabelsAgree()
    ensures forall c :: Rule(c).header == Label(c)
  {
  }

  /** No column is read by trying two labels. */
  lemma {:induction false} SingleLabelRules()
    ensures forall c :: !Rule(c).how.TextEither?
  {
  }

  /**
   * Export, then import of the sheet read back: every exported column of
   * every row comes back as `Export.Restores` says, and the summary counts
   * the rows.
   */
  lemma {:induction false} Reimport(records: seq<map<Column, JsValue>>, rows: seq<Coerce.Row>, p: Coerce.Parsers, iso: int -> string)
    requires Coerce.JsParsers(p) && |rows| == |records|
    requires forall i :: 0 <= i < |rows| ==> Export.ReadsBack(rows[i], Headers, Label, records[i], IsoDates, iso)
    ensures Import(rows, p).summary == Coerce.Summary(true, |records|)
    ensures forall i, c :: 0 <= i < |rows| && c in Headers ==>
      Export.Restores(Rule(c).how, Export.Lookup(records[i], c), IsoDates, iso, p, Import(rows, p).entities[i][c])
  {
    LabelsAgree();
    SingleLabelRules();
    forall i | 0 <= i < |rows| {
      Export.RowRoundTrip(Headers, Label, Rule, records[i], rows[i], p, IsoDates, iso);
    }
  }

  /**
   * In `list`, a truthy `keyWord` replaces the order-id filter, since its
   * step comes after the one for `order_id`.
   */
  lemma {:induction false} KeywordSearchesOrderId(q: Query, env: Env)
    requires DistinctKeys(q) && Truthy(Get(q, "keyWord"))
    ensures "order_id" in Where(ListFilter, q, env)
    ensures Where(ListFilter, q, env)["order_id"] == Like(Pattern(Get(q, "keyWord"), env.host))
  {
    LastStepFor(ListFilter, q, env, 1);
  }

  /**
   * In `list`, the payment time is constrained exactly when both ends of
   * the range are truthy or the query names `payment_time` itself, and
   * then the exact value wins.
   */
  lemma {:induction false} PaymentTimeRange(q: Query, env: Env)
    requires DistinctKeys(q)
    ensures "payment_time" in Where(ListFilter, q, env) <==>
      (Truthy(Get(q, "payment_time_start")) && Truthy(Get(q, "payment_time_end")))
      || (env.isKey("payment_time") && Truthy(Get(q, "payment_time")))
    ensures env.isKey("payment_time") && Truthy(Get(q, "payment_time")) ==>
      Where(ListFilter, q, env)["payment_time"] == Equals(Get(q, "payment_time"))
  {
    NotDestructured(ListFilter.steps, "payment_time");
    assert "payment_time" !in Names(ListFilter);
    OnlyStepFor(ListFilter, q, env, 4);
  }

  /** `export` ignores `keyWord`: only `order_id` decides the order-id filter. */
  lemma {:induction false} ExportIgnoresKeyword(q: Query, env: Env)
    requires DistinctKeys(q)
    ensures "order_id" in Where(ExportFilter, q, env) <==> Truthy(Get(q, "order_id"))
  {
    assert "order_id" in Names(ExportFilter);
    OnlyStepFor(ExportFilter, q, env, 0);
  }

  /** A product quantity whose cell parses to 0 or NaN is stored as null. */
  lemma {:induction false} FailedQuantity(row: Coerce.Row, p: Coerce.Parsers)
    ensures Coerce.ParsesToNothing(Coerce.Cell(row, "商品数量"), p) ==> Coerce.Read(Rule(product_quantity), row, p) == Null
  {
    assert Rule(product_quantity) == Coerce.Rule("商品数量", Coerce.Integer);
    Coerce.FailedParse(Rule(product_quantity), row, p);
  }
}

=== FILE: js_values.dfy ===
/**
 * JavaScript values as the services see them: spreadsheet cells, request
 * query fields and stored columns. Truthiness, `??` and `||` are modelled
 * exactly; the text and number conversions of numbers, dates and objects are
 * floating-point or library behaviour and come from a `Host` parameter.
 */
module JsValues {
  import opened Wrappers

  datatype JsValue =
    | Undefined
    | Null
    | Bool(b: bool)
    | Num(n: real)      // a finite number
    | NaN
    | Str(s: string)
    | Date(ms: int)     // a Date object, by its time value
    | InvalidDate       // a Date object whose time value is NaN
    | Obj(id: nat)      // any other object: rich text, a formula result, an array

  /** JavaScript truthiness (`if (v)`). */
  predicate Truthy(v: JsValue) {
    match v
    case Undefined => false
    case Null => false
    case Bool(b) => b
    case Num(n) => n != 0.0
    case NaN => false
    case Str(s) => s != ""
    case Date(_) => true
    case InvalidDate => true
    case Obj(_) => true
  }

  /** `v === null || v === undefined`. */
  predicate Nullish(v: JsValue) {
    v == Null || v == Undefined
  }

  /** The expression `a ?? b`. */
  function Coalesce(a: JsValue, b: JsValue): JsValue {
    if Nullish(a) then b else a
  }

  /** The expression `a || b`. */
  function Or(a: JsValue, b: JsValue): JsValue {
    if Truthy(a) then a else b
  }

  /** A number result where `None` stands for NaN. */
  function FromNumber(x: Option<real>): JsValue {
    match x
    case Some(r) => Num(r)
    case None => NaN
  }

  /**
   * What the model does not compute itself: `render` is `String(v)` for
   * numbers, dates and objects (shortest round-trip decimals, local date
   * formatting, `toString` of objects); `numeric` is JavaScript's
   * StringToNumber (`None` for NaN).
   */
  datatype Host = Host(render: JsValue -> string, numeric: string -> Option<real>)

  /** `String(v)`, as in a template literal `${v}`. */
  function Text(v: JsValue, host: Host): string {
    match v
    case Undefined => "undefined"
    case Null => "null"
    case Bool(b) => if b then "true" else "false"
    case NaN => "NaN"
    case Str(s) => s
    case InvalidDate => "Invalid Date"
    case _ => host.render(v)
  }

  /** `Number(v)` (ToNumber), `None` for NaN. */
  function ToNumber(v: JsValue, host: Host): Option<real> {
    match v
    case Undefined => None
    case Null => Some(0.0)
    case Bool(b) => Some(if b then 1.0 else 0.0)
    case Num(n) => Some(n)
    case NaN => None
    case Str(s) => host.numeric(s)
    case Date(ms) => Some(ms as real)
    case InvalidDate => None
    case Obj(_) => host.numeric(host.render(v))
  }
}

=== FILE: orders.dfy ===
/**
 * The platform order service: its paged list (`orderPag`), its query-builder
 * list (`customQuery`), its export filter and sheet, and the import of a
 * parsed sheet. Thirty-one columns are imported under a label other than the
 * one the export writes them with.
 */
module Orders {
  import opened JsValues
  import opened Conditions
  import Coerce
  import Export

  /** The entity's columns that the service reads or writes. */
  datatype Column =
    | main_order_number
    | sub_order_number
    | selected_goods
    | product_specification
    | product_quantity
    | product_id
    | merchant_code
    | product_price
    | order_payable_amount
    | shipping_fee
    | total_discount_amount
    | platform_discount
    | merchant_discount
    | influencer_discount
    | merchant_price_adjustment
    | payment_discount
    | red_envelope_deduction
    | payment_method
    | transaction_fee
    | recipient_name
    | recipient_phone_number
    | province
    | city
    | district
    | street
    | detailed_address
    | is_address_modified
    | buyer_message
    | order_submission_time
    | flag_color
    | merchant_remark
    | order_completion_time
    | payment_completion_time
    | app_channel
    | traffic_source
    | order_status
    | promised_delivery_time
    | order_type
    | luban_page_id
    | influencer_id
    | influencer_nickname
    | store_id
    | after_sales_status
    | cancellation_reason
    | scheduled_delivery_time
    | warehouse_id
    | warehouse_name
    | is_safe_purchase
    | ad_channel
    | traffic_type
    | traffic_format
    | traffic_channel
    | delivery_entity
    | delivery_entity_details
    | delivery_time
    | price_reduction_discount
    | platform_actual_discount
    | merchant_actual_discount
    | influencer_actual_discount
    | estimated_delivery_time
    | is_platform_warehouse_auto_transfer
    | vehicle_type
    | scheduled_delivery_arrival_time
    | suggested_delivery_start_time
    | suggested_delivery_end_time

  /** The export `headers`, in sheet order. */
  const Headers: seq<Column> :=
    [main_order_number, sub_order_number, selected_goods, product_specification, product_quantity, product_id, merchant_code, product_price] +
    [order_payable_amount, shipping_fee, total_discount_amount, platform_discount, merchant_discount, influencer_discount, merchant_price_adjustment, payment_discount] +
    [red_envelope_deduction, payment_method, transaction_fee, recipient_name, recipient_phone_number, province, city, district] +
    [street, detailed_address, is_address_modified, buyer_message, order_submission_time, flag_color, merchant_remark, order_completion_time] +
    [payment_completion_time, app_channel, traffic_source, order_status, promised_delivery_time, order_type, luban_page_id, influencer_id] +
    [influencer_nickname, store_id, after_sales_status, cancellation_reason, scheduled_delivery_time, warehouse_id, warehouse_name, is_safe_purchase] +
    [ad_channel, traffic_type, traffic_format, traffic_channel, delivery_entity, delivery_entity_details, delivery_time, price_reduction_discount] +
    [platform_actual_discount, merchant_actual_discount, influencer_actual_discount, estimated_delivery_time, is_platform_warehouse_auto_transfer, vehicle_type, scheduled_delivery_arrival_time, suggested_delivery_start_time] +
    [suggested_delivery_end_time]

  /** A column's header label in the export. */
  function Label(c: Column): string {
    match c
    case main_order_number => "主订单编号"
    case sub_order_number => "子订单编号"
    case selected_goods => "所选商品"
    case product_specification => "商品规格"
    case product_quantity => "商品数量"
    case product_id => "商品ID"
    case merchant_code => "商家编码"
    case product_price => "商品价格"
    case order_payable_amount => "订单应付金额"
    case shipping_fee => "运费"
    case total_discount_amount => "总优惠金额"
    case platform_discount => "平台优惠"
    case merchant_discount => "商家优惠"
    case influencer_discount => "达人优惠"
    case merchant_price_adjustment => "商家价格调整"
    case payment_discount => "支付优惠"
    case red_envelope_deduction => "红包抵扣"
    case payment_method => "支付方式"
    case transaction_fee => "交易费用"
    case recipient_name => "收件人姓名"
    case recipient_phone_number => "收件人电话"
    case province => "省份"
    case city => "城市"
    case district => "区县"
    case street => "街道"
    case detailed_address => "详细地址"
    case is_address_modified => "地址是否修改"
    case buyer_message => "买家留言"
    case order_submission_time => "订单提交时间"
    case flag_color => "标记颜色"
    case merchant_remark => "商家备注"
    case order_completion_time => "订单完成时间"
    case payment_completion_time => "支付完成时间"
    case app_channel => "应用渠道"
    case traffic_source => "流量来源"
    case order_status => "订单状态"
    case promised_delivery_time => "承诺配送时间"
    case order_type => "订单类型"
    case luban_page_id => "鲁班页面ID"
    case influencer_id => "达人ID"
    case influencer_nickname => "达人昵称"
    case store_id => "店铺ID"
    case after_sales_status => "售后状态"
    case cancellation_reason => "取消原因"
    case scheduled_delivery_time => "计划配送时间"
    case warehouse_id => "仓库ID"
    case warehouse_name => "仓库名称"
    case is_safe_purchase => "是否安心购"
    case ad_channel => "广告渠道"
    case traffic_type => "流量类型"
    case traffic_format => "流量形式"
    case traffic_channel => "流量渠道"
    case delivery_entity => "配送主体"
    case delivery_entity_details => "配送主体详情"
    case delivery_time => "配送时间"
    case price_reduction_discount => "降价优惠"
    case platform_actual_discount => "平台实际优惠"
    case merchant_actual_discount => "商家实际优惠"
    case influencer_actual_discount => "达人实际优惠"
    case estimated_delivery_time => "预计配送时间"
    case is_platform_warehouse_auto_transfer => "是否平台仓库自动调拨"
    case vehicle_type => "车辆类型"
    case scheduled_delivery_arrival_time => "计划配送到达时间"
    case suggested_delivery_start_time => "建议配送开始时间"
    case suggested_delivery_end_time => "建议配送结束时间"
  }

  /** Where `import` reads a column from, and the expression shape it uses. */
  function Rule(c: Column): Coerce.Rule {
    match c
    case main_order_number => Coerce.Rule("主订单编号", Coerce.Text)
    case sub_order_number => Coerce.Rule("子订单编号", Coerce.Text)
    case selected_goods => Coerce.Rule("选购商品", Coerce.Text)
    case product_specification => Coerce.Rule("商品规格", Coerce.Text)
    case product_quantity => Coerce.Rule("商品数量", Coerce.Integer)
    case product_id => Coerce.Rule("商品ID", Coerce.Text)
    case merchant_code => Coerce.Rule("商家编码", Coerce.Text)
    case product_price => Coerce.Rule("商品单价", Coerce.Decimal)
    case order_payable_amount => Coerce.Rule("订单应付金额", Coerce.Decimal)
    case shipping_fee => Coerce.Rule("运费", Coerce.DecimalOrZero)
    case total_discount_amount => Coerce.Rule("优惠总金额", Coerce.DecimalOrZero)
    case platform_discount => Coerce.Rule("平台优惠", Coerce.Text)
    case merchant_discount => Coerce.Rule("商家优惠", Coerce.DecimalOrZero)
    case influencer_discount => Coerce.Rule("达人优惠", Coerce.DecimalOrZero)
    case merchant_price_adjustment => Coerce.Rule("商家改价", Coerce.DecimalOrZero)
    case payment_discount => Coerce.Rule("支付优惠", Coerce.DecimalOrZero)
    case red_envelope_deduction => Coerce.Rule("红包抵扣", Coerce.DecimalOrZero)
    case payment_method => Coerce.Rule("支付方式", Coerce.Text)
    case transaction_fee => Coerce.Rule("手续费", Coerce.DecimalOrZero)
    case recipient_name => Coerce.Rule("收件人", Coerce.Text)
    case recipient_phone_number => Coerce.Rule("收件人手机号", Coerce.Text)
    case province => Coerce.Rule("省", Coerce.Text)
    case city => Coerce.Rule("市", Coerce.Text)
    case district => Coerce.Rule("区", Coerce.Text)
    case street => Coerce.Rule("街道", Coerce.Text)
    case detailed_address => Coerce.Rule("详细地址", Coerce.Text)
    case is_address_modified => Coerce.Rule("是否修改过地址", Coerce.Text)
    case buyer_message => Coerce.Rule("买家留言", Coerce.Text)
    case order_submission_time => Coerce.Rule("订单提交时间", Coerce.Timestamp)
    case flag_color => Coerce.Rule("旗帜颜色", Coerce.Text)
    case merchant_remark => Coerce.Rule("商家备注", Coerce.Text)
    case order_completion_time => Coerce.Rule("订单完成时间", Coerce.Timestamp)
    case payment_completion_time => Coerce.Rule("支付完成时间", Coerce.Timestamp)
    case app_channel => Coerce.Rule("APP渠道", Coerce.Text)
    case traffic_source => Coerce.Rule("流量来源", Coerce.Text)
    case order_status => Coerce.Rule("订单状态", Coerce.Text)
    case promised_delivery_time => Coerce.Rule("承诺发货时间", Coerce.Timestamp)
    case order_type => Coerce.Rule("订单类型", Coerce.Text)
    case luban_page_id => Coerce.Rule("鲁班落地页ID", Coerce.Text)
    case influencer_id => Coerce.Rule("达人ID", Coerce.Text)
    case influencer_nickname => Coerce.Rule("达人昵称", Coerce.Text)
    case store_id => Coerce.Rule("所属门店ID", Coerce.Text)
    case after_sales_status => Coerce.Rule("售后状态", Coerce.Text)
    case cancellation_reason => Coerce.Rule("取消原因", Coerce.Text)
    case scheduled_delivery_time => Coerce.Rule("预约发货时间", Coerce.Timestamp)
    case warehouse_id => Coerce.Rule("仓库ID", Coerce.Text)
    case warehouse_name => Coerce.Rule("仓库名称", Coerce.Text)
    case is_safe_purchase => Coerce.Rule("是否安心购", Coerce.Text)
    case ad_channel => Coerce.Rule("广告渠道", Coerce.Text)
    case traffic_type => Coerce.Rule("流量类型", Coerce.Text)
    case traffic_format => Coerce.Rule("流量体裁", Coerce.Text)
    case traffic_channel => Coerce.Rule("流量渠道", Coerce.Text)
    case delivery_entity => Coerce.Rule("发货主体", Coerce.Text)
    case delivery_entity_details => Coerce.Rule("发货主体明细", Coerce.Text)
    case delivery_time => Coerce.Rule("发货时间", Coerce.Timestamp)
    case price_reduction_discount => Coerce.Rule("降价类优惠", Coerce.DecimalOrZero)
    case platform_actual_discount => Coerce.Rule("平台实际承担优惠金额", Coerce.DecimalOrZero)
    case merchant_actual_discount => Coerce.Rule("商家实际承担优惠金额", Coerce.DecimalOrZero)
    case influencer_actual_discount => Coerce.Rule("达人实际承担优惠金额", Coerce.DecimalOrZero)
    case estimated_delivery_time => Coerce.Rule("预计送达时间", Coerce.Timestamp)
    case is_platform_warehouse_auto_transfer => Coerce.Rule("是否平台仓自流转", Coerce.Text)
    case vehicle_type => Coerce.Rule("车型", Coerce.Text)
    case scheduled_delivery_arrival_time => Coerce.Rule("预约送达时间", Coerce.Timestamp)
    case suggested_delivery_start_time => Coerce.Rule("建议发货时间（起）", Coerce.Timestamp)
    case suggested_delivery_end_time => Coerce.Rule("建议发货时间（止）", Coerce.Timestamp)
  }

  /** The columns `import` sets. */
  const Imported: set<Column> := set c | c in Headers

  /** The columns whose import label is not their export label. */
  predicate Renamed(c: Column) {
    match c
    case selected_goods => true
    case recipient_name => true
    case recipient_phone_number => true
    case province => true
    case city => true
    case district => true
    case is_address_modified => true
    case flag_color => true
    case app_channel => true
    case luban_page_id => true
    case store_id => true
    case traffic_format => true
    case delivery_entity => true
    case delivery_entity_details => true
    case is_platform_warehouse_auto_transfer => true
    case vehicle_type => true
    case promised_delivery_time => true
    case scheduled_delivery_time => true
    case delivery_time => true
    case estimated_delivery_time => true
    case scheduled_delivery_arrival_time => true
    case suggested_delivery_start_time => true
    case suggested_delivery_end_time => true
    case product_price => true
    case total_discount_amount => true
    case merchant_price_adjustment => true
    case transaction_fee => true
    case price_reduction_discount => true
    case platform_actual_discount => true
    case merchant_actual_discount => true
    case influencer_actual_discount => true
    case _ => false
  }

  /**
   * `orderPag`: fuzzy main and sub order numbers and status, `keyWord` on
   * the sub order number, and the submission-time range; paged.
   */
  const PagedFilter := Filter([
    Fuzzy("main_order_number", "main_order_number"),
    Fuzzy("sub_order_number", "sub_order_number"),
    Fuzzy("order_status", "order_status"),
    Fuzzy("keyWord", "sub_order_number"),
    Range("order_submission_time", "startTime", "endTime")], true)

  /** `customQuery`: as `orderPag`, but `keyWord` searches the selected goods. */
  const CustomFilter := Filter([
    Fuzzy("main_order_number", "main_order_number"),
    Fuzzy("sub_order_number", "sub_order_number"),
    Fuzzy("order_status", "order_status"),
    Fuzzy("keyWord", "selected_goods"),
    Range("order_submission_time", "startTime", "endTime")], true)

  /** `export`: the `orderPag` filter without `keyWord`, `page` and `size`. */
  const ExportFilter := Filter([
    Fuzzy("main_order_number", "main_order_number"),
    Fuzzy("sub_order_number", "sub_order_number"),
    Fuzzy("order_status", "order_status"),
    Range("order_submission_time", "startTime", "endTime")], false)

  /** `export` writes dates as ISO-8601 text. */
  const IsoDates := true

  /** `import`: one entity per parsed row, all saved at once. */
  function Import(rows: seq<Coerce.Row>, p: Coerce.Parsers): Coerce.Imported<Column> {
    Coerce.ImportAll(Imported, Rule, rows, p)
  }

  /** The import label differs from the export label exactly for the renamed columns. */
  lemma {:induction false} RenamedColumns()
    ensures forall c :: Rule(c).header != Label(c) <==> Renamed(c)
  {
    forall c ensures Rule(c).header != Label(c) <==> Renamed(c) {
      match c
      case main_order_number =>
      case sub_order_number =>
      case selected_goods =>
      case product_specification =>
      case product_quantity =>
      case product_id =>
      case merchant_code =>
      case product_price =>
      case order_payable_amount =>
      case shipping_fee =>
      case total_discount_amount =>
      case platform_discount =>
      case merchant_discount =>
      case influencer_discount =>
      case merchant_price_adjustment =>
      case payment_discount =>
      case red_envelope_deduction =>
      case payment_method =>
      case transaction_fee =>
      case recipient_name =>
      case recipient_phone_number =>
      case province =>
      case city =>
      case district =>
      case street =>
      case detailed_address =>
      case is_address_modified =>
      case buyer_message =>
      case order_submission_time =>
      case flag_color =>
      case merchant_remark =>
      case order_completion_time =>
      case payment_completion_time =>
      case app_channel =>
      case traffic_source =>
      case order_status =>
      case promised_delivery_time =>
      case order_type =>
      case luban_page_id =>
      case influencer_id =>
      case influencer_nickname =>
      case store_id =>
      case after_sales_status =>
      case cancellation_reason =>
      case scheduled_delivery_time =>
      case warehouse_id =>
      case warehouse_name =>
      case is_safe_purchase =>
      case ad_channel =>
      case traffic_type =>
      case traffic_format =>
      case traffic_channel =>
      case delivery_entity =>
      case delivery_entity_details =>
      case delivery_time =>
      case price_reduction_discount =>
      case platform_actual_discount =>
      case merchant_actual_discount =>
      case influencer_actual_discount =>
      case estimated_delivery_time =>
      case is_platform_warehouse_auto_transfer =>
      case vehicle_type =>
      case scheduled_delivery_arrival_time =>
      case suggested_delivery_start_time =>
      case suggested_delivery_end_time =>
    }
  }

  /** No column is read by trying two labels. */
  lemma {:induction false} SingleLabelRules()
    ensures forall c :: !Rule(c).how.TextEither?
  {
  }

  /**
   * Export, then import of the sheet read back: every exported column that
   * is not renamed comes back as `Export.Restores` says, and the summary
   * counts the rows.
   */
  lemma {:induction false} Reimport(records: seq<map<Column, JsValue>>, rows: seq<Coerce.Row>, p: Coerce.Parsers, iso: int -> string)
    requires Coerce.JsParsers(p) && |rows| == |records|
    requires forall i :: 0 <= i < |rows| ==> Export.ReadsBack(rows[i], Headers, Label, records[i], IsoDates, iso)
    ensures Import(rows, p).summary == Coerce.Summary(true, |records|)
    ensures forall i, c :: 0 <= i < |rows| && c in Headers && !Renamed(c) ==>
      Export.Restores(Rule(c).how, Export.Lookup(records[i], c), IsoDates, iso, p, Import(rows, p).entities[i][c])
  {
    RenamedColumns();
    SingleLabelRules();
    forall i | 0 <= i < |rows| {
      Export.RowRoundTrip(Headers, Label, Rule, records[i], rows[i], p, IsoDates, iso);
    }
  }

  /**
   * A renamed column does not survive a round trip: in a sheet with only
   * the export's labels, the selected goods are stored as null whatever was
   * exported.
   */
  lemma {:induction false} SelectedGoodsLost(row: Coerce.Row, p: Coerce.Parsers)
    requires Coerce.JsParsers(p) && Export.OnlyLabels(row, Headers, Label)
    ensures Coerce.Read(Rule(selected_goods), row, p) == Null
  {
    forall k ensures Label(k) != Rule(selected_goods).header {
      match k
      case main_order_number =>
      case sub_order_number =>
      case selected_goods =>
      case product_specification =>
      case product_quantity =>
      case product_id =>
      case merchant_code =>
      case product_price =>
      case order_payable_amount =>
      case shipping_fee =>
      case total_discount_amount =>
      case platform_discount =>
      case merchant_discount =>
      case influencer_discount =>
      case merchant_price_adjustment =>
      case payment_discount =>
      case red_envelope_deduction =>
      case payment_method =>
      case transaction_fee =>
      case recipient_name =>
      case recipient_phone_number =>
      case province =>
      case city =>
      case district =>
      case street =>
      case detailed_address =>
      case is_address_modified =>
      case buyer_message =>
      case order_submission_time =>
      case flag_color =>
      case merchant_remark =>
      case order_completion_time =>
      case payment_completion_time =>
      case app_channel =>
      case traffic_source =>
      case order_status =>
      case promised_delivery_time =>
      case order_type =>
      case luban_page_id =>
      case influencer_id =>
      case influencer_nickname =>
      case store_id =>
      case after_sales_status =>
      case cancellation_reason =>
      case scheduled_delivery_time =>
      case warehouse_id =>
      case warehouse_name =>
      case is_safe_purchase =>
      case ad_channel =>
      case traffic_type =>
      case traffic_format =>
      case traffic_channel =>
      case delivery_entity =>
      case delivery_entity_details =>
      case delivery_time =>
      case price_reduction_discount =>
      case platform_actual_discount =>
      case merchant_actual_discount =>
      case influencer_actual_discount =>
      case estimated_delivery_time =>
      case is_platform_warehouse_auto_transfer =>
      case vehicle_type =>
      case scheduled_delivery_arrival_time =>
      case suggested_delivery_start_time =>
      case suggested_delivery_end_time =>
    }
    Export.LostColumn(Headers, Label, Rule(selected_goods), row, p);
  }

  /** Likewise the unit price: stored as null after a round trip. */
  lemma {:induction false} ProductPriceLost(row: Coerce.Row, p: Coerce.Parsers)
    requires Coerce.JsParsers(p) && Export.OnlyLabels(row, Headers, Label)
    ensures Coerce.Read(Rule(product_price), row, p) == Null
  {
    forall k ensures Label(k) != Rule(product_price).header {
      match k
      case main_order_number =>
      case sub_order_number =>
      case selected_goods =>
      case product_specification =>
      case product_quantity =>
      case product_id =>
      case merchant_code =>
      case product_price =>
      case order_payable_amount =>
      case shipping_fee =>
      case total_discount_amount =>
      case platform_discount =>
      case merchant_discount =>
      case influencer_discount =>
      case merchant_price_adjustment =>
      case payment_discount =>
      case red_envelope_deduction =>
      case payment_method =>
      case transaction_fee =>
      case recipient_name =>
      case recipient_phone_number =>
      case province =>
      case city =>
      case district =>
      case street =>
      case detailed_address =>
      case is_address_modified =>
      case buyer_message =>
      case order_submission_time =>
      case flag_color =>
      case merchant_remark =>
      case order_completion_time =>
      case payment_completion_time =>
      case app_channel =>
      case traffic_source =>
      case order_status =>
      case promised_delivery_time =>
      case order_type =>
      case luban_page_id =>
      case influencer_id =>
      case influencer_nickname =>
      case store_id =>
      case after_sales_status =>
      case cancellation_reason =>
      case scheduled_delivery_time =>
      case warehouse_id =>
      case warehouse_name =>
      case is_safe_purchase =>
      case ad_channel =>
      case traffic_type =>
      case traffic_format =>
      case traffic_channel =>
      case delivery_entity =>
      case delivery_entity_details =>
      case delivery_time =>
      case price_reduction_discount =>
      case platform_actual_discount =>
      case merchant_actual_discount =>
      case influencer_actual_discount =>
      case estimated_delivery_time =>
      case is_platform_warehouse_auto_transfer =>
      case vehicle_type =>
      case scheduled_delivery_arrival_time =>
      case suggested_delivery_start_time =>
      case suggested_delivery_end_time =>
    }
    Export.LostColumn(Headers, Label, Rule(product_price), row, p);
  }

  /** Likewise the total discount: stored as 0 after a round trip. */
  lemma {:induction false} TotalDiscountLost(row: Coerce.Row, p: Coerce.Parsers)
    requires Coerce.JsParsers(p) && Export.OnlyLabels(row, Headers, Label)
    ensures Coerce.Read(Rule(total_discount_amount), row, p) == Num(0.0)
  {
    forall k ensures Label(k) != Rule(total_discount_amount).header {
      match k
      case main_order_number =>
      case sub_order_number =>
      case selected_goods =>
      case product_specification =>
      case product_quantity =>
      case product_id =>
      case merchant_code =>
      case product_price =>
      case order_payable_amount =>
      case shipping_fee =>
      case total_discount_amount =>
      case platform_discount =>
      case merchant_discount =>
      case influencer_discount =>
      case merchant_price_adjustment =>
      case payment_discount =>
      case red_envelope_deduction =>
      case payment_method =>
      case transaction_fee =>
      case recipient_name =>
      case recipient_phone_number =>
      case province =>
      case city =>
      case district =>
      case street =>
      case detailed_address =>
      case is_address_modified =>
      case buyer_message =>
      case order_submission_time =>
      case flag_color =>
      case merchant_remark =>
      case order_completion_time =>
      case payment_completion_time =>
      case app_channel =>
      case traffic_source =>
      case order_status =>
      case promised_delivery_time =>
      case order_type =>
      case luban_page_id =>
      case influencer_id =>
      case influencer_nickname =>
      case store_id =>
      case after_sales_status =>
      case cancellation_reason =>
      case scheduled_delivery_time =>
      case warehouse_id =>
      case warehouse_name =>
      case is_safe_purchase =>
      case ad_channel =>
      case traffic_type =>
      case traffic_format =>
      case traffic_channel =>
      case delivery_entity =>
      case delivery_entity_details =>
      case delivery_time =>
      case price_reduction_discount =>
      case platform_actual_discount =>
      case merchant_actual_discount =>
      case influencer_actual_discount =>
      case estimated_delivery_time =>
      case is_platform_warehouse_auto_transfer =>
      case vehicle_type =>
      case scheduled_delivery_arrival_time =>
      case suggested_delivery_start_time =>
      case suggested_delivery_end_time =>
    }
    Export.LostColumn(Headers, Label, Rule(total_discount_amount), row, p);
  }

  /** In `orderPag`, a truthy `keyWord` replaces the sub-order-number filter. */
  lemma {:induction false} KeywordReplacesSubOrder(q: Query, env: Env)
    requires DistinctKeys(q) && Truthy(Get(q, "keyWord"))
    ensures "sub_order_number" in Where(PagedFilter, q, env)
    ensures Where(PagedFilter, q, env)["sub_order_number"] == Like(Pattern(Get(q, "keyWord"), env.host))
  {
    assert "sub_order_number" in Names(PagedFilter);
    LastStepFor(PagedFilter, q, env, 3);
  }

  /**
   * `customQuery` ANDs its conditions: a sub order number and a keyword
   * both constrain the result, the keyword through the selected goods.
   */
  lemma {:induction false} CustomQueryAndsKeyword(q: Query, env: Env)
    requires Truthy(Get(q, "sub_order_number")) && Truthy(Get(q, "keyWord"))
    ensures Clause("sub_order_number", Like(Pattern(Get(q, "sub_order_number"), env.host))) in Clauses(CustomFilter, q, env)
    ensures Clause("selected_goods", Like(Pattern(Get(q, "keyWord"), env.host))) in Clauses(CustomFilter, q, env)
  {
    StepClause(CustomFilter, q, env, 1);
    StepClause(CustomFilter, q, env, 3);
  }

  /**
   * A query naming `order_submission_time` itself: `orderPag` drops the
   * date range for the exact value, while `customQuery` ANDs both.
   */
  lemma {:induction false} ExactSubmissionTime(q: Query, env: Env)
    requires DistinctKeys(q) && env.isKey("order_submission_time") && Truthy(Get(q, "order_submission_time"))
    requires Truthy(Get(q, "startTime")) && Truthy(Get(q, "endTime"))
    ensures "order_submission_time" in Where(PagedFilter, q, env)
    ensures Where(PagedFilter, q, env)["order_submission_time"] == Equals(Get(q, "order_submission_time"))
    ensures Clause("order_submission_time", Equals(Get(q, "order_submission_time"))) in Clauses(CustomFilter, q, env)
    ensures Clause("order_submission_time", Between(env.date(Get(q, "startTime")), env.date(Get(q, "endTime"))))
      in Clauses(CustomFilter, q, env)
  {
    NotDestructured(PagedFilter.steps, "order_submission_time");
    assert "order_submission_time" !in Names(PagedFilter);
    WhereAt(PagedFilter, q, env, "order_submission_time");
    NotDestructured(CustomFilter.steps, "order_submission_time");
    assert "order_submission_time" !in Names(CustomFilter);
    ExactClause(CustomFilter, q, env, "order_submission_time");
    StepClause(CustomFilter, q, env, 4);
  }

  /**
   * `orderPag` as written: `product_id` is a column, but not an own
   * property of `FinanceOrdersEntity.prototype`, so no query, not even
   * `{ product_id: 'x' }`, is filtered by it.
   */
  lemma {:induction false} ProductIdNeverMatched(q: Query, env: Env)
    requires DistinctKeys(q) && PrototypeOnly(env)
    ensures "product_id" !in Where(PagedFilter, q, env)
  {
    NoStepFor(PagedFilter, q, env, "product_id");
  }

  /**
   * `orderPag` with the key test the loop means, one that accepts the
   * entity's columns: a truthy `product_id` is an exact match.
   */
  lemma {:induction false} ProductIdMatchedAsColumn(q: Query, env: Env)
    requires DistinctKeys(q) && env.isKey("product_id") && Truthy(Get(q, "product_id"))
    ensures "product_id" in Where(PagedFilter, q, env)
    ensures Where(PagedFilter, q, env)["product_id"] == Equals(Get(q, "product_id"))
  {
    NotDestructured(PagedFilter.steps, "product_id");
    assert "product_id" !in Names(PagedFilter);
    WhereAt(PagedFilter, q, env, "product_id");
  }

  /** `export` ignores `keyWord`: only `sub_order_number` decides the sub-order filter. */
  lemma {:induction false} ExportIgnoresKeyword(q: Query, env: Env)
    requires DistinctKeys(q)
    ensures "sub_order_number" in Where(ExportFilter, q, env) <==> Truthy(Get(q, "sub_order_number"))
  {
    assert "sub_order_number" in Names(ExportFilter);
    OnlyStepFor(ExportFilter, q, env, 1);
  }

  /** A quantity, unit price or payable amount whose cell parses to 0 or NaN is stored as null. */
  lemma {:induction false} FailedCountsNull(row: Coerce.Row, p: Coerce.Parsers)
    ensures Coerce.ParsesToNothing(Coerce.Cell(row, "商品数量"), p) ==> Coerce.Read(Rule(product_quantity), row, p) == Null
    ensures Coerce.ParsesToNothing(Coerce.Cell(row, "商品单价"), p) ==> Coerce.Read(Rule(product_price), row, p) == Null
    ensures Coerce.ParsesToNothing(Coerce.Cell(row, "订单应付金额"), p) ==> Coerce.Read(Rule(order_payable_amount), row, p) == Null
  {
    assert Rule(product_quantity) == Coerce.Rule("商品数量", Coerce.Integer);
    assert Rule(product_price) == Coerce.Rule("商品单价", Coerce.Decimal);
    assert Rule(order_payable_amount) == Coerce.Rule("订单应付金额", Coerce.Decimal);
    Coerce.FailedParse(Rule(product_quantity), row, p);
    Coerce.FailedParse(Rule(product_price), row, p);
    Coerce.FailedParse(Rule(order_payable_amount), row, p);
  }

  /** Shipping and the discount totals whose cell parses to 0 or NaN are stored as 0. */
  lemma {:induction false} FailedFeesZero(row: Coerce.Row, p: Coerce.Parsers)
    ensures Coerce.ParsesToNothing(Coerce.Cell(row, "运费"), p) ==> Coerce.Read(Rule(shipping_fee), row, p) == Num(0.0)
    ensures Coerce.ParsesToNothing(Coerce.Cell(row, "优惠总金额"), p) ==> Coerce.Read(Rule(total_discount_amount), row, p) == Num(0.0)
    ensures Coerce.ParsesToNothing(Coerce.Cell(row, "商家优惠"), p) ==> Coerce.Read(Rule(merchant_discount), row, p) == Num(0.0)
    ensures Coerce.ParsesToNothing(Coerce.Cell(row, "达人优惠"), p) ==> Coerce.Read(Rule(influencer_discount), row, p) == Num(0.0)
  {
    assert Rule(shipping_fee) == Coerce.Rule("运费", Coerce.DecimalOrZero);
    assert Rule(total_discount_amount) == Coerce.Rule("优惠总金额", Coerce.DecimalOrZero);
    assert Rule(merchant_discount) == Coerce.Rule("商家优惠", Coerce.DecimalOrZero);
    assert Rule(influencer_discount) == Coerce.Rule("达人优惠", Coerce.DecimalOrZero);
    Coerce.FailedParse(Rule(shipping_fee), row, p);
    Coerce.FailedParse(Rule(total_discount_amount), row, p);
    Coerce.FailedParse(Rule(merchant_discount), row, p);
    Coerce.FailedParse(Rule(influencer_discount), row, p);
  }

  /** Price adjustments, payment discounts, red envelopes and fees whose cell parses to 0 or NaN are stored as 0. */
  lemma {:induction false} FailedAdjustmentsZero(row: Coerce.Row, p: Coerce.Parsers)
    ensures Coerce.ParsesToNothing(Coerce.Cell(row, "商家改价"), p) ==> Coerce.Read(Rule(merchant_price_adjustment), row, p) == Num(0.0)
    ensures Coerce.ParsesToNothing(Coerce.Cell(row, "支付优惠"), p) ==> Coerce.Read(Rule(payment_discount), row, p) == Num(0.0)
    ensures Coerce.ParsesToNothing(Coerce.Cell(row, "红包抵扣"), p) ==> Coerce.Read(Rule(red_envelope_deduction), row, p) == Num(0.0)
    ensures Coerce.ParsesToNothing(Coerce.Cell(row, "手续费"), p) ==> Coerce.Read(Rule(transaction_fee), row, p) == Num(0.0)
  {
    assert Rule(merchant_price_adjustment) == Coerce.Rule("商家改价", Coerce.DecimalOrZero);
    assert Rule(payment_discount) == Coerce.Rule("支付优惠", Coerce.DecimalOrZero);
    assert Rule(red_envelope_deduction) == Coerce.Rule("红包抵扣", Coerce.DecimalOrZero);
    assert Rule(transaction_fee) == Coerce.Rule("手续费", Coerce.DecimalOrZero);
    Coerce.FailedParse(Rule(merchant_price_adjustment), row, p);
    Coerce.FailedParse(Rule(payment_discount), row, p);
    Coerce.FailedParse(Rule(red_envelope_deduction), row, p);
    Coerce.FailedParse(Rule(transaction_fee), row, p);
  }

  /** Reduction and platform-borne discounts whose cell parses to 0 or NaN are stored as 0. */
  lemma {:induction false} FailedReductionZero(row: Coerce.Row, p: Coerce.Parsers)
    ensures Coerce.ParsesToNothing(Coerce.Cell(row, "降价类优惠"), p) ==> Coerce.Read(Rule(price_reduction_discount), row, p) == Num(0.0)
    ensures Coerce.ParsesToNothing(Coerce.Cell(row, "平台实际承担优惠金额"), p) ==> Coerce.Read(Rule(platform_actual_discount), row, p) == Num(0.0)
  {
    assert Rule(price_reduction_discount) == Coerce.Rule("降价类优惠", Coerce.DecimalOrZero);
    assert Rule(platform_actual_discount) == Coerce.Rule("平台实际承担优惠金额", Coerce.DecimalOrZero);
    Coerce.FailedParse(Rule(price_reduction_discount), row, p);
    Coerce.FailedParse(Rule(platform_actual_discount), row, p);
  }

  /** Merchant- and influencer-borne discounts whose cell parses to 0 or NaN are stored as 0. */
  lemma {:induction false} FailedActualDiscountsZero(row: Coerce.Row, p: Coerce.Parsers)
    ensures Coerce.ParsesToNothing(Coerce.Cell(row, "商家实际承担优惠金额"), p) ==> Coerce.Read(Rule(merchant_actual_discount), row, p) == Num(0.0)
    ensures Coerce.ParsesToNothing(Coerce.Cell(row, "达人实际承担优惠金额"), p) ==> Coerce.Read(Rule(influencer_actual_discount), row, p) == Num(0.0)
  {
    assert Rule(merchant_actual_discount) == Coerce.Rule("商家实际承担优惠金额", Coerce.DecimalOrZero);
    assert Rule(influencer_actual_discount) == Coerce.Rule("达人实际承担优惠金额", Coerce.DecimalOrZero);
    Coerce.FailedParse(Rule(merchant_actual_discount), row, p);
    Coerce.FailedParse(Rule(influencer_actual_discount), row, p);
  }
}

=== FILE: product_main.dfy ===
/**
 * The product service. Its list is a raw SQL statement over SKUs joined with
 * their product: each condition is pushed with a `?` placeholder and its
 * value is stored in a `parameters` object, whose `Object.values` are bound
 * to the placeholders by position. Its export post-processes the numeric
 * columns, and its import upserts products by product id with one batched
 * lookup.
 */
module ProductMain {
  import opened Wrappers
  import opened JsValues
  import opened Sanitize
  import opened Conditions
  import Coerce
  import Export

  // ---------------------------------------------------------------- list

  /** `list`: fuzzy product id, `keyWord` also on the product id, fuzzy title, shop and category; paged. */
  const ListFilter := Filter([
    Fuzzy("product_id", "product_id"),
    Fuzzy("keyWord", "product_id"),
    Fuzzy("title", "title"),
    Fuzzy("shop_name", "shop_name"),
    Fuzzy("category_name", "category_name")], true)

  /** The `parameters` key a step writes: its query field. */
  function StepKey(s: Step): (k: string)
    ensures k in StepParams(s)
  {
    match s
    case Fuzzy(p, _) => p
    case Range(_, a, _) => a
  }

  /**
   * A filter the raw SQL list can run: its steps write distinct `parameters`
   * keys and name columns without `?`.
   */
  predicate RawFilter(f: Filter) {
    && (forall i :: 0 <= i < |f.steps| ==> '?' !in f.steps[i].column)
    && (forall i, j :: 0 <= i < j < |f.steps| ==> StepKey(f.steps[i]) != StepKey(f.steps[j]))
  }

  /** The comparison a pushed condition makes. */
  function Operator(c: Cond): string {
    if c.Equals? then " = " else " LIKE "
  }

  /** A condition's SQL text: `main.<column> LIKE ?` or `main.<column> = ?`. */
  function Sql(cl: Clause): string {
    "main." + cl.column + Operator(cl.cond) + "?"
  }

  /**
   * The value stored beside a condition: the `%v%` pattern of a fuzzy match,
   * the field's own value for an exact match. The raw SQL list has no range
   * step, so no condition of it is a range.
   */
  function Bound(c: Cond): JsValue {
    match c
    case Like(p) => Str(p)
    case Equals(v) => v
    case Between(_, _) => Undefined
  }

  /** One `conditions.push` and the `parameters[key] = value` beside it. */
  datatype Push = Push(sql: string, key: string, value: JsValue)

  /** The `parameters` key of each assignment: a step's field, an exact match's own key. */
  function ParamKeys(f: Filter, q: Query): (ks: seq<string>)
    ensures |ks| == |f.steps| + |Rest(q, Names(f))|
    ensures forall i :: 0 <= i < |f.steps| ==> ks[i] == StepKey(f.steps[i])
    ensures forall i :: |f.steps| <= i < |ks| ==> ks[i] == Rest(q, Names(f))[i - |f.steps|].0
  {
    var rest := Rest(q, Names(f));
    seq(|f.steps|, i requires 0 <= i < |f.steps| => StepKey(f.steps[i]))
      + seq(|rest|, i requires 0 <= i < |rest| => rest[i].0)
  }

  /**
   * The pushes of the assignments that take effect, with their keys: their
   * SQL and values follow the ANDed clause list, in its order.
   */
  function PushesOf(a: seq<Assignment>, keys: seq<string>): (ps: seq<Push>)
    requires |a| == |keys|
    ensures |ps| == |Collect(a)|
    ensures forall i :: 0 <= i < |ps| ==> ps[i].sql == Sql(Collect(a)[i]) && ps[i].value == Bound(Collect(a)[i].cond)
    ensures forall i :: 0 <= i < |ps| ==> ps[i].key in keys
  {
    if a == [] then []
    else
      var tail := PushesOf(a[1..], keys[1..]);
      if a[0].cond.Some? then
        var cl := Clause(a[0].column, a[0].cond.value);
        assert Collect(a) == [cl] + Collect(a[1..]);
        [Push(Sql(cl), keys[0], Bound(cl.cond))] + tail
      else
        assert Collect(a) == Collect(a[1..]);
        tail
  }

  /** Everything a raw SQL list pushes, in order. */
  function Pushes(f: Filter, q: Query, env: Env): (ps: seq<Push>)
    ensures |ps| == |Clauses(f, q, env)|
  {
    PushesOf(Assignments(f, q, env), ParamKeys(f, q))
  }

  /** `conditions`. */
  function SqlConditions(f: Filter, q: Query, env: Env): (cs: seq<string>)
    ensures |cs| == |Clauses(f, q, env)|
    ensures forall i :: 0 <= i < |cs| ==> cs[i] == Sql(Clauses(f, q, env)[i])
  {
    var ps := Pushes(f, q, env);
    seq(|ps|, i requires 0 <= i < |ps| => ps[i].sql)
  }

  /** `obj[k] = v` on a plain object: an existing key keeps its place, a new one goes last. */
  function Put(o: Query, k: string, v: JsValue): (r: Query)
    ensures (forall i :: 0 <= i < |o| ==> o[i].0 != k) ==> r == o + [(k, v)]
    ensures HasKey(o, k) ==> |r| == |o|
    ensures Get(r, k) == v
    ensures forall key :: key != k ==> Get(r, key) == Get(o, key)
  {
    if o == [] then [(k, v)]
    else if o[0].0 == k then [(k, v)] + o[1..]
    else [o[0]] + Put(o[1..], k, v)
  }

  /** `parameters` after the pushes, in order. */
  function Parameters(ps: seq<Push>): (o: Query)
    ensures |o| <= |ps|
  {
    if ps == [] then [] else Put(Parameters(ps[..|ps| - 1]), ps[|ps| - 1].key, ps[|ps| - 1].value)
  }

  /** `Object.values(o)`. */
  function Values(o: Query): (vs: seq<JsValue>)
    ensures |vs| == |o|
    ensures forall i :: 0 <= i < |o| ==> vs[i] == o[i].1
  {
    seq(|o|, i requires 0 <= i < |o| => o[i].1)
  }

  /** `paramValues`. */
  function ParamValues(f: Filter, q: Query, env: Env): seq<JsValue> {
    Values(Parameters(Pushes(f, q, env)))
  }

  /** `parts.join(sep)`. */
  function Join(parts: seq<string>, sep: string): string {
    if parts == [] then ""
    else if |parts| == 1 then parts[0]
    else parts[0] + sep + Join(parts[1..], sep)
  }

  /** `whereClause`: empty without conditions, else `WHERE` and the conditions ANDed. */
  function WhereClause(conds: seq<string>): (w: string)
    ensures w == "" <==> conds == []
  {
    if |conds| > 0 then "WHERE " + Join(conds, " AND ") else ""
  }

  /**
   * The values bound to the main query: the condition values, then `size`
   * and `(page - 1) * size` for `LIMIT ? OFFSET ?` unless pagination is
   * skipped (as `export` does). The count query binds the condition values
   * alone.
   */
  function ListParams(q: Query, env: Env, skipPagination: bool): (ps: seq<JsValue>)
    ensures skipPagination ==> ps == ParamValues(ListFilter, q, env)
    ensures !skipPagination ==> |ps| == |ParamValues(ListFilter, q, env)| + 2
    ensures !skipPagination ==> ps[..|ps| - 2] == ParamValues(ListFilter, q, env)
    ensures !skipPagination ==> ps[|ps| - 2] == Param(q, "size", Num(10.0))
    ensures !skipPagination ==> ps[|ps| - 1] == Paginate(q, env.host).skip
  {
    var values := ParamValues(ListFilter, q, env);
    if skipPagination then values
    else
      var pg := Paginate(q, env.host);
      values + [pg.take, pg.skip]
  }

  /** The `?` placeholders in a SQL text. */
  function Placeholders(s: string): nat {
    if s == [] then 0 else (if s[0] == '?' then 1 else 0) + Placeholders(s[1..])
  }

  lemma {:induction false} PlaceholdersConcat(a: string, b: string)
    ensures Placeholders(a + b) == Placeholders(a) + Placeholders(b)
  {
    if a != [] {
      assert (a + b)[0] == a[0];
      assert (a + b)[1..] == a[1..] + b;
      PlaceholdersConcat(a[1..], b);
    } else {
      assert a + b == b;
    }
  }

  lemma {:induction false} NoPlaceholders(s: string)
    requires '?' !in s
    ensures Placeholders(s) == 0
  {
    if s != [] {
      assert s[0] != '?';
      assert forall c :: c in s[1..] ==> c in s;
      NoPlaceholders(s[1..]);
    }
  }

  /** A condition on a column without `?` has exactly one placeholder. */
  lemma {:induction false} OnePlaceholder(cl: Clause)
    requires '?' !in cl.column
    ensures Placeholders(Sql(cl)) == 1
  {
    NoPlaceholders("main.");
    NoPlaceholders(cl.column);
    NoPlaceholders(Operator(cl.cond));
    assert Placeholders("?") == 1;
    PlaceholdersConcat("main.", cl.column);
    PlaceholdersConcat("main." + cl.column, Operator(cl.cond));
    PlaceholdersConcat("main." + cl.column + Operator(cl.cond), "?");
  }

  /** Joining one-placeholder parts with a placeholder-free separator. */
  lemma {:induction false} JoinPlaceholders(parts: seq<string>, sep: string)
    requires Placeholders(sep) == 0
    requires forall i :: 0 <= i < |parts| ==> Placeholders(parts[i]) == 1
    ensures Placeholders(Join(parts, sep)) == |parts|
  {
    if |parts| > 1 {
      JoinPlaceholders(parts[1..], sep);
      PlaceholdersConcat(parts[0], sep);
      PlaceholdersConcat(parts[0] + sep, Join(parts[1..], sep));
    }
  }

  /** No two pushes write the same key. */
  predicate DistinctPushKeys(ps: seq<Push>) {
    forall i, j :: 0 <= i < j < |ps| ==> ps[i].key != ps[j].key
  }

  /** Pushes with distinct keys build `parameters` in push order, one entry each. */
  lemma {:induction false} ParametersInOrder(ps: seq<Push>)
    requires DistinctPushKeys(ps)
    ensures |Parameters(ps)| == |ps|
    ensures forall i :: 0 <= i < |ps| ==> Parameters(ps)[i] == (ps[i].key, ps[i].value)
  {
    if ps != [] {
      var n := |ps| - 1;
      var init := ps[..n];
      assert DistinctPushKeys(init) by {
        forall i, j | 0 <= i < j < |init| ensures init[i].key != init[j].key {
          assert init[i] == ps[i] && init[j] == ps[j];
        }
      }
      ParametersInOrder(init);
      var o := Parameters(init);
      forall i | 0 <= i < |o| ensures o[i].0 != ps[n].key {
        assert o[i].0 == ps[i].key;
      }
      assert Parameters(ps) == o + [(ps[n].key, ps[n].value)];
    }
  }

  /** Keys drawn from a duplicate-free list stay duplicate-free. */
  lemma {:induction false} PushKeysDistinct(a: seq<Assignment>, keys: seq<string>)
    requires |a| == |keys|
    requires forall i, j :: 0 <= i < j < |keys| ==> keys[i] != keys[j]
    ensures DistinctPushKeys(PushesOf(a, keys))
  {
    if a != [] {
      var rest := keys[1..];
      assert forall i, j :: 0 <= i < j < |rest| ==> rest[i] != rest[j] by {
        forall i, j | 0 <= i < j < |rest| ensures rest[i] != rest[j] {
          assert rest[i] == keys[i + 1] && rest[j] == keys[j + 1];
        }
      }
      PushKeysDistinct(a[1..], rest);
      var tail := PushesOf(a[1..], rest);
      assert keys[0] !in rest by {
        forall m | 0 <= m < |rest| ensures rest[m] != keys[0] {
          assert rest[m] == keys[m + 1];
        }
      }
      if a[0].cond.Some? {
        var cl := Clause(a[0].column, a[0].cond.value);
        var head := Push(Sql(cl), keys[0], Bound(cl.cond));
        assert PushesOf(a, keys) == [head] + tail;
        ConsDistinct(head, tail, rest);
      }
    }
  }

  /** A push whose key the others cannot have keeps the keys distinct. */
  lemma {:induction false} ConsDistinct(head: Push, tail: seq<Push>, rest: seq<string>)
    requires DistinctPushKeys(tail) && head.key !in rest
    requires forall i :: 0 <= i < |tail| ==> tail[i].key in rest
    ensures DistinctPushKeys([head] + tail)
  {
    var ps := [head] + tail;
    forall i, j | 0 <= i < j < |ps| ensures ps[i].key != ps[j].key {
      assert ps[j] == tail[j - 1];
      if i > 0 {
        assert ps[i] == tail[i - 1];
      }
    }
  }

  /** The `parameters` keys a raw SQL list writes are distinct: step fields are destructured, the rest are query keys. */
  lemma {:induction false} ParamKeysDistinct(f: Filter, q: Query)
    requires RawFilter(f) && DistinctKeys(q)
    ensures forall i, j :: 0 <= i < j < |ParamKeys(f, q)| ==> ParamKeys(f, q)[i] != ParamKeys(f, q)[j]
  {
    var names := Names(f);
    var rest := Rest(q, names);
    var ks := ParamKeys(f, q);
    var n := |f.steps|;
    RestDistinct(q, names);
    forall i | 0 <= i < n ensures ks[i] in names {
      assert StepParams(f.steps[i]) <= ParamsOf(f.steps);
    }
    forall i, j | 0 <= i < j < |ks| ensures ks[i] != ks[j] {
      if j >= n {
        assert ks[j] == rest[j - n].0 && ks[j] !in names;
        if i >= n {
          assert ks[i] == rest[i - n].0;
        }
      }
    }
  }

  /** Every ANDed clause of a raw SQL list is on a step column or an entity column, neither holding `?`. */
  lemma {:induction false} ColumnsWithoutPlaceholder(f: Filter, q: Query, env: Env, cl: Clause)
    requires RawFilter(f)
    requires cl in Clauses(f, q, env)
    requires forall k :: env.isKey(k) ==> '?' !in k
    ensures '?' !in cl.column
  {
    var a := Assignments(f, q, env);
    var sa := StepAssignments(f.steps, q, env);
    var rest := Rest(q, Names(f));
    CollectAt(a, cl);
    var i :| 0 <= i < |a| && a[i] == Assignment(cl.column, Some(cl.cond));
    if i < |sa| {
      assert a[i] == sa[i];
    } else {
      assert a[i] == ExactAssignments(rest, env)[i - |sa|];
    }
  }

  /**
   * `Object.values(parameters)` lines up with `conditions`: the value of
   * the i-th ANDed clause is the i-th value bound.
   */
  lemma {:induction false} ParametersAligned(f: Filter, q: Query, env: Env)
    requires RawFilter(f) && DistinctKeys(q)
    ensures |ParamValues(f, q, env)| == |Clauses(f, q, env)|
    ensures forall i :: 0 <= i < |Clauses(f, q, env)| ==> ParamValues(f, q, env)[i] == Bound(Clauses(f, q, env)[i].cond)
  {
    var ps := Pushes(f, q, env);
    ParamKeysDistinct(f, q);
    PushKeysDistinct(Assignments(f, q, env), ParamKeys(f, q));
    ParametersInOrder(ps);
  }

  /**
   * The WHERE clause has one `?` per ANDed clause, so with the alignment
   * above each `?` binds its own clause's value (entity column names hold
   * no `?`).
   */
  lemma {:induction false} OnePlaceholderPerValue(f: Filter, q: Query, env: Env)
    requires RawFilter(f)
    requires forall k :: env.isKey(k) ==> '?' !in k
    ensures Placeholders(WhereClause(SqlConditions(f, q, env))) == |Clauses(f, q, env)|
  {
    var cls := Clauses(f, q, env);
    var conds := SqlConditions(f, q, env);
    forall i | 0 <= i < |conds| ensures Placeholders(conds[i]) == 1 {
      assert cls[i] in cls;
      ColumnsWithoutPlaceholder(f, q, env, cls[i]);
      OnePlaceholder(cls[i]);
    }
    if conds != [] {
      NoPlaceholders("WHERE ");
      NoPlaceholders(" AND ");
      JoinPlaceholders(conds, " AND ");
      PlaceholdersConcat("WHERE ", Join(conds, " AND "));
    }
  }

  /** The first two assignments both take effect: they make the first two pushes. */
  lemma {:induction false} FirstTwoPushes(a: seq<Assignment>, keys: seq<string>)
    requires |a| == |keys| >= 2 && a[0].cond.Some? && a[1].cond.Some?
    ensures |PushesOf(a, keys)| >= 2
    ensures PushesOf(a, keys)[0] == Push(Sql(Clause(a[0].column, a[0].cond.value)), keys[0], Bound(a[0].cond.value))
    ensures PushesOf(a, keys)[1] == Push(Sql(Clause(a[1].column, a[1].cond.value)), keys[1], Bound(a[1].cond.value))
  {
    var tail := PushesOf(a[1..], keys[1..]);
    assert a[1..][0] == a[1] && keys[1..][0] == keys[1];
    assert tail == [Push(Sql(Clause(a[1].column, a[1].cond.value)), keys[1], Bound(a[1].cond.value))] + PushesOf(a[2..], keys[2..]) by {
      assert a[1..][1..] == a[2..] && keys[1..][1..] == keys[2..];
    }
  }

  /** The product list is a raw SQL filter. */
  lemma {:induction false} ListIsRaw()
    ensures RawFilter(ListFilter)
  {
    ListColumnsPlain();
    ListKeysDistinct();
  }

  /** No column of the product list contains a placeholder. */
  lemma {:induction false} ListColumnsPlain()
    ensures forall i :: 0 <= i < |ListFilter.steps| ==> '?' !in ListFilter.steps[i].column
  {
    var s := ListFilter.steps;
    assert s[0].column == "product_id" && s[1].column == "product_id" && s[2].column == "title";
    assert s[3].column == "shop_name" && s[4].column == "category_name";
  }

  /** The product list's keys differ, each from the next by its length. */
  lemma {:induction false} ListKeysDistinct()
    ensures forall i, j :: 0 <= i < j < |ListFilter.steps| ==> StepKey(ListFilter.steps[i]) != StepKey(ListFilter.steps[j])
  {
    var s := ListFilter.steps;
    assert StepKey(s[0]) == "product_id" && StepKey(s[1]) == "keyWord" && StepKey(s[2]) == "title";
    assert StepKey(s[3]) == "shop_name" && StepKey(s[4]) == "category_name";
    var lengths := [10, 7, 5, 9, 13];
    assert forall i :: 0 <= i < 5 ==> |StepKey(s[i])| == lengths[i];
  }

  /** The SQL of a fuzzy product-id condition. */
  lemma {:induction false} ProductIdLikeSql(pattern: string)
    ensures Sql(Clause("product_id", Like(pattern))) == "main.product_id LIKE ?"
  {
    var t := "main." + "product_id" + " LIKE " + "?";
    assert |t| == 22;
    assert forall i :: 0 <= i < 22 ==> t[i] == "main.product_id LIKE ?"[i];
  }

  /**
   * Unlike the where-objects of the other lists, the raw SQL keeps both
   * product-id conditions: a product id and a keyword each push their own
   * `main.product_id LIKE ?`, stored under different keys.
   */
  lemma {:induction false} KeywordAndsProductId(q: Query, env: Env)
    requires Truthy(Get(q, "product_id")) && Truthy(Get(q, "keyWord"))
    ensures |Pushes(ListFilter, q, env)| >= 2
    ensures Pushes(ListFilter, q, env)[0] == Push("main.product_id LIKE ?", "product_id", Str(Pattern(Get(q, "product_id"), env.host)))
    ensures Pushes(ListFilter, q, env)[1] == Push("main.product_id LIKE ?", "keyWord", Str(Pattern(Get(q, "keyWord"), env.host)))
  {
    var f := ListFilter;
    var s0, s1 := Fuzzy("product_id", "product_id"), Fuzzy("keyWord", "product_id");
    assert f.steps[0] == s0 && f.steps[1] == s1;
    var sa := StepAssignments(f.steps, q, env);
    var a := sa + ExactAssignments(Rest(q, Names(f)), env);
    assert a[0] == sa[0] == Assignment("product_id", Fire(s0, q, env));
    assert a[1] == sa[1] == Assignment("product_id", Fire(s1, q, env));
    var ks := ParamKeys(f, q);
    assert ks[0] == StepKey(s0) && ks[1] == StepKey(s1);
    FirstTwoPushes(a, ks);
    ProductIdLikeSql(Pattern(Get(q, "product_id"), env.host));
    ProductIdLikeSql(Pattern(Get(q, "keyWord"), env.host));
  }

  // -------------------------------------------------------------- export

  /** The columns of a list row, as the SELECT names them. */
  datatype ListColumn =
    | product_id | title | product_link | image_url | price | sales_volume | shop_name | shop_link | category_id
    | category_name | sku_id | sku_name | sku_image | original_price | calculated_price | stock | manual_unit_price

  /** The export `headers`, in sheet order. */
  const ExportHeaders: seq<ListColumn> :=
    [product_id, title, product_link, image_url, price, sales_volume, shop_name, shop_link, category_id] +
    [category_name, sku_id, sku_name, sku_image, original_price, calculated_price, stock, manual_unit_price]

  /** A column's header label in the export. */
  function ExportLabel(c: ListColumn): string {
    match c
    case product_id => "宝贝ID"
    case title => "标题"
    case product_link => "宝贝链接"
    case image_url => "图片地址"
    case price => "价格"
    case sales_volume => "销量"
    case shop_name => "店铺名"
    case shop_link => "店铺链接"
    case category_id => "类目ID"
    case category_name => "类目名"
    case sku_id => "SKU ID"
    case sku_name => "SKU名称"
    case sku_image => "SKU图片"
    case original_price => "原价"
    case calculated_price => "计算价格"
    case stock => "库存"
    case manual_unit_price => "人工单价"
  }

  /** The export passes these through `parseFloat`. */
  predicate DecimalColumn(c: ListColumn) {
    c == price || c == original_price || c == calculated_price || c == manual_unit_price
  }

  /** The export passes these through `parseInt(_, 10)`. */
  predicate WholeColumn(c: ListColumn) {
    c == sales_volume || c == stock || c == sku_id
  }

  /**
   * One exported cell: `v ?? ''`, then for a numeric column the parsed
   * number if that is truthy and `''` otherwise.
   */
  function ExportCell(c: ListColumn, v: JsValue, p: Coerce.Parsers): (r: JsValue)
    ensures !Nullish(r)
    ensures !DecimalColumn(c) && !WholeColumn(c) ==> r == Coalesce(v, Str(""))
    ensures (DecimalColumn(c) || WholeColumn(c)) ==> (r == Str("") <==> !Truthy(v))
    ensures (DecimalColumn(c) || WholeColumn(c)) && Truthy(v) ==> r.Num? || r.NaN?
    ensures DecimalColumn(c) && Truthy(v) ==> r == FromNumber(p.float(v))
    ensures WholeColumn(c) && Truthy(v) && p.integer(v).Some? ==> r == Num(p.integer(v).value as real)
  {
    var cell := Coalesce(v, Str(""));
    if DecimalColumn(c) then
      (if Truthy(cell) then FromNumber(p.float(cell)) else Str(""))
    else if WholeColumn(c) then
      (if Truthy(cell) then FromNumber(if p.integer(cell).Some? then Some(p.integer(cell).value as real) else None) else Str(""))
    else cell
  }

  /** One exported row. */
  function ExportRow(record: map<ListColumn, JsValue>, p: Coerce.Parsers): (row: map<ListColumn, JsValue>)
    ensures forall c :: c in row <==> c in ExportHeaders
    ensures forall c :: c in row ==> row[c] == ExportCell(c, Export.Lookup(record, c), p)
  {
    map c | c in ExportHeaders :: ExportCell(c, Export.Lookup(record, c), p)
  }

  // -------------------------------------------------------------- import

  /** The columns of `product_main` that `import` sets. */
  datatype Column =
    | main_product_id | main_title | main_product_link | main_image_url | main_shop_name | main_shop_link
    | main_category_id | main_category_name | main_price | main_sales_volume

  /** The list column each imported column is exported as. */
  function Exported(c: Column): ListColumn {
    match c
    case main_product_id => product_id
    case main_title => title
    case main_product_link => product_link
    case main_image_url => image_url
    case main_shop_name => shop_name
    case main_shop_link => shop_link
    case main_category_id => category_id
    case main_category_name => category_name
    case main_price => price
    case main_sales_volume => sales_volume
  }

  /**
   * Where `import` reads a column from, and the expression shape it uses.
   * The product id is stored as `safeTrim` of its cell; on the rows the
   * import keeps that is truthy, so `?? null` reads the same.
   */
  function Rule(c: Column): Coerce.Rule {
    match c
    case main_product_id => Coerce.Rule("宝贝ID", Coerce.Text)
    case main_title => Coerce.Rule("标题", Coerce.Text)
    case main_product_link => Coerce.Rule("宝贝链接", Coerce.Text)
    case main_image_url => Coerce.Rule("图片地址", Coerce.Text)
    case main_shop_name => Coerce.Rule("店铺名", Coerce.Text)
    case main_shop_link => Coerce.Rule("店铺链接", Coerce.Text)
    case main_category_id => Coerce.Rule("类目ID", Coerce.Text)
    case main_category_name => Coerce.Rule("类目名", Coerce.Text)
    case main_price => Coerce.Rule("价格", Coerce.Decimal)
    case main_sales_volume => Coerce.Rule("销量", Coerce.Integer)
  }

  /** The columns `import` sets. */
  const Imported: set<Column> := {
    main_product_id, main_title, main_product_link, main_image_url, main_shop_name, main_shop_link,
    main_category_id, main_category_name, main_price, main_sales_volume
  }

  /** A row's product id: `safeTrim(item['宝贝ID'])`. */
  function RowId(row: Coerce.Row): JsValue {
    SafeTrim(Coerce.Cell(row, "宝贝ID"))
  }

  /** The rows the import keeps, in sheet order: `if (!productId) continue`. */
  function KeptRows(rows: seq<Coerce.Row>): (kept: seq<Coerce.Row>)
    ensures |kept| <= |rows|
  {
    if rows == [] then []
    else (if Truthy(RowId(rows[0])) then [rows[0]] else []) + KeptRows(rows[1..])
  }

  /** The kept rows are exactly the rows with a truthy product id. */
  lemma {:induction false} KeptRowsMembers(rows: seq<Coerce.Row>)
    ensures forall r :: r in KeptRows(rows) ==> Truthy(RowId(r)) && r in rows
    ensures forall r :: r in rows && Truthy(RowId(r)) ==> r in KeptRows(rows)
  {
    if rows != [] {
      KeptRowsMembers(rows[1..]);
      var head := if Truthy(RowId(rows[0])) then [rows[0]] else [];
      assert KeptRows(rows) == head + KeptRows(rows[1..]);
      assert forall r :: r in rows ==> r == rows[0] || r in rows[1..];
    }
  }

  /** `productIds`: the truthy product ids, in sheet order. */
  function ProductIds(rows: seq<Coerce.Row>): (ids: seq<JsValue>)
    ensures |ids| == |KeptRows(rows)|
  {
    if rows == [] then []
    else (if Truthy(RowId(rows[0])) then [RowId(rows[0])] else []) + ProductIds(rows[1..])
  }

  /** The product ids looked up are those of the kept rows, one each, in order. */
  lemma {:induction false} ProductIdsOfKept(rows: seq<Coerce.Row>)
    ensures forall k :: 0 <= k < |ProductIds(rows)| ==> ProductIds(rows)[k] == RowId(KeptRows(rows)[k])
  {
    if rows != [] {
      ProductIdsOfKept(rows[1..]);
      var ids, kept := ProductIds(rows[1..]), KeptRows(rows[1..]);
      if Truthy(RowId(rows[0])) {
        var id := RowId(rows[0]);
        assert ProductIds(rows) == [id] + ids;
        assert KeptRows(rows) == [rows[0]] + kept;
        forall k | 0 < k < |ProductIds(rows)| ensures ProductIds(rows)[k] == RowId(KeptRows(rows)[k]) {
          assert ProductIds(rows)[k] == ids[k - 1] && KeptRows(rows)[k] == kept[k - 1];
        }
      } else {
        assert ProductIds(rows) == ids;
        assert KeptRows(rows) == kept;
      }
    }
  }

  /** The `(product_id, id)` records the batched lookup returns. */
  type Found = seq<(JsValue, nat)>

  /** `new Map(records).get(key)`: the record entries set in order, so the last one with a product id wins. */
  function MapGet(found: Found, key: JsValue): (r: Option<nat>)
    ensures r.None? <==> forall i :: 0 <= i < |found| ==> found[i].0 != key
    ensures r.Some? ==> (key, r.value) in found
  {
    if found == [] then None
    else if found[|found| - 1].0 == key then Some(found[|found| - 1].1)
    else
      var init := found[..|found| - 1];
      var r := MapGet(init, key);
      assert forall i :: 0 <= i < |init| ==> init[i] == found[i];
      assert r.Some? ==> (key, r.value) in init;
      r
  }

  /** Some record the lookup returned carries product id `key`. */
  predicate HasRecord(found: Found, key: JsValue) {
    exists i :: 0 <= i < |found| && found[i].0 == key
  }

  /** The map has a key exactly when some record carries it. */
  lemma {:induction false} MapGetFinds(found: Found, key: JsValue)
    ensures MapGet(found, key).Some? <==> HasRecord(found, key)
    ensures MapGet(found, key).Some? ==> (key, MapGet(found, key).value) in found
  {
    var r := MapGet(found, key);
    if r.Some? {
      var i :| 0 <= i < |found| && found[i] == (key, r.value);
      assert found[i].0 == key;
    }
  }

  /** A later record for the same product id replaces the earlier ones; one for another product id changes nothing. */
  lemma {:induction false} MapLastWins(found: Found, id: JsValue, record: nat, key: JsValue)
    ensures MapGet(found + [(id, record)], key) == if id == key then Some(record) else MapGet(found, key)
  {
    assert (found + [(id, record)])[..|found|] == found;
  }

  /** A product entity to save: the database id it updates, if any, and its columns. */
  datatype MainEntity = MainEntity(id: Option<nat>, fields: map<Column, JsValue>)

  /** What `import` does: whether it queries, the entities, whether it saves, its summary. */
  datatype MainImport = MainImport(queried: bool, entities: seq<MainEntity>, saved: bool, summary: Coerce.Summary)

  /**
   * `import`. `fetch` is the batched lookup `SELECT id, product_id ... IN (?)`
   * of the product ids; it runs only when there is at least one. Each kept
   * row updates the record the lookup found for its product id, or inserts.
   */
  function Import(rows: seq<Coerce.Row>, fetch: seq<JsValue> -> Found, p: Coerce.Parsers): (r: MainImport)
    ensures r.queried == r.saved == (|KeptRows(rows)| > 0)
    ensures r.summary.success && r.summary.count == |r.entities| == |KeptRows(rows)|
    ensures forall k :: 0 <= k < |r.entities| ==>
      r.entities[k].id == MapGet(fetch(ProductIds(rows)), RowId(KeptRows(rows)[k]))
      && r.entities[k].fields == Coerce.Entity(Imported, Rule, KeptRows(rows)[k], p)
  {
    var ids := ProductIds(rows);
    var found := if |ids| > 0 then fetch(ids) else [];
    var kept := KeptRows(rows);
    var es := seq(|kept|, k requires 0 <= k < |kept| => MainEntity(MapGet(found, RowId(kept[k])), Coerce.Entity(Imported, Rule, kept[k], p)));
    MainImport(|ids| > 0, es, |es| > 0, Coerce.Summary(true, |es|))
  }

  /** `import` saves (and queries) exactly when some row has a product id. */
  lemma {:induction false} SavesWhenKeyed(rows: seq<Coerce.Row>, fetch: seq<JsValue> -> Found, p: Coerce.Parsers)
    ensures Import(rows, fetch, p).saved <==> exists i :: 0 <= i < |rows| && Truthy(RowId(rows[i]))
  {
    var kept := KeptRows(rows);
    KeptRowsMembers(rows);
    if exists i :: 0 <= i < |rows| && Truthy(RowId(rows[i])) {
      var i :| 0 <= i < |rows| && Truthy(RowId(rows[i]));
      assert rows[i] in kept;
    }
    if |kept| > 0 {
      assert kept[0] in kept;
    }
  }

  /** An entity updates a record exactly when the lookup returned its product id. */
  lemma {:induction false} UpdatesExisting(rows: seq<Coerce.Row>, fetch: seq<JsValue> -> Found, p: Coerce.Parsers, k: int)
    requires 0 <= k < |KeptRows(rows)|
    ensures var found := fetch(ProductIds(rows));
      var id := RowId(KeptRows(rows)[k]);
      && (Import(rows, fetch, p).entities[k].id.Some? <==> HasRecord(found, id))
      && (Import(rows, fetch, p).entities[k].id.Some? ==> (id, Import(rows, fetch, p).entities[k].id.value) in found)
  {
    var found := fetch(ProductIds(rows));
    var id := RowId(KeptRows(rows)[k]);
    var e := Import(rows, fetch, p).entities[k];
    assert e.id == MapGet(found, id);
    MapGetFinds(found, id);
  }

  /** A row without a product id changes nothing: the kept rows and product ids are those without it. */
  lemma {:induction false} KeylessRowSkipped(rows: seq<Coerce.Row>, row: Coerce.Row)
    requires !Truthy(RowId(row))
    ensures KeptRows(rows + [row]) == KeptRows(rows)
    ensures ProductIds(rows + [row]) == ProductIds(rows)
  {
    if rows == [] {
      assert KeptRows([row]) == [] + KeptRows([]);
      assert ProductIds([row]) == [] + ProductIds([]);
    } else {
      assert (rows + [row])[1..] == rows[1..] + [row];
      KeylessRowSkipped(rows[1..], row);
    }
  }

  /** The exported sheet read back: each list column's label holds its exported cell. */
  ghost predicate ReadsBack(record: map<ListColumn, JsValue>, row: Coerce.Row, p: Coerce.Parsers) {
    forall l :: l in ExportHeaders ==> ExportLabel(l) in row && row[ExportLabel(l)] == ExportCell(l, Export.Lookup(record, l), p)
  }

  /**
   * Export, then import of the sheet read back, text columns: sanitised
   * text comes back as it was, a missing value as `''`.
   */
  lemma {:induction false} ReimportText(record: map<ListColumn, JsValue>, row: Coerce.Row, p: Coerce.Parsers, c: Column)
    requires Coerce.JsParsers(p) && ReadsBack(record, row, p)
    requires c != main_price && c != main_sales_volume
    ensures Export.Restores(Coerce.Text, Export.Lookup(record, Exported(c)), false, (ms: int) => "", p, Coerce.Read(Rule(c), row, p))
  {
    var l := Exported(c);
    assert l in ExportHeaders && !DecimalColumn(l) && !WholeColumn(l);
    assert Rule(c) == Coerce.Rule(ExportLabel(l), Coerce.Text);
    Export.FieldRoundTrip(Rule(c), row, p, Export.Lookup(record, l), false, (ms: int) => "");
  }

  /**
   * Export, then import of the sheet read back, numeric columns: a non-zero
   * price or (whole) sales volume comes back, a zero or missing one is
   * exported as `''` and comes back as null, and a sales volume of 10^21 or
   * more does not come back (`parseInt` keeps only one digit of it).
   */
  lemma {:induction false} ReimportNumbers(record: map<ListColumn, JsValue>, row: Coerce.Row, p: Coerce.Parsers)
    requires Coerce.JsParsers(p) && ReadsBack(record, row, p)
    ensures var v := Export.Lookup(record, price);
      && (v.Num? && v.n != 0.0 ==> Coerce.Read(Rule(main_price), row, p) == v)
      && (!Truthy(v) ==> Coerce.Read(Rule(main_price), row, p) == Null)
    ensures var v := Export.Lookup(record, sales_volume);
      && (v.Num? && v.n != 0.0 && v.n.Floor as real == v.n && Coerce.PlainDigits(v.n) ==> Coerce.Read(Rule(main_sales_volume), row, p) == v)
      && (v.Num? && v.n.Floor as real == v.n && !Coerce.PlainDigits(v.n) ==> Coerce.Read(Rule(main_sales_volume), row, p) != v)
      && (!Truthy(v) ==> Coerce.Read(Rule(main_sales_volume), row, p) == Null)
  {
    assert price in ExportHeaders && sales_volume in ExportHeaders;
    var v := Export.Lookup(record, price);
    var w := Export.Lookup(record, sales_volume);
    if v.Num? && v.n != 0.0 {
      Coerce.NumberCell(Rule(main_price), row, p, v.n);
    }
    if !Truthy(v) {
      Coerce.EmptyCell(Rule(main_price), row, p);
    }
    if w.Num? && w.n.Floor as real == w.n {
      assert Coerce.IntParsed(p, w.n.Floor);
      var k := p.integer(Num(w.n.Floor as real)).value;
      if k != 0 {
        Coerce.NumberCell(Rule(main_sales_volume), row, p, k as real);
      }
    }
    if !Truthy(w) {
      Coerce.EmptyCell(Rule(main_sales_volume), row, p);
    }
  }
}

=== FILE: product_sku.dfy ===
/**
 * The product SKU service: its list and export filters, the export sheet,
 * and the import that updates the SKU with the same product id and SKU name
 * when the database has one and inserts a new SKU otherwise.
 */
module ProductSku {
  import opened Wrappers
  import opened JsValues
  import opened Sanitize
  import opened Conditions
  import Coerce
  import Export

  /** The columns of `product_sku` that the service reads or writes. */
  datatype Column =
    | product_id
    | sku_name
    | image
    | original_price
    | calculated_price
    | stock
    | manual_unit_price

  /** The export `headers`, in sheet order. */
  const Headers: seq<Column> := [product_id, sku_name, image, original_price, calculated_price, stock, manual_unit_price]

  /** A column's header label in the export. */
  function Label(c: Column): string {
    match c
    case product_id => "宝贝ID"
    case sku_name => "SKU名称"
    case image => "图片"
    case original_price => "原价"
    case calculated_price => "计算价格"
    case stock => "库存"
    case manual_unit_price => "人工单价"
  }

  /**
   * Where `import` reads a column from, and the expression shape it uses.
   * The two key columns are stored as `safeTrim` of their cell; on the rows
   * the import keeps that value is truthy, so `?? null` reads the same.
   */
  function Rule(c: Column): Coerce.Rule {
    match c
    case product_id => Coerce.Rule("宝贝ID", Coerce.Text)
    case sku_name => Coerce.Rule("SKU名称", Coerce.Text)
    case image => Coerce.Rule("图片", Coerce.Text)
    case original_price => Coerce.Rule("原价", Coerce.Decimal)
    case calculated_price => Coerce.Rule("计算价格", Coerce.Decimal)
    case stock => Coerce.Rule("库存", Coerce.Integer)
    case manual_unit_price => Coerce.Rule("人工单价", Coerce.Decimal)
  }

  /** The columns `import` sets. */
  const Imported: set<Column> := set c | c in Headers

  /** `list`: fuzzy product id, `keyWord` on the product id, fuzzy SKU name; paged. */
  const ListFilter := Filter([
    Fuzzy("product_id", "product_id"),
    Fuzzy("keyWord", "product_id"),
    Fuzzy("sku_name", "sku_name")], true)

  /** `export`: fuzzy product id and SKU name. */
  const ExportFilter := Filter([
    Fuzzy("product_id", "product_id"),
    Fuzzy("sku_name", "sku_name")], false)

  /** `export` writes every value as it is. */
  const IsoDates := false

  /** The key an imported row is matched by: `safeTrim` of its product id and SKU name cells. */
  function Key(row: Coerce.Row): (JsValue, JsValue) {
    (SafeTrim(Coerce.Cell(row, Label(product_id))), SafeTrim(Coerce.Cell(row, Label(sku_name))))
  }

  /** A row the import keeps: both key cells are truthy after `safeTrim`. */
  predicate Keyed(row: Coerce.Row) {
    Truthy(Key(row).0) && Truthy(Key(row).1)
  }

  /**
   * The rows the import keeps, in sheet order: `if (!productId || !skuName)
   * continue`.
   */
  function KeptRows(rows: seq<Coerce.Row>): (kept: seq<Coerce.Row>)
    ensures |kept| <= |rows|
  {
    if rows == [] then []
    else (if Keyed(rows[0]) then [rows[0]] else []) + KeptRows(rows[1..])
  }

  /** The kept rows are exactly the rows with both key cells. */
  lemma {:induction false} KeptRowsMembers(rows: seq<Coerce.Row>)
    ensures forall r :: r in KeptRows(rows) ==> Keyed(r) && r in rows
    ensures forall r :: r in rows && Keyed(r) ==> r in KeptRows(rows)
  {
    if rows != [] {
      KeptRowsMembers(rows[1..]);
      var head := if Keyed(rows[0]) then [rows[0]] else [];
      assert KeptRows(rows) == head + KeptRows(rows[1..]);
      assert forall r :: r in rows ==> r == rows[0] || r in rows[1..];
    }
  }

  /** A SKU entity to save: the database id it updates, if any, and its columns. */
  datatype SkuEntity = SkuEntity(id: Option<nat>, fields: map<Column, JsValue>)

  /**
   * One kept row: its columns, and the id of the record `findOne` returns
   * for its key. `find` is the database as it was before the import.
   */
  function Upsert(row: Coerce.Row, find: ((JsValue, JsValue)) -> Option<nat>, p: Coerce.Parsers): SkuEntity {
    SkuEntity(find(Key(row)), Coerce.Entity(Imported, Rule, row, p))
  }

  /**
   * What `import` does: the `findOne` lookups it makes, in order, the
   * entities it builds, whether it calls `save`, and its summary.
   */
  datatype SkuImport = SkuImport(
    lookups: seq<(JsValue, JsValue)>,
    entities: seq<SkuEntity>,
    saved: bool,
    summary: Coerce.Summary)

  /** `import`: skip keyless rows, look each kept row up by its key, save only a non-empty batch. */
  function Import(rows: seq<Coerce.Row>, find: ((JsValue, JsValue)) -> Option<nat>, p: Coerce.Parsers): (r: SkuImport)
    ensures |r.lookups| == |r.entities| == r.summary.count == |KeptRows(rows)|
    ensures r.summary.success && (r.saved <==> r.summary.count > 0)
    ensures forall k :: 0 <= k < |r.entities| ==>
      && r.lookups[k] == Key(KeptRows(rows)[k])
      && r.entities[k].id == find(r.lookups[k])
      && r.entities[k].fields == Coerce.Entity(Imported, Rule, KeptRows(rows)[k], p)
  {
    var kept := KeptRows(rows);
    var es := seq(|kept|, k requires 0 <= k < |kept| => Upsert(kept[k], find, p));
    SkuImport(seq(|kept|, k requires 0 <= k < |kept| => Key(kept[k])), es, |es| > 0, Coerce.Summary(true, |es|))
  }

  /**
   * On a kept row, the stored key columns are the key the row was matched
   * by, and every other column is what its rule reads.
   */
  lemma {:induction false} KeptKeys(row: Coerce.Row, p: Coerce.Parsers)
    requires Keyed(row)
    ensures Coerce.Entity(Imported, Rule, row, p)[product_id] == Key(row).0
    ensures Coerce.Entity(Imported, Rule, row, p)[sku_name] == Key(row).1
  {
    assert product_id in Imported && sku_name in Imported by {
      assert Headers[0] == product_id && Headers[1] == sku_name;
    }
  }

  /**
   * A row without a product id or SKU name changes nothing: the import of
   * the sheet with it appended makes the same lookups and entities.
   */
  lemma {:induction false} KeylessRowSkipped(rows: seq<Coerce.Row>, row: Coerce.Row)
    requires !Keyed(row)
    ensures KeptRows(rows + [row]) == KeptRows(rows)
  {
    if rows == [] {
      assert KeptRows([row]) == [] + KeptRows([]);
    } else {
      assert (rows + [row])[1..] == rows[1..] + [row];
      KeylessRowSkipped(rows[1..], row);
    }
  }

  /**
   * Each lookup sees the database before the import: two kept rows with the
   * same key both update the same record, or both insert a new one.
   */
  lemma {:induction false} SameKeySameTarget(rows: seq<Coerce.Row>, find: ((JsValue, JsValue)) -> Option<nat>, p: Coerce.Parsers, i: int, j: int)
    requires 0 <= i < j < |KeptRows(rows)| && Key(KeptRows(rows)[i]) == Key(KeptRows(rows)[j])
    ensures Import(rows, find, p).entities[i].id == Import(rows, find, p).entities[j].id
    ensures find(Key(KeptRows(rows)[i])).None? ==>
      Import(rows, find, p).entities[i].id.None? && Import(rows, find, p).entities[j].id.None?
  {
  }

  /**
   * Export, then import of the sheet read back: a record whose product id
   * and SKU name are sanitised, non-empty text is kept.
   */
  lemma {:induction false} ExportedKeyKept(record: map<Column, JsValue>, row: Coerce.Row, iso: int -> string)
    requires Export.ReadsBack(row, Headers, Label, record, IsoDates, iso)
    requires Export.Lookup(record, product_id).Str? && Export.Plain(Export.Lookup(record, product_id).s)
    requires Export.Lookup(record, sku_name).Str? && Export.Plain(Export.Lookup(record, sku_name).s)
    ensures Keyed(row)
    ensures Key(row) == (Export.Lookup(record, product_id), Export.Lookup(record, sku_name))
  {
    assert Headers[0] == product_id && Headers[1] == sku_name;
    SafeTrimFixedPoint(Export.Lookup(record, product_id).s);
    SafeTrimFixedPoint(Export.Lookup(record, sku_name).s);
  }

  /**
   * Export, then import of the sheet read back: every column comes back as
   * `Export.Restores` says.
   */
  lemma {:induction false} Reimport(record: map<Column, JsValue>, row: Coerce.Row, p: Coerce.Parsers, iso: int -> string)
    requires Coerce.JsParsers(p) && Export.ReadsBack(row, Headers, Label, record, IsoDates, iso)
    ensures forall c :: c in Imported ==>
      Export.Restores(Rule(c).how, Export.Lookup(record, c), IsoDates, iso, p, Coerce.Entity(Imported, Rule, row, p)[c])
  {
    assert forall c :: Rule(c).header == Label(c) && !Rule(c).how.TextEither?;
    Export.RowRoundTrip(Headers, Label, Rule, record, row, p, IsoDates, iso);
  }

  /** In `list`, a truthy `keyWord` replaces the product-id filter. */
  lemma {:induction false} KeywordSearchesProductId(q: Query, env: Env)
    requires DistinctKeys(q) && Truthy(Get(q, "keyWord"))
    ensures "product_id" in Where(ListFilter, q, env)
    ensures Where(ListFilter, q, env)["product_id"] == Like(Pattern(Get(q, "keyWord"), env.host))
  {
    LastStepFor(ListFilter, q, env, 1);
  }

  /** `export` has no `keyWord`: only `product_id` decides the product-id filter. */
  lemma {:induction false} ExportIgnoresKeyword(q: Query, env: Env)
    requires DistinctKeys(q)
    ensures "product_id" in Where(ExportFilter, q, env) <==> Truthy(Get(q, "product_id"))
  {
    assert "product_id" in Names(ExportFilter);
    OnlyStepFor(ExportFilter, q, env, 0);
  }

  /** A stock count or price whose cell parses to 0 or NaN is stored as null. */
  lemma {:induction false} FailedNumbers(row: Coerce.Row, p: Coerce.Parsers)
    ensures Coerce.ParsesToNothing(Coerce.Cell(row, "原价"), p) ==> Coerce.Read(Rule(original_price), row, p) == Null
    ensures Coerce.ParsesToNothing(Coerce.Cell(row, "计算价格"), p) ==> Coerce.Read(Rule(calculated_price), row, p) == Null
    ensures Coerce.ParsesToNothing(Coerce.Cell(row, "库存"), p) ==> Coerce.Read(Rule(stock), row, p) == Null
    ensures Coerce.ParsesToNothing(Coerce.Cell(row, "人工单价"), p) ==> Coerce.Read(Rule(manual_unit_price), row, p) == Null
  {
    assert Rule(original_price) == Coerce.Rule("原价", Coerce.Decimal);
    assert Rule(calculated_price) == Coerce.Rule("计算价格", Coerce.Decimal);
    assert Rule(stock) == Coerce.Rule("库存", Coerce.Integer);
    assert Rule(manual_unit_price) == Coerce.Rule("人工单价", Coerce.Decimal);
    Coerce.FailedParse(Rule(original_price), row, p);
    Coerce.FailedParse(Rule(calculated_price), row, p);
    Coerce.FailedParse(Rule(stock), row, p);
    Coerce.FailedParse(Rule(manual_unit_price), row, p);
  }
}

=== FILE: sanitize.dfy ===
/**
 * The cell sanitiser `safeTrim` that every service's `import` defines: the
 * exact string "-" becomes null, any other string is trimmed and then loses
 * the characters NUL, BS, LF, CR, TAB, backslash, both quotes and SUB (0x1A);
 * every other value passes through.
 */
module Sanitize {
  import opened JsValues

  /**
   * WhiteSpace and LineTerminator code points of ECMA-262 (sections 12.2 and
   * 12.3), the characters `String.prototype.trim` removes: TAB, LF, VT, FF
   * and CR (U+0009 to U+000D), SPACE, NBSP, OGHAM SPACE MARK, the spaces
   * U+2000 to U+200A, LINE and PARAGRAPH SEPARATOR, NNBSP, MMSP, IDEOGRAPHIC
   * SPACE and the byte order mark.
   */
  predicate IsSpace(c: char) {
    || '\t' <= c <= '\r'
    || c == ' '
    || c == '\U{A0}'
    || c == '\U{1680}'
    || '\U{2000}' <= c <= '\U{200A}'
    || '\U{2028}' <= c <= '\U{2029}'
    || c == '\U{202F}'
    || c == '\U{205F}'
    || c == '\U{3000}'
    || c == '\U{FEFF}'
  }

  /**
   * The character class `[\0\b\n\r\t\\'"\x1a]` (`\b` is backspace inside
   * a class): NUL, BS, TAB and LF (U+0009, U+000A), CR, SUB, both quotes and
   * the backslash.
   */
  predicate IsRemoved(c: char) {
    || c == '\0'
    || c == '\U{8}'
    || '\t' <= c <= '\n'
    || c == '\r'
    || c == '\U{1A}'
    || c == '"'
    || c == '\''
    || c == '\\'
  }

  predicate AllSpace(s: string) {
    forall i :: 0 <= i < |s| ==> IsSpace(s[i])
  }

  /** No character of `s` is one the sanitiser removes. */
  predicate Clean(s: string) {
    forall i :: 0 <= i < |s| ==> !IsRemoved(s[i])
  }

  /** Neither end of `s` is a space: what `trim` leaves behind. */
  predicate Tight(s: string) {
    s == [] || (!IsSpace(s[0]) && !IsSpace(s[|s| - 1]))
  }

  /** `s.trimStart()`: `s` after dropping its leading spaces. */
  function TrimStart(s: string): (r: string)
    ensures |r| <= |s|
    ensures r == [] || !IsSpace(r[0])
    ensures s != [] && !IsSpace(s[0]) ==> r == s
  {
    if s != [] && IsSpace(s[0]) then TrimStart(s[1..]) else s
  }

  /** `s.trimEnd()`: `s` after dropping its trailing spaces. */
  function TrimEnd(s: string): (r: string)
    ensures |r| <= |s|
    ensures r == [] || !IsSpace(r[|r| - 1])
    ensures r != [] ==> r[0] == s[0]
    ensures s != [] && !IsSpace(s[|s| - 1]) ==> r == s
  {
    if s != [] && IsSpace(s[|s| - 1]) then TrimEnd(s[..|s| - 1]) else s
  }

  /** `s.trim()`: `s` without its leading and trailing spaces. */
  function Trim(s: string): (r: string)
    ensures |r| <= |s|
    ensures Tight(r)
  {
    TrimEnd(TrimStart(s))
  }

  /** What `trimStart` keeps is a suffix, and what it drops is all spaces. */
  lemma {:induction false} TrimStartSlice(s: string)
    ensures TrimStart(s) == s[|s| - |TrimStart(s)|..]
    ensures AllSpace(s[..|s| - |TrimStart(s)|])
  {
    if s != [] && IsSpace(s[0]) {
      TrimStartSlice(s[1..]);
      var n := |s| - |TrimStart(s)|;
      assert s[1..][|s| - 1 - |TrimStart(s)|..] == s[n..];
      assert forall i :: 1 <= i < n ==> s[..n][i] == s[1..][..n - 1][i - 1];
    }
  }

  /** What `trimEnd` keeps is a prefix, and what it drops is all spaces. */
  lemma {:induction false} TrimEndSlice(s: string)
    ensures TrimEnd(s) == s[..|TrimEnd(s)|]
    ensures AllSpace(s[|TrimEnd(s)|..])
  {
    if s != [] && IsSpace(s[|s| - 1]) {
      var p := s[..|s| - 1];
      TrimEndSlice(p);
      var m := |TrimEnd(s)|;
      assert p[..m] == s[..m];
      forall k | 0 <= k < |s| - m ensures IsSpace(s[m..][k]) {
        if k < |s| - 1 - m {
          assert s[m..][k] == p[m..][k];
        } else {
          assert s[m..][k] == s[|s| - 1];
        }
      }
    }
  }

  /**
   * What `trim` keeps is a contiguous slice of its input with nothing but
   * spaces on either side of it.
   */
  lemma {:induction false} TrimSlice(s: string)
    ensures var a := |s| - |TrimStart(s)|;
      && a + |Trim(s)| <= |s| && Trim(s) == s[a..a + |Trim(s)|]
      && AllSpace(s[..a]) && AllSpace(s[a + |Trim(s)|..])
  {
    var t := TrimStart(s);
    var r := TrimEnd(t);
    var a := |s| - |t|;
    TrimStartSlice(s);
    TrimEndSlice(t);
    assert r == s[a..a + |r|];
    assert t[|r|..] == s[a + |r|..];
  }

  /** Trimming leaves a string without edge spaces unchanged, and only such a string. */
  lemma {:induction false} TrimFixedPoint(s: string)
    ensures Trim(s) == s <==> Tight(s)
  {
    if Tight(s) && s != [] {
      assert TrimStart(s) == s;
    }
  }

  /** `s.replace(/[\0\b\n\r\t\\'"\x1a]/g, '')`. */
  function Strip(s: string): (r: string)
    ensures Clean(r)
    ensures |r| <= |s|
  {
    if s == [] then []
    else (if IsRemoved(s[0]) then [] else [s[0]]) + Strip(s[1..])
  }

  /**
   * Stripping works character by character: it distributes over
   * concatenation, so with the single-character case of its body it keeps
   * exactly the characters outside the class, in their order.
   */
  lemma {:induction false} StripConcat(a: string, b: string)
    ensures Strip(a + b) == Strip(a) + Strip(b)
  {
    if a == [] {
      assert a + b == b;
    } else {
      var h := if IsRemoved(a[0]) then [] else [a[0]];
      assert (a + b)[0] == a[0];
      assert (a + b)[1..] == a[1..] + b;
      assert Strip(a + b) == h + Strip(a[1..] + b);
      StripConcat(a[1..], b);
      assert Strip(a) == h + Strip(a[1..]);
    }
  }

  /** Stripping leaves a clean string unchanged. */
  lemma {:induction false} StripClean(s: string)
    requires Clean(s)
    ensures Strip(s) == s
  {
    if s != [] {
      assert Clean(s[1..]) by {
        assert forall i :: 0 <= i < |s| - 1 ==> s[1..][i] == s[i + 1];
      }
      StripClean(s[1..]);
      assert !IsRemoved(s[0]);
      assert s == [s[0]] + s[1..];
    }
  }

  /** A slice of a clean string is clean. */
  lemma {:induction false} CleanSlice(s: string, a: int, b: int)
    requires Clean(s) && 0 <= a <= b <= |s|
    ensures Clean(s[a..b])
  {
    assert forall i :: 0 <= i < b - a ==> s[a..b][i] == s[a + i];
  }

  /** `safeTrim` of orders.ts and its copies in every other service. */
  function SafeTrim(v: JsValue): (r: JsValue)
    ensures v == Str("-") ==> r == Null
    ensures !v.Str? ==> r == v
    ensures v.Str? && v.s != "-" ==> r.Str? && Clean(r.s) && |r.s| <= |v.s|
    ensures Nullish(r) <==> Nullish(v) || v == Str("-")
  {
    if v == Str("-") then Null
    else if v.Str? then Str(Strip(Trim(v.s)))
    else v
  }

  /** A string that is already clean, tight and not "-" comes back unchanged. */
  lemma {:induction false} SafeTrimFixedPoint(s: string)
    requires Clean(s) && Tight(s) && s != "-"
    ensures SafeTrim(Str(s)) == Str(s)
  {
    TrimFixedPoint(s);
    assert Trim(s) == s;
    StripClean(s);
    assert Strip(Trim(s)) == s;
  }

  /**
   * Sanitising a second time changes the value exactly when the first pass
   * produced "-" or a string with a space at an end, which happens when a
   * removed character shielded that space from `trim`.
   */
  lemma {:induction false} SafeTrimTwice(v: JsValue)
    ensures SafeTrim(SafeTrim(v)) == SafeTrim(v)
        <==> !SafeTrim(v).Str? || (SafeTrim(v).s != "-" && Tight(SafeTrim(v).s))
  {
    var r := SafeTrim(v);
    if r.Str? && r.s != "-" {
      var t := Trim(r.s);
      var a := |r.s| - |TrimStart(r.s)|;
      TrimSlice(r.s);
      CleanSlice(r.s, a, a + |t|);
      StripClean(t);
      TrimFixedPoint(r.s);
    }
  }

  /**
   * A removed character in front of a clean string is dropped after `trim`
   * has run, so whatever it shielded survives.
   */
  lemma {:induction false} SafeTrimDropsShield(c: char, t: string)
    requires IsRemoved(c) && !IsSpace(c) && Clean(t) && t != [] && !IsSpace(t[|t| - 1])
    ensures SafeTrim(Str([c] + t)) == Str(t)
  {
    var q := [c] + t;
    assert q[0] == c && q[|q| - 1] == t[|t| - 1];
    TrimFixedPoint(q);
    StripConcat([c], t);
    StripClean(t);
    assert Strip([c]) == [];
  }

  /** A single leading space is trimmed away. */
  lemma {:induction false} SafeTrimLeadingSpace(sp: char, x: char)
    requires IsSpace(sp) && !IsRemoved(sp) && !IsSpace(x) && !IsRemoved(x)
    ensures SafeTrim(Str([sp, x])) == Str([x])
  {
    var t := [sp, x];
    assert TrimStart(t) == [x] by {
      assert t[1..] == [x];
      assert TrimStart([x]) == [x];
    }
    assert Trim(t) == [x] by {
      assert TrimEnd([x]) == [x];
    }
    assert Clean([x]) by {
      assert forall i :: 0 <= i < 1 ==> [x][i] == x;
    }
    StripClean([x]);
  }

  /**
   * The sanitiser is not idempotent: a removed character (a quote, say) in
   * front of a space shields that space from `trim`, so `"\" a"` becomes
   * `" a"` and only a second pass gives `"a"`.
   */
  lemma {:induction false} SafeTrimNotIdempotent(c: char, sp: char, x: char)
    requires IsRemoved(c) && !IsSpace(c)
    requires IsSpace(sp) && !IsRemoved(sp)
    requires !IsSpace(x) && !IsRemoved(x)
    ensures SafeTrim(Str([c, sp, x])) == Str([sp, x])
    ensures SafeTrim(SafeTrim(Str([c, sp, x]))) == Str([x])
  {
    var t := [sp, x];
    assert [c, sp, x] == [c] + t;
    assert Clean(t) by {
      assert forall i :: 0 <= i < |t| ==> t[i] == sp || t[i] == x;
    }
    assert t != [] && !IsSpace(t[|t| - 1]);
    SafeTrimDropsShield(c, t);
    SafeTrimLeadingSpace(sp, x);
  }

  /** A quoted dash survives one pass as "-" and becomes null on the next. */
  lemma {:induction false} SafeTrimQuotedDash(c: char)
    requires IsRemoved(c) && !IsSpace(c)
    ensures SafeTrim(Str([c, '-', c])) == Str("-")
    ensures SafeTrim(SafeTrim(Str([c, '-', c]))) == Null
  {
    var q := [c, '-', c];
    assert q[0] == c && q[2] == c;
    TrimFixedPoint(q);
    assert q == [c] + ['-'] + [c];
    StripConcat([c] + ['-'], [c]);
    StripConcat([c], ['-']);
    assert Strip([c]) == [];
    StripClean(['-']);
  }
}

=== FILE: sheet.dfy ===
/**
 * How the import controllers turn the first worksheet into the rows a
 * service imports. Row 1 is the header row: each cell with a value becomes
 * one header, `cell.value ? String(cell.value).trim() : ''`. Every later row
 * becomes an object that maps the header of each of its cells' columns to
 * the cell's value; a row that maps nothing (`Object.keys(rowData).length` is 0) is
 * dropped.
 *
 * The controllers collect the headers with `headers.push` over the cells
 * ExcelJS visits, which skips empty cells, yet look a data cell's header up
 * by its column number. A header row with an empty cell before a filled
 * one therefore shifts every later header one column to the left. The
 * model keeps that parser (`ParseAsWritten`) and the column-aligned one it
 * evidently means (`Parse`), shows where they part, and proves that they
 * agree on a header row without gaps, such as every exported sheet has.
 */
module Sheet {
  import opened JsValues
  import opened Sanitize
  import Coerce
  import Export

  /** One worksheet row, column 1 first; a nullish entry is an empty cell, which `eachCell` skips. */
  type Cells = seq<JsValue>

  /** `cell.value ? String(cell.value).trim() : ''`. */
  function HeaderText(v: JsValue, host: Host): (h: string)
    ensures !Truthy(v) ==> h == ""
    ensures Truthy(v) ==> Tight(h)
  {
    if Truthy(v) then Trim(Text(v, host)) else ""
  }

  /** How many of the first `j` cells are filled. */
  function Filled(cells: Cells, j: nat): (n: nat)
    requires j <= |cells|
    ensures n <= j
  {
    if j == 0 then 0 else (if Nullish(cells[0]) then 0 else 1) + Filled(cells[1..], j - 1)
  }

  /**
   * The headers as the controllers collect them: one per filled cell, empty
   * cells left out. The filled cell of column `j` gives the header at
   * position `Filled(cells, j)`, the number of filled cells before it.
   */
  function HeadersAsWritten(cells: Cells, host: Host): (hs: seq<string>)
    ensures |hs| == Filled(cells, |cells|) <= |cells|
    ensures forall j :: 0 <= j < |cells| && !Nullish(cells[j]) ==>
      Filled(cells, j) < |hs| && hs[Filled(cells, j)] == HeaderText(cells[j], host)
  {
    if cells == [] then []
    else
      var tail := HeadersAsWritten(cells[1..], host);
      var h := if Nullish(cells[0]) then [] else [HeaderText(cells[0], host)];
      var hs := h + tail;
      assert Filled(cells, |cells|) == |h| + Filled(cells[1..], |cells| - 1);
      assert forall j :: 0 <= j < |cells| && !Nullish(cells[j]) ==>
        Filled(cells, j) < |hs| && hs[Filled(cells, j)] == HeaderText(cells[j], host) by {
        forall j | 0 <= j < |cells| && !Nullish(cells[j])
          ensures Filled(cells, j) < |hs| && hs[Filled(cells, j)] == HeaderText(cells[j], host)
        {
          if j > 0 {
            var k := Filled(cells[1..], j - 1);
            assert cells[j] == cells[1..][j - 1];
            assert Filled(cells, j) == |h| + k;
            assert hs[|h| + k] == tail[k];
          } else {
            assert Filled(cells, 0) == 0;
          }
        }
      }
      hs
  }

  /** The header of each column: its cell's text, `''` for an empty cell. */
  function HeadersByColumn(cells: Cells, host: Host): (hs: seq<string>)
    ensures |hs| == |cells|
    ensures forall j :: 0 <= j < |cells| && !Nullish(cells[j]) ==> hs[j] == HeaderText(cells[j], host)
    ensures forall j :: 0 <= j < |cells| && Nullish(cells[j]) ==> hs[j] == ""
  {
    if cells == [] then []
    else [if Nullish(cells[0]) then "" else HeaderText(cells[0], host)] + HeadersByColumn(cells[1..], host)
  }

  /** Column `j` (0-based) of a data row writes key `k`: it has a value and its header is `k`, not empty. */
  predicate Writes(headers: seq<string>, cells: Cells, k: string, j: int) {
    0 <= j < |cells| && j < |headers| && headers[j] == k && k != "" && !Nullish(cells[j])
  }

  /**
   * One data row: `rowData[headers[colNumber - 1]] = cell.value` for each
   * filled cell in column order, when that header is truthy. A cell
   * `eachCell` visits has a value, so the `''` fallback never applies.
   */
  function RowData(headers: seq<string>, cells: Cells): (r: Coerce.Row)
    ensures forall k :: k in r ==> k != "" && k in headers
  {
    if cells == [] then map[]
    else
      var j := |cells| - 1;
      var r := RowData(headers, cells[..j]);
      if !Nullish(cells[j]) && j < |headers| && headers[j] != "" then r[headers[j] := cells[j]] else r
  }

  /** A key is in a row's object exactly when one of its cells writes it. */
  lemma {:induction false} RowDataDomain(headers: seq<string>, cells: Cells, k: string)
    ensures k in RowData(headers, cells) <==> exists j :: Writes(headers, cells, k, j)
  {
    if cells != [] {
      var n := |cells| - 1;
      var init := cells[..n];
      RowDataDomain(headers, init, k);
      if !Writes(headers, cells, k, n) {
        forall j | Writes(headers, cells, k, j) ensures Writes(headers, init, k, j) {
          assert init[j] == cells[j];
        }
        forall j | Writes(headers, init, k, j) ensures Writes(headers, cells, k, j) {
          assert init[j] == cells[j];
        }
      }
    }
  }

  /** Of several cells under one header, the last one's value stays. */
  lemma {:induction false} RowDataLast(headers: seq<string>, cells: Cells, k: string, j: int)
    requires Writes(headers, cells, k, j)
    requires forall i :: j < i < |cells| ==> !Writes(headers, cells, k, i)
    ensures k in RowData(headers, cells) && RowData(headers, cells)[k] == cells[j]
  {
    var n := |cells| - 1;
    if j < n {
      var init := cells[..n];
      assert init[j] == cells[j];
      forall i | j < i < |init| ensures !Writes(headers, init, k, i) {
        assert init[i] == cells[i];
        assert !Writes(headers, cells, k, i);
      }
      RowDataLast(headers, init, k, j);
      assert !Writes(headers, cells, k, n);
    }
  }

  /** The data rows pushed: each row's object, when it has at least one key. */
  function DataRows(headers: seq<string>, rows: seq<Cells>): (data: seq<Coerce.Row>)
    ensures |data| <= |rows|
    ensures forall d :: d in data ==> d != map[] && exists r :: r in rows && d == RowData(headers, r)
    ensures forall r :: r in rows && RowData(headers, r) != map[] ==> RowData(headers, r) in data
  {
    if rows == [] then []
    else
      var d := RowData(headers, rows[0]);
      var tail := DataRows(headers, rows[1..]);
      var data := (if d != map[] then [d] else []) + tail;
      assert forall r :: r in rows && r != rows[0] ==> r in rows[1..];
      assert forall x :: x in data ==> x != map[] && exists r :: r in rows && x == RowData(headers, r) by {
        forall x | x in data ensures exists r :: r in rows && x == RowData(headers, r) {
          if x in tail {
            var r :| r in rows[1..] && x == RowData(headers, r);
            assert r in rows;
          } else {
            assert rows[0] in rows;
          }
        }
      }
      data
  }

  /** The first row's object, if it has a key, followed by the rest's. */
  lemma DataRowsCons(headers: seq<string>, rows: seq<Cells>)
    requires rows != []
    ensures DataRows(headers, rows) ==
      (if RowData(headers, rows[0]) != map[] then [RowData(headers, rows[0])] else []) + DataRows(headers, rows[1..])
  {
  }

  /** The rows of a joined list are the joined rows: the kept objects stay in row order. */
  lemma {:induction false} DataRowsConcat(headers: seq<string>, rows1: seq<Cells>, rows2: seq<Cells>)
    ensures DataRows(headers, rows1 + rows2) == DataRows(headers, rows1) + DataRows(headers, rows2)
  {
    if rows1 != [] {
      var rows := rows1 + rows2;
      assert rows[0] == rows1[0] && rows[1..] == rows1[1..] + rows2;
      DataRowsConcat(headers, rows1[1..], rows2);
      DataRowsCons(headers, rows1);
      DataRowsCons(headers, rows);
    } else {
      assert rows1 + rows2 == rows2;
    }
  }

  /** A single row is kept exactly when its object has a key. */
  lemma DataRowsOne(headers: seq<string>, row: Cells)
    ensures DataRows(headers, [row]) == if RowData(headers, row) == map[] then [] else [RowData(headers, row)]
  {
    assert [row][1..] == [];
  }

  /** The parser the controllers run: headers collected without the empty cells. */
  function ParseAsWritten(sheet: seq<Cells>, host: Host): (data: seq<Coerce.Row>)
    ensures |data| < |sheet| || sheet == []
    ensures sheet != [] ==> forall d :: d in data <==>
      d != map[] && exists r :: r in sheet[1..] && d == RowData(HeadersAsWritten(sheet[0], host), r)
  {
    if sheet == [] then [] else DataRows(HeadersAsWritten(sheet[0], host), sheet[1..])
  }

  /** The parser they mean: each data cell under the header of its own column. */
  function Parse(sheet: seq<Cells>, host: Host): (data: seq<Coerce.Row>)
    ensures |data| < |sheet| || sheet == []
    ensures sheet != [] ==> forall d :: d in data <==>
      d != map[] && exists r :: r in sheet[1..] && d == RowData(HeadersByColumn(sheet[0], host), r)
  {
    if sheet == [] then [] else DataRows(HeadersByColumn(sheet[0], host), sheet[1..])
  }

  /** On a header row without empty cells the collected headers are the column headers. */
  lemma {:induction false} GaplessHeaders(cells: Cells, host: Host)
    requires forall j :: 0 <= j < |cells| ==> !Nullish(cells[j])
    ensures HeadersAsWritten(cells, host) == HeadersByColumn(cells, host)
  {
    if cells != [] {
      var tail := cells[1..];
      assert forall j :: 0 <= j < |tail| ==> tail[j] == cells[j + 1];
      GaplessHeaders(tail, host);
      var hs := HeadersByColumn(cells, host);
      assert hs == [HeaderText(cells[0], host)] + HeadersByColumn(tail, host);
    }
  }

  /** Both parsers agree on every sheet whose header row has no empty cell. */
  lemma {:induction false} GaplessAgree(sheet: seq<Cells>, host: Host)
    requires sheet != [] && forall j :: 0 <= j < |sheet[0]| ==> !Nullish(sheet[0][j])
    ensures ParseAsWritten(sheet, host) == Parse(sheet, host)
  {
    GaplessHeaders(sheet[0], host);
  }

  /** A header cell holding trimmed text is that text. */
  lemma {:induction false} TextHeader(t: string, host: Host)
    requires t != "" && Tight(t)
    ensures HeaderText(Str(t), host) == t
  {
    assert Text(Str(t), host) == t;
    TrimFixedPoint(t);
    assert Trim(t) == t;
  }

  /** A header row whose first cell is empty: the collected headers skip it. */
  lemma {:induction false} GapHeadersWritten(t: string, host: Host)
    requires t != "" && Tight(t)
    ensures HeadersAsWritten([Null, Str(t)], host) == [t]
  {
    var header: Cells := [Null, Str(t)];
    TextHeader(t, host);
    var one: Cells := [Str(t)];
    assert header[1..] == one;
    assert one[1..] == [];
    assert HeadersAsWritten(one, host) == [t];
  }

  /** A header row whose first cell is empty: by column, its first header is empty. */
  lemma {:induction false} GapHeadersByColumn(t: string, host: Host)
    requires t != "" && Tight(t)
    ensures HeadersByColumn([Null, Str(t)], host) == ["", t]
  {
    var header: Cells := [Null, Str(t)];
    TextHeader(t, host);
    var one: Cells := [Str(t)];
    assert header[1..] == one;
    assert one[1..] == [];
    assert HeadersByColumn(one, host) == [t];
  }

  /** The object a two-cell data row makes under two header lists. */
  lemma {:induction false} TwoCellRow(h0: string, h1: string, x: JsValue, y: JsValue)
    requires !Nullish(x) && !Nullish(y)
    ensures h1 == "" ==> RowData([h0], [x, y]) == (if h0 == "" then map[] else map[h0 := x])
    ensures h0 == "" && h1 != "" ==> RowData([h0, h1], [x, y]) == map[h1 := y]
  {
    var data := [x, y];
    assert data[..1] == [x] && data[..1][..0] == [];
  }

  /** A sheet of a header row and one data row that writes key `k` parses into that row's object. */
  lemma {:induction false} TwoRowSheet(header: Cells, cells: Cells, host: Host, k: string)
    ensures k in RowData(HeadersAsWritten(header, host), cells) ==>
      ParseAsWritten([header, cells], host) == [RowData(HeadersAsWritten(header, host), cells)]
    ensures k in RowData(HeadersByColumn(header, host), cells) ==>
      Parse([header, cells], host) == [RowData(HeadersByColumn(header, host), cells)]
  {
    assert [header, cells][1..] == [cells];
    assert [cells][1..] == [];
  }

  /** The header row `[empty, 名称]`, as collected and by column. */
  lemma {:induction false} NameAfterGap(host: Host)
    ensures HeadersAsWritten([Null, Str("名称")], host) == ["名称"]
    ensures HeadersByColumn([Null, Str("名称")], host) == ["", "名称"]
  {
    assert Tight("名称");
    GapHeadersWritten("名称", host);
    GapHeadersByColumn("名称", host);
  }

  /**
   * The misalignment, on a two-column sheet whose first header cell is
   * empty: the controllers file the first column's value under the second
   * column's header and drop the second column.
   */
  lemma {:induction false} HeaderShift(host: Host)
    ensures var sheet := [[Null, Str("名称")], [Str("x"), Str("y")]];
      && ParseAsWritten(sheet, host) == [map["名称" := Str("x")]]
      && Parse(sheet, host) == [map["名称" := Str("y")]]
  {
    var header: Cells := [Null, Str("名称")];
    var data: Cells := [Str("x"), Str("y")];
    NameAfterGap(host);
    TwoCellRow("名称", "", Str("x"), Str("y"));
    TwoCellRow("", "名称", Str("x"), Str("y"));
    TwoRowSheet(header, data, host, "名称");
  }

  /** The header row an export writes: its labels, in header order. */
  function LabelRow<C>(keys: seq<C>, labelOf: C -> string): (cells: Cells)
    ensures |cells| == |keys|
    ensures forall j :: 0 <= j < |keys| ==> cells[j] == Str(labelOf(keys[j]))
  {
    seq(|keys|, j requires 0 <= j < |keys| => Str(labelOf(keys[j])))
  }

  /** The data row an export writes for one record. */
  function ValueRow<C>(keys: seq<C>, record: map<C, JsValue>, isoDates: bool, iso: int -> string): (cells: Cells)
    ensures |cells| == |keys|
    ensures forall j :: 0 <= j < |keys| ==> cells[j] == Export.Cell(Export.Lookup(record, keys[j]), isoDates, iso)
  {
    seq(|keys|, j requires 0 <= j < |keys| => Export.Cell(Export.Lookup(record, keys[j]), isoDates, iso))
  }

  /** Labels a header row keeps as they are, one per key. */
  predicate GoodLabels<C>(keys: seq<C>, labelOf: C -> string) {
    && (forall j :: 0 <= j < |keys| ==> labelOf(keys[j]) != "" && Tight(labelOf(keys[j])))
    && (forall i, j :: 0 <= i < j < |keys| ==> labelOf(keys[i]) != labelOf(keys[j]))
  }

  /**
   * The data row of an exported record, under its labels, holds each key's
   * exported cell under its label and nothing else.
   */
  lemma {:induction false} LabelledRow<C>(keys: seq<C>, labelOf: C -> string, record: map<C, JsValue>,
                                          isoDates: bool, iso: int -> string, headers: seq<string>)
    requires GoodLabels(keys, labelOf)
    requires |headers| == |keys| && forall j :: 0 <= j < |keys| ==> headers[j] == labelOf(keys[j])
    ensures Export.Written(RowData(headers, ValueRow(keys, record, isoDates, iso)), keys, labelOf, record, isoDates, iso)
  {
    var cells := ValueRow(keys, record, isoDates, iso);
    var row := RowData(headers, cells);
    forall k | k in keys ensures labelOf(k) in row && row[labelOf(k)] == Export.Cell(Export.Lookup(record, k), isoDates, iso) {
      var j :| 0 <= j < |keys| && keys[j] == k;
      assert Writes(headers, cells, labelOf(k), j);
      forall i | j < i < |cells| ensures !Writes(headers, cells, labelOf(k), i) {
        assert headers[i] == labelOf(keys[i]);
      }
      RowDataLast(headers, cells, labelOf(k), j);
    }
    forall h | h in row ensures exists k :: k in keys && labelOf(k) == h {
      RowDataDomain(headers, cells, h);
      var j :| Writes(headers, cells, h, j);
      assert keys[j] in keys && labelOf(keys[j]) == h;
    }
  }

  /** The header row an export writes reads back, column by column, as its labels. */
  lemma {:induction false} LabelHeaders<C>(keys: seq<C>, labelOf: C -> string, host: Host)
    requires GoodLabels(keys, labelOf)
    ensures |HeadersByColumn(LabelRow(keys, labelOf), host)| == |keys|
    ensures forall j :: 0 <= j < |keys| ==> HeadersByColumn(LabelRow(keys, labelOf), host)[j] == labelOf(keys[j])
  {
    var row := LabelRow(keys, labelOf);
    var hs := HeadersByColumn(row, host);
    forall j | 0 <= j < |keys| ensures hs[j] == labelOf(keys[j]) {
      var t := labelOf(keys[j]);
      assert row[j] == Str(t) && !Nullish(row[j]);
      TextHeader(t, host);
    }
  }

  /**
   * An exported sheet of one record parses, with either parser, into one
   * row that holds each key's exported cell under its label and nothing
   * else: the row every service's re-import lemma starts from.
   */
  lemma {:induction false} ExportedSheetReadsBack<C>(keys: seq<C>, labelOf: C -> string, record: map<C, JsValue>,
                                                     isoDates: bool, iso: int -> string, host: Host)
    requires |keys| > 0 && GoodLabels(keys, labelOf)
    ensures var sheet := [LabelRow(keys, labelOf), ValueRow(keys, record, isoDates, iso)];
      && ParseAsWritten(sheet, host) == Parse(sheet, host)
      && |Parse(sheet, host)| == 1
      && Export.Written(Parse(sheet, host)[0], keys, labelOf, record, isoDates, iso)
  {
    var header := LabelRow(keys, labelOf);
    var cells := ValueRow(keys, record, isoDates, iso);
    var headers := HeadersByColumn(header, host);
    assert ParseAsWritten([header, cells], host) == Parse([header, cells], host) by {
      GaplessAgree([header, cells], host);
    }
    assert Export.Written(RowData(headers, cells), keys, labelOf, record, isoDates, iso) by {
      LabelHeaders(keys, labelOf, host);
      LabelledRow(keys, labelOf, record, isoDates, iso, headers);
    }
    assert Parse([header, cells], host) == [RowData(headers, cells)] by {
      assert labelOf(keys[0]) in RowData(headers, cells);
      TwoRowSheet(header, cells, host, labelOf(keys[0]));
    }
  }
}

=== FILE: stock.dfy ===
/**
 * The stock service: its list (newest first) and export filters, the export
 * sheet and the import of a parsed sheet. `fee1` is exported as `费用1` and
 * imported from `费用1（比例或者总数）`, falling back to `费用1`.
 */
module Stock {
  import opened JsValues
  import opened Conditions
  import Coerce
  import Export
  import Sanitize

  /** The entity's columns that the service reads or writes. */
  datatype Column =
    | product_code
    | weight
    | purchase_price
    | payment_price
    | box_specification
    | product_quantity
    | brand_owner
    | supplier
    | is_rebate_calculated
    | fee1
    | fee2
    | fee3
    | fee4
    | fee5
    | rebate

  /** The export `headers`, in sheet order. */
  const Headers: seq<Column> :=
    [product_code, weight, purchase_price, payment_price, box_specification, product_quantity, brand_owner, supplier] +
    [is_rebate_calculated, fee1, fee2, fee3, fee4, fee5, rebate]

  /** A column's header label in the export. */
  function Label(c: Column): string {
    match c
    case product_code => "商品编码"
    case weight => "重量"
    case purchase_price => "采购价"
    case payment_price => "打款价"
    case box_specification => "箱规"
    case product_quantity => "商品数量"
    case brand_owner => "品牌方"
    case supplier => "供货方"
    case is_rebate_calculated => "是否计算返利"
    case fee1 => "费用1"
    case fee2 => "费用2"
    case fee3 => "费用3"
    case fee4 => "费用4"
    case fee5 => "费用5"
    case rebate => "返利"
  }

  /** Where `import` reads a column from, and the expression shape it uses. */
  function Rule(c: Column): Coerce.Rule {
    match c
    case product_code => Coerce.Rule("商品编码", Coerce.Text)
    case weight => Coerce.Rule("重量", Coerce.Decimal)
    case purchase_price => Coerce.Rule("采购价", Coerce.Decimal)
    case payment_price => Coerce.Rule("打款价", Coerce.Decimal)
    case box_specification => Coerce.Rule("箱规", Coerce.Text)
    case product_quantity => Coerce.Rule("商品数量", Coerce.Integer)
    case brand_owner => Coerce.Rule("品牌方", Coerce.Text)
    case supplier => Coerce.Rule("供货方", Coerce.Text)
    case is_rebate_calculated => Coerce.Rule("是否计算返利", Coerce.Text)
    case fee1 => Coerce.Rule("费用1（比例或者总数）", Coerce.TextEither("费用1"))
    case fee2 => Coerce.Rule("费用2", Coerce.NonEmptyText)
    case fee3 => Coerce.Rule("费用3", Coerce.NonEmptyText)
    case fee4 => Coerce.Rule("费用4", Coerce.NonEmptyText)
    case fee5 => Coerce.Rule("费用5", Coerce.NonEmptyText)
    case rebate => Coerce.Rule("返利", Coerce.NonEmptyText)
  }

  /** The columns `import` sets. */
  const Imported: set<Column> := set c | c in Headers

  /** `list`: fuzzy product code, `keyWord` on the product code, fuzzy brand owner and supplier; paged. */
  const ListFilter := Filter([
    Fuzzy("product_code", "product_code"),
    Fuzzy("keyWord", "product_code"),
    Fuzzy("brand_owner", "brand_owner"),
    Fuzzy("supplier", "supplier")], true)

  /** `export`: the list filter without `keyWord`, `page` and `size`. */
  const ExportFilter := Filter([
    Fuzzy("product_code", "product_code"),
    Fuzzy("brand_owner", "brand_owner"),
    Fuzzy("supplier", "supplier")], false)

  /** `list` orders by `id`, newest first. */
  const ListOrder: seq<(string, Direction)> := [("id", Desc)]

  /** The options `list` hands to `findAndCount`. */
  function List(q: Query, env: Env): FindOptions {
    FindOptions(Where(ListFilter, q, env), ListOrder, Paginate(q, env.host))
  }

  /** `export` writes every value as it is, dates included. */
  const IsoDates := false

  /** `import`: one entity per parsed row, all saved at once. */
  function Import(rows: seq<Coerce.Row>, p: Coerce.Parsers): Coerce.Imported<Column> {
    Coerce.ImportAll(Imported, Rule, rows, p)
  }

  /**
   * Import reads every column but `fee1` under the label export writes it
   * with; `fee1`'s fallback label is its export label.
   */
  lemma {:induction false} LabelsAgree()
    ensures forall c :: c != fee1 ==> Rule(c).header == Label(c)
    ensures Rule(fee1).how == Coerce.TextEither(Label(fee1)) && Rule(fee1).header != Label(fee1)
  {
  }

  /**
   * Export, then import of the sheet read back: every exported column but
   * `fee1` comes back as `Export.Restores` says, and the summary counts the
   * rows.
   */
  lemma {:induction false} Reimport(records: seq<map<Column, JsValue>>, rows: seq<Coerce.Row>, p: Coerce.Parsers, iso: int -> string)
    requires Coerce.JsParsers(p) && |rows| == |records|
    requires forall i :: 0 <= i < |rows| ==> Export.ReadsBack(rows[i], Headers, Label, records[i], IsoDates, iso)
    ensures Import(rows, p).summary == Coerce.Summary(true, |records|)
    ensures forall i, c :: 0 <= i < |rows| && c in Headers && c != fee1 ==>
      Export.Restores(Rule(c).how, Export.Lookup(records[i], c), IsoDates, iso, p, Import(rows, p).entities[i][c])
  {
    LabelsAgree();
    forall i | 0 <= i < |rows| {
      Export.RowRoundTrip(Headers, Label, Rule, records[i], rows[i], p, IsoDates, iso);
    }
  }

  /**
   * `fee1` survives a round trip through its fallback label: sanitised,
   * non-empty text comes back as itself and a missing value as null.
   */
  lemma {:induction false} Fee1RoundTrip(record: map<Column, JsValue>, row: Coerce.Row, p: Coerce.Parsers, iso: int -> string)
    requires Coerce.JsParsers(p) && Export.Written(row, Headers, Label, record, IsoDates, iso)
    ensures Export.Lookup(record, fee1).Str? && Export.Plain(Export.Lookup(record, fee1).s) ==>
      Coerce.Read(Rule(fee1), row, p) == Export.Lookup(record, fee1)
    ensures Nullish(Export.Lookup(record, fee1)) ==> Coerce.Read(Rule(fee1), row, p) == Null
  {
    Fee1FromFallback(record, row, iso);
    var v := Export.Lookup(record, fee1);
    if v.Str? && Export.Plain(v.s) {
      Sanitize.SafeTrimFixedPoint(v.s);
    }
    if Nullish(v) {
      assert Sanitize.Trim("") == "";
      assert Sanitize.Strip("") == "";
      assert Sanitize.SafeTrim(Str("")) == Str("");
    }
  }

  /** In an exported sheet, `fee1`'s first label is absent and its fallback label holds the exported cell. */
  lemma {:induction false} Fee1FromFallback(record: map<Column, JsValue>, row: Coerce.Row, iso: int -> string)
    requires Export.Written(row, Headers, Label, record, IsoDates, iso)
    ensures Coerce.Cell(row, Rule(fee1).header) == Undefined
    ensures Coerce.Cell(row, Rule(fee1).how.alt) == Export.Cell(Export.Lookup(record, fee1), IsoDates, iso)
  {
    assert Rule(fee1).header == "费用1（比例或者总数）";
    forall k ensures Label(k) != "费用1（比例或者总数）" {
      NotFee1Header(k);
    }
    assert Rule(fee1).header !in row;
  }

  /** No export label is `fee1`'s first import label. */
  lemma {:induction false} NotFee1Header(k: Column)
    ensures Label(k) != "费用1（比例或者总数）"
  {
    match k
    case product_code =>
    case weight =>
    case purchase_price =>
    case payment_price =>
    case box_specification =>
    case product_quantity =>
    case brand_owner =>
    case supplier =>
    case is_rebate_calculated =>
    case fee1 =>
    case fee2 =>
    case fee3 =>
    case fee4 =>
    case fee5 =>
    case rebate =>
  }

  /**
   * `list` orders newest first, and constrains the product code exactly
   * when `product_code` or `keyWord` is truthy, the keyword winning.
   */
  lemma {:induction false} ListQuery(q: Query, env: Env)
    requires DistinctKeys(q)
    ensures List(q, env).order == [("id", Desc)]
    ensures "product_code" in List(q, env).where <==> Truthy(Get(q, "product_code")) || Truthy(Get(q, "keyWord"))
    ensures Truthy(Get(q, "keyWord")) ==>
      List(q, env).where["product_code"] == Like(Pattern(Get(q, "keyWord"), env.host))
  {
    ListProductCode(q, env);
    if Truthy(Get(q, "keyWord")) {
      ListKeyword(q, env);
    }
  }

  /** The product code is constrained exactly when one of its two steps fires. */
  lemma {:induction false} ListProductCode(q: Query, env: Env)
    requires DistinctKeys(q)
    ensures "product_code" in Where(ListFilter, q, env) <==> Truthy(Get(q, "product_code")) || Truthy(Get(q, "keyWord"))
  {
    assert "product_code" in Names(ListFilter);
    StepsDecide(ListFilter, q, env, "product_code");
    ProductCodeSteps(q, env);
  }

  /** The keyword's step is the last on the product code, so a truthy keyword wins. */
  lemma {:induction false} ListKeyword(q: Query, env: Env)
    requires DistinctKeys(q) && Truthy(Get(q, "keyWord"))
    ensures "product_code" in Where(ListFilter, q, env)
    ensures Where(ListFilter, q, env)["product_code"] == Like(Pattern(Get(q, "keyWord"), env.host))
  {
    ListSteps();
    assert "product_code" in Names(ListFilter);
    assert Fire(ListFilter.steps[1], q, env).Some?;
    LastStepFor(ListFilter, q, env, 1);
  }

  /** The list's product-code steps are the product code's and the keyword's. */
  lemma {:induction false} ProductCodeSteps(q: Query, env: Env)
    ensures (exists i :: 0 <= i < |ListFilter.steps| && ListFilter.steps[i].column == "product_code" && Fire(ListFilter.steps[i], q, env).Some?)
        <==> Truthy(Get(q, "product_code")) || Truthy(Get(q, "keyWord"))
  {
    var s := ListFilter.steps;
    var code, key := Fuzzy("product_code", "product_code"), Fuzzy("keyWord", "product_code");
    assert s[0] == code && s[1] == key by {
      ListSteps();
    }
    if exists i :: 0 <= i < |s| && s[i].column == "product_code" && Fire(s[i], q, env).Some? {
      var i :| 0 <= i < |s| && s[i].column == "product_code" && Fire(s[i], q, env).Some?;
      ProductCodeColumns(i);
    }
    if Truthy(Get(q, "product_code")) {
      assert Fire(code, q, env).Some?;
      assert s[0].column == "product_code" && Fire(s[0], q, env).Some?;
    }
    if Truthy(Get(q, "keyWord")) {
      assert Fire(key, q, env).Some?;
      assert s[1].column == "product_code" && Fire(s[1], q, env).Some?;
    }
  }

  /** The list's steps, by position. */
  lemma {:induction false} ListSteps()
    ensures |ListFilter.steps| == 4
    ensures ListFilter.steps[0] == Fuzzy("product_code", "product_code")
    ensures ListFilter.steps[1] == Fuzzy("keyWord", "product_code")
    ensures ListFilter.steps[2] == Fuzzy("brand_owner", "brand_owner")
    ensures ListFilter.steps[3] == Fuzzy("supplier", "supplier")
  {
  }

  /** Only the first two list steps constrain the product code. */
  lemma {:induction false} ProductCodeColumns(i: int)
    requires 0 <= i < |ListFilter.steps| && ListFilter.steps[i].column == "product_code"
    ensures ListFilter.steps[i] == Fuzzy("product_code", "product_code") || ListFilter.steps[i] == Fuzzy("keyWord", "product_code")
  {
    ListSteps();
    assert |"brand_owner"| != |"product_code"| && |"supplier"| != |"product_code"|;
  }

  /** `export` ignores `keyWord`: only `product_code` decides the product-code filter. */
  lemma {:induction false} ExportIgnoresKeyword(q: Query, env: Env)
    requires DistinctKeys(q)
    ensures "product_code" in Where(ExportFilter, q, env) <==> Truthy(Get(q, "product_code"))
  {
    assert "product_code" in Names(ExportFilter);
    OnlyStepFor(ExportFilter, q, env, 0);
  }

  /** A product quantity whose cell parses to 0 or NaN is stored as null. */
  lemma {:induction false} FailedQuantity(row: Coerce.Row, p: Coerce.Parsers)
    ensures Coerce.ParsesToNothing(Coerce.Cell(row, "商品数量"), p) ==> Coerce.Read(Rule(product_quantity), row, p) == Null
  {
    assert Rule(product_quantity) == Coerce.Rule("商品数量", Coerce.Integer);
    Coerce.FailedParse(Rule(product_quantity), row, p);
  }

  /**
   * An empty cell: the fees and the rebate (`|| null`) store null, while
   * the product code, box specification, brand owner, supplier and rebate
   * flag (`?? null`) keep `''`.
   */
  lemma {:induction false} EmptyTextCells(row: Coerce.Row, p: Coerce.Parsers, c: Column)
    requires Coerce.JsParsers(p) && c != fee1 && Coerce.Cell(row, Rule(c).header) == Str("")
    ensures c == fee2 || c == fee3 || c == fee4 || c == fee5 || c == rebate ==> Coerce.Read(Rule(c), row, p) == Null
    ensures (|| c == product_code || c == box_specification || c == brand_owner || c == supplier
             || c == is_rebate_calculated) ==> Coerce.Read(Rule(c), row, p) == Str("")
  {
    Coerce.EmptyCell(Rule(c), row, p);
  }
}

=== FILE: talent_commission.dfy ===
/**
 * The talent-commission service: its list and export filters, the export
 * sheet and the import of a parsed sheet. The import reads one column,
 * `effect_time`, that the export does not write.
 */
module TalentCommission {
  import opened JsValues
  import opened Conditions
  import Coerce
  import Export

  /** The entity's columns that the service reads or writes. */
  datatype Column =
    | order_id
    | product_id
    | product_name
    | author_account
    | douyin_huoshan_id
    | payment_amount
    | commission_rate
    | estimated_commission
    | settled_amount
    | actual_commission
    | order_status
    | unsettled_reason
    | payment_time
    | receipt_time
    | order_settlement_time
    | product_source
    | final_payment_time
    | deposit_amount
    | shop_id
    | shop_name
    | product_quantity
    | commission_invoice
    | freeze_ratio
    | is_tiered_commission
    | threshold_sales
    | base_commission_rate
    | increased_commission_rate
    | estimated_bonus_commission
    | settled_bonus_commission
    | tiered_plan_id
    | payment_subsidy
    | platform_subsidy
    | talent_subsidy
    | shipping_fee
    | tax_fee
    | shipping_subsidy
    | distribution_source
    | marketing_activity_id
    | promotion_rate
    | promotion_tech_service_fee
    | estimated_promotion_fee
    | settled_promotion_fee
    | plan_type
    | order_source
    | traffic_segment_source
    | traffic_source
    | order_type
    | effect_time

  /** The export `headers`, in sheet order. */
  const Headers: seq<Column> :=
    [order_id, product_id, product_name, author_account, douyin_huoshan_id, payment_amount, commission_rate, estimated_commission] +
    [settled_amount, actual_commission, order_status, unsettled_reason, payment_time, receipt_time, order_settlement_time, product_source] +
    [final_payment_time, deposit_amount, shop_id, shop_name, product_quantity, commission_invoice, freeze_ratio, is_tiered_commission] +
    [threshold_sales, base_commission_rate, increased_commission_rate, estimated_bonus_commission, settled_bonus_commission, tiered_plan_id, payment_subsidy, platform_subsidy] +
    [talent_subsidy, shipping_fee, tax_fee, shipping_subsidy, distribution_source, marketing_activity_id, promotion_rate, promotion_tech_service_fee] +
    [estimated_promotion_fee, settled_promotion_fee, plan_type, order_source, traffic_segment_source, traffic_source, order_type]

  /** A column's header label in the export; a column the export leaves out carries its import label. */
  function Label(c: Column): string {
    match c
    case order_id => "订单id"
    case product_id => "商品id"
    case product_name => "商品名称"
    case author_account => "作者账号"
    case douyin_huoshan_id => "抖音/火山号"
    case payment_amount => "支付金额"
    case commission_rate => "佣金率"
    case estimated_commission => "预估佣金支出"
    case settled_amount => "结算金额"
    case actual_commission => "实际佣金支出"
    case order_status => "订单状态"
    case unsettled_reason => "超时未结算原因"
    case payment_time => "付款时间"
    case receipt_time => "收货时间"
    case order_settlement_time => "订单结算时间"
    case product_source => "商品来源"
    case final_payment_time => "尾款支付时间"
    case deposit_amount => "定金金额"
    case shop_id => "店铺id"
    case shop_name => "店铺名称"
    case product_quantity => "商品数量"
    case commission_invoice => "佣金发票"
    case freeze_ratio => "冻结比例"
    case is_tiered_commission => "是否阶梯佣金"
    case threshold_sales => "门槛销量"
    case base_commission_rate => "基础佣金率"
    case increased_commission_rate => "升佣佣金率"
    case estimated_bonus_commission => "预估奖励佣金支出"
    case settled_bonus_commission => "结算奖励佣金支出"
    case tiered_plan_id => "阶梯计划ID"
    case payment_subsidy => "支付补贴"
    case platform_subsidy => "平台补贴"
    case talent_subsidy => "达人补贴"
    case shipping_fee => "运费"
    case tax_fee => "税费"
    case shipping_subsidy => "运费补贴"
    case distribution_source => "分销来源"
    case marketing_activity_id => "营销活动id"
    case promotion_rate => "推广费率"
    case promotion_tech_service_fee => "推广技术服务费"
    case estimated_promotion_fee => "预估推广费支出"
    case settled_promotion_fee => "结算推广费支出"
    case plan_type => "计划类型"
    case order_source => "订单来源"
    case traffic_segment_source => "流量细分来源"
    case traffic_source => "流量来源"
    case order_type => "订单类型"
    case effect_time => "生效时间"
  }

  /** Where `import` reads a column from, and the expression shape it uses. */
  function Rule(c: Column): Coerce.Rule {
    match c
    case order_id => Coerce.Rule("订单id", Coerce.Text)
    case product_id => Coerce.Rule("商品id", Coerce.Text)
    case product_name => Coerce.Rule("商品名称", Coerce.Text)
    case author_account => Coerce.Rule("作者账号", Coerce.Text)
    case douyin_huoshan_id => Coerce.Rule("抖音/火山号", Coerce.Text)
    case payment_amount => Coerce.Rule("支付金额", Coerce.Decimal)
    case commission_rate => Coerce.Rule("佣金率", Coerce.Decimal)
    case estimated_commission => Coerce.Rule("预估佣金支出", Coerce.Decimal)
    case settled_amount => Coerce.Rule("结算金额", Coerce.Decimal)
    case actual_commission => Coerce.Rule("实际佣金支出", Coerce.Decimal)
    case order_status => Coerce.Rule("订单状态", Coerce.Text)
    case unsettled_reason => Coerce.Rule("超时未结算原因", Coerce.Text)
    case payment_time => Coerce.Rule("付款时间", Coerce.Timestamp)
    case receipt_time => Coerce.Rule("收货时间", Coerce.Timestamp)
    case order_settlement_time => Coerce.Rule("订单结算时间", Coerce.Timestamp)
    case product_source => Coerce.Rule("商品来源", Coerce.Text)
    case final_payment_time => Coerce.Rule("尾款支付时间", Coerce.Timestamp)
    case deposit_amount => Coerce.Rule("定金金额", Coerce.Decimal)
    case shop_id => Coerce.Rule("店铺id", Coerce.Text)
    case shop_name => Coerce.Rule("店铺名称", Coerce.Text)
    case product_quantity => Coerce.Rule("商品数量", Coerce.Integer)
    case commission_invoice => Coerce.Rule("佣金发票", Coerce.Text)
    case freeze_ratio => Coerce.Rule("冻结比例", Coerce.Decimal)
    case is_tiered_commission => Coerce.Rule("是否阶梯佣金", Coerce.Text)
    case threshold_sales => Coerce.Rule("门槛销量", Coerce.Integer)
    case base_commission_rate => Coerce.Rule("基础佣金率", Coerce.Decimal)
    case increased_commission_rate => Coerce.Rule("升佣佣金率", Coerce.Decimal)
    case estimated_bonus_commission => Coerce.Rule("预估奖励佣金支出", Coerce.Decimal)
    case settled_bonus_commission => Coerce.Rule("结算奖励佣金支出", Coerce.Decimal)
    case tiered_plan_id => Coerce.Rule("阶梯计划ID", Coerce.Text)
    case payment_subsidy => Coerce.Rule("支付补贴", Coerce.Decimal)
    case platform_subsidy => Coerce.Rule("平台补贴", Coerce.Decimal)
    case talent_subsidy => Coerce.Rule("达人补贴", Coerce.Decimal)
    case shipping_fee => Coerce.Rule("运费", Coerce.Decimal)
    case tax_fee => Coerce.Rule("税费", Coerce.Decimal)
    case shipping_subsidy => Coerce.Rule("运费补贴", Coerce.Decimal)
    case distribution_source => Coerce.Rule("分销来源", Coerce.Text)
    case marketing_activity_id => Coerce.Rule("营销活动id", Coerce.Text)
    case promotion_rate => Coerce.Rule("推广费率", Coerce.Decimal)
    case promotion_tech_service_fee => Coerce.Rule("推广技术服务费", Coerce.Decimal)
    case estimated_promotion_fee => Coerce.Rule("预估推广费支出", Coerce.Decimal)
    case settled_promotion_fee => Coerce.Rule("结算推广费支出", Coerce.Decimal)
    case plan_type => Coerce.Rule("计划类型", Coerce.Text)
    case order_source => Coerce.Rule("订单来源", Coerce.Text)
    case traffic_segment_source => Coerce.Rule("流量细分来源", Coerce.Text)
    case traffic_source => Coerce.Rule("流量来源", Coerce.Text)
    case order_type => Coerce.Rule("订单类型", Coerce.Text)
    case effect_time => Coerce.Rule("生效时间", Coerce.Timestamp)
  }

  /** The columns `import` sets. */
  const Imported: set<Column> := (set c | c in Headers) + {effect_time}

  /**
   * `list`: fuzzy order id, `keyWord` on the order id, fuzzy order status
   * and shop name, and the payment-time range; paged.
   */
  const ListFilter := Filter([
    Fuzzy("order_id", "order_id"),
    Fuzzy("keyWord", "order_id"),
    Fuzzy("order_status", "order_status"),
    Fuzzy("shop_name", "shop_name"),
    Range("payment_time", "payment_time_start", "payment_time_end")], true)

  /** `export`: the list filter without `keyWord`, `page` and `size`. */
  const ExportFilter := Filter([
    Fuzzy("order_id", "order_id"),
    Fuzzy("order_status", "order_status"),
    Fuzzy("shop_name", "shop_name"),
    Range("payment_time", "payment_time_start", "payment_time_end")], false)

  /** `export` writes dates as ISO-8601 text. */
  const IsoDates := true

  /** `import`: one entity per parsed row, all saved at once. */
  function Import(rows: seq<Coerce.Row>, p: Coerce.Parsers): Coerce.Imported<Column> {
    Coerce.ImportAll(Imported, Rule, rows, p)
  }

  /** Import reads every exported column under the label export writes it with. */
  lemma {:induction false} LabelsAgree()
    ensures forall c :: Rule(c).header == Label(c)
  {
  }

  /** No column is read by trying two labels. */
  lemma {:induction false} SingleLabelRules()
    ensures forall c :: !Rule(c).how.TextEither?
  {
  }

  /**
   * Export, then import of the sheet read back: every exported column of
   * every row comes back as `Export.Restores` says, and the summary counts
   * the rows.
   */
  lemma {:induction false} Reimport(records: seq<map<Column, JsValue>>, rows: seq<Coerce.Row>, p: Coerce.Parsers, iso: int -> string)
    requires Coerce.JsParsers(p) && |rows| == |records|
    requires forall i :: 0 <= i < |rows| ==> Export.ReadsBack(rows[i], Headers, Label, records[i], IsoDates, iso)
    ensures Import(rows, p).summary == Coerce.Summary(true, |records|)
    ensures forall i, c :: 0 <= i < |rows| && c in Headers ==>
      Export.Restores(Rule(c).how, Export.Lookup(records[i], c), IsoDates, iso, p, Import(rows, p).entities[i][c])
  {
    LabelsAgree();
    SingleLabelRules();
    forall i | 0 <= i < |rows| {
      Export.RowRoundTrip(Headers, Label, Rule, records[i], rows[i], p, IsoDates, iso);
    }
  }

  /** No other column carries the label of `effect_time`. */
  lemma {:induction false} OnlyEffectTimeLabel(k: Column)
    requires k != effect_time
    ensures Label(k) != "生效时间"
  {
    match k
    case order_id =>
    case product_id =>
    case product_name =>
    case author_account =>
    case douyin_huoshan_id =>
    case payment_amount =>
    case commission_rate =>
    case estimated_commission =>
    case settled_amount =>
    case actual_commission =>
    case order_status =>
    case unsettled_reason =>
    case payment_time =>
    case receipt_time =>
    case order_settlement_time =>
    case product_source =>
    case final_payment_time =>
    case deposit_amount =>
    case shop_id =>
    case shop_name =>
    case product_quantity =>
    case commission_invoice =>
    case freeze_ratio =>
    case is_tiered_commission =>
    case threshold_sales =>
    case base_commission_rate =>
    case increased_commission_rate =>
    case estimated_bonus_commission =>
    case settled_bonus_commission =>
    case tiered_plan_id =>
    case payment_subsidy =>
    case platform_subsidy =>
    case talent_subsidy =>
    case shipping_fee =>
    case tax_fee =>
    case shipping_subsidy =>
    case distribution_source =>
    case marketing_activity_id =>
    case promotion_rate =>
    case promotion_tech_service_fee =>
    case estimated_promotion_fee =>
    case settled_promotion_fee =>
    case plan_type =>
    case order_source =>
    case traffic_segment_source =>
    case traffic_source =>
    case order_type =>
  }

  /**
   * `effect_time` is imported but never exported: a sheet with only the
   * export's labels stores it as null, whatever the record held.
   */
  lemma {:induction false} EffectTimeLost(row: Coerce.Row, p: Coerce.Parsers)
    requires Coerce.JsParsers(p) && Export.OnlyLabels(row, Headers, Label)
    ensures effect_time in Imported && effect_time !in Headers
    ensures Coerce.Read(Rule(effect_time), row, p) == Null
  {
    EffectTimeImported();
    var rule := Coerce.Rule("生效时间", Coerce.Timestamp);
    assert Rule(effect_time) == rule;
    if rule.header in row {
      var k :| k in Headers && Label(k) == rule.header;
      OnlyEffectTimeLabel(k);
      assert false;
    }
    Coerce.MissingCell(rule, row, p);
  }

  /** `effect_time` is added to the import's columns on top of the export headers. */
  lemma {:induction false} EffectTimeImported()
    ensures effect_time in Imported && effect_time !in Headers
  {
    assert effect_time in {effect_time};
  }

  /**
   * In `list`, a truthy `keyWord` replaces the order-id filter, since its
   * step comes after the one for `order_id`.
   */
  lemma {:induction false} KeywordSearchesOrderId(q: Query, env: Env)
    requires DistinctKeys(q) && Truthy(Get(q, "keyWord"))
    ensures "order_id" in Where(ListFilter, q, env)
    ensures Where(ListFilter, q, env)["order_id"] == Like(Pattern(Get(q, "keyWord"), env.host))
  {
    LastStepFor(ListFilter, q, env, 1);
  }

  /**
   * In `list`, the payment time is constrained exactly when both ends of
   * the range are truthy or the query names `payment_time` itself, and
   * then the exact value wins.
   */
  lemma {:induction false} PaymentTimeRange(q: Query, env: Env)
    requires DistinctKeys(q)
    ensures "payment_time" in Where(ListFilter, q, env) <==>
      (Truthy(Get(q, "payment_time_start")) && Truthy(Get(q, "payment_time_end")))
      || (env.isKey("payment_time") && Truthy(Get(q, "payment_time")))
    ensures env.isKey("payment_time") && Truthy(Get(q, "payment_time")) ==>
      Where(ListFilter, q, env)["payment_time"] == Equals(Get(q, "payment_time"))
  {
    NotDestructured(ListFilter.steps, "payment_time");
    assert "payment_time" !in Names(ListFilter);
    OnlyStepFor(ListFilter, q, env, 4);
  }

  /** `export` ignores `keyWord`: only `order_id` decides the order-id filter. */
  lemma {:induction false} ExportIgnoresKeyword(q: Query, env: Env)
    requires DistinctKeys(q)
    ensures "order_id" in Where(ExportFilter, q, env) <==> Truthy(Get(q, "order_id"))
  {
    assert "order_id" in Names(ExportFilter);
    OnlyStepFor(ExportFilter, q, env, 0);
  }

  /** A product quantity or threshold sales figure whose cell parses to 0 or NaN is stored as null. */
  lemma {:induction false} FailedQuantities(row: Coerce.Row, p: Coerce.Parsers)
    ensures Coerce.ParsesToNothing(Coerce.Cell(row, "商品数量"), p) ==> Coerce.Read(Rule(product_quantity), row, p) == Null
    ensures Coerce.ParsesToNothing(Coerce.Cell(row, "门槛销量"), p) ==> Coerce.Read(Rule(threshold_sales), row, p) == Null
  {
    assert Rule(product_quantity) == Coerce.Rule("商品数量", Coerce.Integer);
    assert Rule(threshold_sales) == Coerce.Rule("门槛销量", Coerce.Integer);
    Coerce.FailedParse(Rule(product_quantity), row, p);
    Coerce.FailedParse(Rule(threshold_sales), row, p);
  }
}

=== FILE: upload.dfy ===
/**
 * The `importExcel` actions of the four import controllers: the gates an
 * upload passes before its first worksheet is parsed and handed to the
 * service's `import`, and the reply each gate gives.
 *
 * The product controllers take one file (`@File()`) and check its MIME type;
 * its data is a buffer (stream mode) or a temporary path (file mode), and
 * only a path is checked for the ZIP signature. The order controllers take a
 * file list (`@Files()`), read the first file's data as a path, and check
 * neither MIME type nor signature.
 *
 * File-system calls, ExcelJS and the service are parameters; an exception
 * they throw is an `Err` carrying its message.
 */
module Upload {
  import Wrappers
  import opened JsValues
  import Coerce
  import Sheet

  /** A byte of a file. */
  newtype byte = x: int | 0 <= x < 256

  /** The MIME type of an `.xlsx` workbook. */
  const XlsxMime := "application/vnd.openxmlformats-officedocument.spreadsheetml.sheet"

  /** A value that is not a string: `typeof` tells it apart from a path. */
  type NonText = v: JsValue | !v.Str? witness Undefined

  /** `file.data`: a buffer, a path (any string), or anything else the framework hands over. */
  datatype FileData = Buffer(bytes: seq<byte>) | Path(path: string) | Other(value: NonText)

  /** One uploaded file. */
  datatype UploadedFile = UploadedFile(mimeType: string, data: FileData)

  /** A loaded workbook, by its first worksheet (`getWorksheet(1)`), if it has one. */
  type Workbook = Wrappers.Option<seq<Sheet.Cells>>

  /**
   * What the actions call outside the model: `existsSync`, `readFileSync`
   * (the file's bytes, or the message of what it throws, as for a
   * directory), ExcelJS' `xlsx.load` and `xlsx.readFile`, and the message of
   * the TypeError raised by reading a property of a missing file.
   */
  datatype Io = Io(
    present: FileData -> bool,
    contents: string -> Wrappers.Result<seq<byte>, string>,
    load: seq<byte> -> Wrappers.Result<Workbook, string>,
    readFile: FileData -> Wrappers.Result<Workbook, string>,
    missingFile: string)

  /** A service's `import`: its summary, or the message of what it threw. */
  type Service = seq<Coerce.Row> -> Wrappers.Result<Coerce.Summary, string>

  /** `this.ok({ message, data })` or `this.fail(message)`. */
  datatype Reply = Ok(message: string, data: Coerce.Summary) | Fail(message: string)

  // ------------------------------------------------------------ signature

  /** A lower-case hexadecimal digit. */
  function HexDigit(d: int): char
    requires 0 <= d < 16
  {
    "0123456789abcdef"[d]
  }

  /** One byte as two hexadecimal digits. */
  function HexByte(b: byte): (s: string)
    ensures |s| == 2
  {
    [HexDigit(b as int / 16), HexDigit(b as int % 16)]
  }

  /** `buffer.toString('hex')`. */
  function Hex(bs: seq<byte>): (s: string)
    ensures |s| == 2 * |bs|
  {
    if bs == [] then "" else HexByte(bs[0]) + Hex(bs[1..])
  }

  /** `s.startsWith(p)`. */
  predicate StartsWith(s: string, p: string) {
    |p| <= |s| && s[..|p|] == p
  }

  /** `fileBuffer.slice(0, 4).toString('hex')`. */
  function ZipHeader(bs: seq<byte>): (h: string)
    ensures |h| <= 8
  {
    Hex(if |bs| < 4 then bs else bs[..4])
  }

  /** The digits the signature check compares. */
  lemma {:induction false} DigitsOfSignature(d: int)
    requires 0 <= d < 16
    ensures HexDigit(d) == '5' <==> d == 5
    ensures HexDigit(d) == '0' <==> d == 0
    ensures HexDigit(d) == '4' <==> d == 4
    ensures HexDigit(d) == 'b' <==> d == 11
  {
    var digits := "0123456789abcdef";
    assert digits[0] == '0' && digits[4] == '4' && digits[5] == '5' && digits[11] == 'b';
    assert forall i :: 0 <= i < 16 && i != 0 ==> digits[i] != '0';
    assert forall i :: 0 <= i < 16 && i != 4 ==> digits[i] != '4';
    assert forall i :: 0 <= i < 16 && i != 5 ==> digits[i] != '5';
    assert forall i :: 0 <= i < 16 && i != 11 ==> digits[i] != 'b';
  }

  /** A byte is written `50` exactly when it is 0x50, and `4b` exactly when it is 0x4B. */
  lemma {:induction false} SignatureBytes(b: byte)
    ensures HexByte(b) == "50" <==> b == 0x50
    ensures HexByte(b) == "4b" <==> b == 0x4B
  {
    DigitsOfSignature(b as int / 16);
    DigitsOfSignature(b as int % 16);
    assert HexByte(b) == "50" <==> HexByte(b)[0] == '5' && HexByte(b)[1] == '0';
    assert HexByte(b) == "4b" <==> HexByte(b)[0] == '4' && HexByte(b)[1] == 'b';
  }

  /**
   * The check `zipHeader.startsWith('504b')` accepts exactly the files
   * whose first two bytes are the ZIP signature `PK` (0x50 0x4B); a file of
   * fewer than two bytes never passes.
   */
  lemma {:induction false} ZipSignature(bs: seq<byte>)
    ensures StartsWith(ZipHeader(bs), "504b") <==> |bs| >= 2 && bs[0] == 0x50 && bs[1] == 0x4B
  {
    var head := if |bs| < 4 then bs else bs[..4];
    if |bs| >= 2 {
      var h := Hex(head);
      var a, b := HexByte(bs[0]), HexByte(bs[1]);
      assert head[0] == bs[0] && head[1..][0] == bs[1];
      assert Hex(head[1..]) == b + Hex(head[1..][1..]);
      assert h == a + (b + Hex(head[1..][1..]));
      assert h[..4] == a + b;
      SignatureBytes(bs[0]);
      SignatureBytes(bs[1]);
      TwoPairs(a, b, "50", "4b");
      assert "504b" == "50" + "4b";
    }
  }

  /** Two-character halves determine the four-character whole. */
  lemma TwoPairs(a: string, b: string, c: string, d: string)
    requires |a| == |b| == |c| == |d| == 2
    ensures a + b == c + d <==> a == c && b == d
  {
    if a + b == c + d {
      assert a == (a + b)[..2] && c == (c + d)[..2];
      assert b == (a + b)[2..] && d == (c + d)[2..];
    }
  }

  // ---------------------------------------------------------------- sheet

  /**
   * The common end of every action: no worksheet fails, a sheet without a
   * data row that maps a header fails, and otherwise the service imports
   * the parsed rows and its summary is the reply.
   */
  function ImportSheet(book: Workbook, host: Host, service: Service): (r: Reply)
    ensures book.None? ==> r == Fail("Excel 文件没有找到工作表")
    ensures book.Some? && Sheet.ParseAsWritten(book.value, host) == [] ==> r == Fail("Excel 文件中没有有效数据")
    ensures r.Ok? <==> book.Some? && Sheet.ParseAsWritten(book.value, host) != [] && service(Sheet.ParseAsWritten(book.value, host)).Ok?
    ensures r.Ok? ==> r == Ok("导入成功", service(Sheet.ParseAsWritten(book.value, host)).value)
    ensures book.Some? && Sheet.ParseAsWritten(book.value, host) != [] && service(Sheet.ParseAsWritten(book.value, host)).Err? ==>
      r == Fail("导入失败: " + service(Sheet.ParseAsWritten(book.value, host)).error)
  {
    if book.None? then Fail("Excel 文件没有找到工作表")
    else
      var data := Sheet.ParseAsWritten(book.value, host);
      if data == [] then Fail("Excel 文件中没有有效数据")
      else
        match service(data)
        case Ok(summary) => Ok("导入成功", summary)
        case Err(e) => Fail("导入失败: " + e)
  }

  /**
   * On a sheet whose header row has no blank cell, the import sees the
   * column-aligned rows: the header shift of the code cannot happen there.
   */
  lemma {:induction false} ImportSheetGapless(sheet: seq<Sheet.Cells>, host: Host, service: Service)
    requires sheet != [] && forall j :: 0 <= j < |sheet[0]| ==> !Nullish(sheet[0][j])
    ensures Sheet.Parse(sheet, host) == [] ==> ImportSheet(Wrappers.Some(sheet), host, service) == Fail("Excel 文件中没有有效数据")
    ensures Sheet.Parse(sheet, host) != [] && service(Sheet.Parse(sheet, host)).Ok? ==>
      ImportSheet(Wrappers.Some(sheet), host, service) == Ok("导入成功", service(Sheet.Parse(sheet, host)).value)
    ensures Sheet.Parse(sheet, host) != [] && service(Sheet.Parse(sheet, host)).Err? ==>
      ImportSheet(Wrappers.Some(sheet), host, service) == Fail("导入失败: " + service(Sheet.Parse(sheet, host)).error)
  {
    Sheet.GaplessAgree(sheet, host);
  }

  // ------------------------------------------------------- product upload

  /** The message of a workbook ExcelJS cannot read. */
  const Unreadable := "无法解析 Excel 文件：文件可能不是有效的 .xlsx 格式"

  /** A loaded workbook, or the reply for one that would not load. */
  function Loaded(loaded: Wrappers.Result<Workbook, string>, host: Host, service: Service): Reply {
    match loaded
    case Ok(book) => ImportSheet(book, host, service)
    case Err(_) => Fail(Unreadable)
  }

  /**
   * `importExcel` of the product SKU and product controllers. A missing
   * file throws on `file.filename`; then the MIME type, the data's kind,
   * an empty buffer, a missing path and a path without the ZIP signature
   * fail in that order; a buffer is loaded without a signature check.
   */
  function ImportFile(file: Wrappers.Option<UploadedFile>, io: Io, host: Host, service: Service): (r: Reply)
    ensures file.None? ==> r == Fail("导入失败: " + io.missingFile)
    ensures file.Some? && file.value.mimeType != XlsxMime ==> r == Fail("仅支持 .xlsx 文件")
    ensures file.Some? && file.value.mimeType == XlsxMime && file.value.data.Other? ==> r == Fail("文件数据格式错误，期望 Buffer 或文件路径")
    ensures file.Some? && file.value.mimeType == XlsxMime && file.value.data == Buffer([]) ==> r == Fail("上传的文件数据为空")
    ensures file.Some? && file.value.mimeType == XlsxMime && file.value.data.Path? && !io.present(file.value.data) ==>
      r == Fail("上传的文件不存在")
    ensures (file.Some? && file.value.mimeType == XlsxMime && file.value.data.Path? && io.present(file.value.data) &&
             io.contents(file.value.data.path).Err?) ==> r == Fail("导入失败: " + io.contents(file.value.data.path).error)
    ensures (file.Some? && file.value.mimeType == XlsxMime && file.value.data.Path? && io.present(file.value.data) &&
             io.contents(file.value.data.path).Ok? &&
             !StartsWith(ZipHeader(io.contents(file.value.data.path).value), "504b")) ==> r == Fail("文件不是有效的 .xlsx 格式")
    ensures (file.Some? && file.value.mimeType == XlsxMime && file.value.data.Buffer? && |file.value.data.bytes| > 0) ==>
      r == Loaded(io.load(file.value.data.bytes), host, service)
    ensures (file.Some? && file.value.mimeType == XlsxMime && file.value.data.Path? && io.present(file.value.data) &&
             io.contents(file.value.data.path).Ok? &&
             StartsWith(ZipHeader(io.contents(file.value.data.path).value), "504b")) ==> r == Loaded(io.readFile(file.value.data), host, service)
    ensures r.Ok? ==> file.Some? && file.value.mimeType == XlsxMime && !file.value.data.Other? && file.value.data != Buffer([])
  {
    if file.None? then Fail("导入失败: " + io.missingFile)
    else if file.value.mimeType != XlsxMime then Fail("仅支持 .xlsx 文件")
    else
      match file.value.data
      case Buffer(bytes) =>
        if |bytes| == 0 then Fail("上传的文件数据为空")
        else Loaded(io.load(bytes), host, service)
      case Path(path) =>
        if !io.present(file.value.data) then Fail("上传的文件不存在")
        else
          (match io.contents(path)
           case Err(e) => Fail("导入失败: " + e)
           case Ok(bs) =>
             if !StartsWith(ZipHeader(bs), "504b") then Fail("文件不是有效的 .xlsx 格式")
             else Loaded(io.readFile(file.value.data), host, service))
      case Other(_) => Fail("文件数据格式错误，期望 Buffer 或文件路径")
  }

  /**
   * In stream mode the product controllers leave the signature to ExcelJS:
   * a non-empty buffer ExcelJS loads is imported whatever its first bytes,
   * while the same bytes behind a path without the signature are refused.
   */
  lemma {:induction false} SignatureOnlyForPaths(bytes: seq<byte>, path: string, io: Io, host: Host, service: Service, book: Workbook)
    requires |bytes| > 0 && !(|bytes| >= 2 && bytes[0] == 0x50 && bytes[1] == 0x4B)
    requires io.load(bytes) == Wrappers.Ok(book)
    requires io.present(Path(path)) && io.contents(path) == Wrappers.Ok(bytes)
    ensures ImportFile(Wrappers.Some(UploadedFile(XlsxMime, Buffer(bytes))), io, host, service) == ImportSheet(book, host, service)
    ensures ImportFile(Wrappers.Some(UploadedFile(XlsxMime, Path(path))), io, host, service) == Fail("文件不是有效的 .xlsx 格式")
  {
    ZipSignature(bytes);
  }

  /**
   * A product upload is imported only after every gate: an `.xlsx` MIME
   * type, and a non-empty buffer or an existing path whose file starts with
   * `PK`; the service then receives the parsed rows.
   */
  lemma {:induction false} ProductImportGates(file: Wrappers.Option<UploadedFile>, io: Io, host: Host, service: Service)
    requires ImportFile(file, io, host, service).Ok?
    ensures file.Some? && file.value.mimeType == XlsxMime
    ensures file.value.data.Buffer? ==> |file.value.data.bytes| > 0
    ensures file.value.data.Path? ==>
      (var read := io.contents(file.value.data.path);
       io.present(file.value.data) && read.Ok? && |read.value| >= 2 && read.value[0] == 0x50 && read.value[1] == 0x4B)
  {
    if file.value.data.Path? {
      if io.contents(file.value.data.path).Ok? {
        ZipSignature(io.contents(file.value.data.path).value);
      }
    }
  }

  // --------------------------------------------------------- order upload

  /** `!file?.data`. */
  predicate MissingData(data: FileData) {
    match data
    case Buffer(_) => false
    case Path(p) => p == ""
    case Other(v) => !Truthy(v)
  }

  /**
   * `importExcel` of the order and ERP order controllers: no file list or
   * an empty one fails, falsy data fails, data `existsSync` rejects fails,
   * and what `xlsx.readFile` throws is reported through the outer catch.
   */
  function ImportFiles(files: Wrappers.Option<seq<UploadedFile>>, io: Io, host: Host, service: Service): (r: Reply)
    ensures files.None? || files == Wrappers.Some([]) ==> r == Fail("未上传文件")
    ensures files.Some? && |files.value| > 0 && MissingData(files.value[0].data) ==> r == Fail("上传的文件路径不存在")
    ensures files.Some? && |files.value| > 0 && !MissingData(files.value[0].data) && !io.present(files.value[0].data) ==>
      r == Fail("上传的文件不存在")
    ensures files.Some? && |files.value| > 0 && !MissingData(files.value[0].data) && io.present(files.value[0].data) ==>
      r == match io.readFile(files.value[0].data)
           case Ok(book) => ImportSheet(book, host, service)
           case Err(e) => Fail("导入失败: " + e)
  {
    if files.None? || |files.value| == 0 then Fail("未上传文件")
    else
      var data := files.value[0].data;
      if MissingData(data) then Fail("上传的文件路径不存在")
      else if !io.present(data) then Fail("上传的文件不存在")
      else
        match io.readFile(data)
        case Ok(book) => ImportSheet(book, host, service)
        case Err(e) => Fail("导入失败: " + e)
  }

  /**
   * The order controllers check no MIME type and no signature: the first
   * file of the list is imported whatever its type, and later files are
   * ignored.
   */
  lemma {:induction false} OrdersIgnoreMime(file: UploadedFile, others: seq<UploadedFile>, mime: string, io: Io, host: Host, service: Service)
    ensures ImportFiles(Wrappers.Some([file] + others), io, host, service)
         == ImportFiles(Wrappers.Some([UploadedFile(mime, file.data)]), io, host, service)
  {
  }
}

=== FILE: wrappers.dfy ===
/** Failure-carrying datatypes shared by every module of the model. */
module Wrappers {

  /** A value that may be absent. */
  datatype Option<+T> = None | Some(value: T)

  /** The outcome of an operation that can fail with a message. */
  datatype Result<+T, +E> = Ok(value: T) | Err(error: E)
}
